=== FILE: README.md ===
# A verified model of the `startScxmlAlgorithm` statechart interpreter

`startScxmlAlgorithm(rootState, client)` in `todo-mvc/scxml-impl.ts` is a small
SCXML interpreter. It works on a DOM tree of `<scxml>`, `<state>`, `<parallel>`,
`<final>`, `<history>`, `<initial>` and `<transition>` elements. It keeps:

- a configuration of active states;
- the set `statesToInvoke` of states entered but not yet activated;
- an internal and an external event queue;
- a history table;
- the payload of the last matched event.

It talks to its host through four callbacks:

- `matchEvent` decides whether a transition accepts an event and returns the event's payload;
- `execute` runs one piece of executable content;
- `toggleInvoke` and `toggleTransition` switch an `<invoke>` or a transition's host listener on and off.

The interpreter enters the root's initial states and runs its event loop. It then returns `dispatch` (queue an external event and run the loop) and `terminate` (leave every active state).

The model follows the same structure, one module per concern:

| file | module | models |
|---|---|---|
| `wrappers.dfy` | `Wrappers` | `Option` |
| `tree.dfy` | `StateTree` | the document: nodes numbered in document order, the transition table, `getChildStates`, `findChildren`, `getTransitions`, `isCompoundState`, `getProperAncestors`, `isDescendant`, `initialTransitionsFor` |
| `tree_facts.dfy` | `TreeFacts` | facts about ancestors and descendants that the rest relies on |
| `targets.dfy` | `Targets` | `getEffectiveTargetStates`, `getTransitionDomain`, `findLCCA` |
| `exitset.dfy` | `ExitSet` | `computeExitSet`, `removeConflictingTransitions` |
| `selection.dfy` | `Selection` | `selectTransitions` |
| `entry.dfy` | `Entry` | `computeEntrySet`, `addDescendantStatesToEnter`, `addAncestorStatesToEnter` |
| `engine.dfy` | `Engine` | `enterStates`, `exitStates`, `microstep`, `eventLoop`, start-up, `dispatch`, `terminate` (`exitInterpreter`) |

## How the model represents the interpreter

- **Tree.** State-like elements are numbered `0..n-1` in document (pre-)order, so `<` on ids is document order. Node 0 is `<scxml>`.
  - Each node stores its parent, its tag, its `initial` attribute and its `deep` flag.
  - It also stores the executable content of its `<onentry>` and `<onexit>` children and its `<invoke>` ids.
  - Transitions live in a table, each with its source, its resolved targets and its content.
- **Synthetic transitions.** The transitions `createTransitionTo` makes (for an `initial` attribute or a first `<state>` child) are `Synthetic(target)`. Declared ones are `Declared(index)`.
- **Matching.** `matchEvent` is a pure function parameter `Matcher<E>` from a transition and an optional event to an optional payload.
- **Effects.** Every call into the host is recorded, in order, in the interpreter's trace as an `Effect`:
  - `Execute(action, payload)`
  - `ToggleInvoke(invoke, on)`
  - `ToggleTransition(trans, on)`
- **Switches.** What a host listener is left switched to is `LastSetting(trace, switch)`: the last toggle of that switch in the trace.
- **Engine.** An `Engine<E>` holds:
  - the configuration;
  - `statesToInvoke`, as the sequence `pending` in insertion order;
  - both queues;
  - the history table;
  - the payload;
  - the trace.
- **Outcome.** A call ends `Settled(engine)`, `Diverges` (the loop never returns) or `Throws` (a `TypeError` escapes).
- **Well-formed documents.** `StateTree.Valid` describes the documents the model covers:
  - every target id resolves to a `<state>`, `<parallel>`, `<final>` or `<history>`;
  - every `initial` attribute names a `<state>` below its node;
  - every `<initial>` and `<history>` has a `<transition>`;
  - a history default never targets another history;
  - every compound state other than `<scxml>` has a default target below it.

  On such a document the interpreter can still throw (a transition without a `target`, see below) or loop (an eventless transition); both are outcomes of the model. `Valid` also leaves out some documents the code does handle (see Left out).

### How the code behaves, as modelled

The model follows the code as written. It shows these behaviours, each stated by a lemma:

- **`selectTransitions` never searches ancestors** (line 106). The search runs over `[state, ...ancestors]`, but always scans `getTransitions(state)`, the atomic state's own transitions. `Selection.AncestorsNeverSearched` proves the search equals the atomic state's first match. `Selection.SelectForCanonical` is the search as the chain suggests, with `Selection.CanonicalSearchesAncestors` as its characterisation.
- **The conflict filter keeps at most one transition** (lines 243-265).
  - A new transition is preempted by the first kept transition whose exit set it does NOT meet.
  - It replaces kept transitions whose exit sets it does meet.
  - So at most one transition survives: `ExitSet.FilterKeepsOne`. It is the last one in a chain of clashing replacements: `ExitSet.ConflictFilterIsLastClashing`.
  - A first transition with an empty exit set blocks all later ones: `ExitSet.EmptyExitFirstBlocks`.
  - Two transitions with disjoint exit sets keep only the first: `ExitSet.DisjointPairKeepsFirst`.
  - `ExitSet.RemoveConflictingCanonical` is the usual SCXML filter, which keeps a maximal set of pairwise non-conflicting transitions, earlier ones first. `ExitSet.CanonicalKeepsDisjointPair` shows it keeps both transitions of a disjoint pair.
- **History is recorded but never restored.**
  - `exitStates` stores the remembered states under the exited parent state (line 217).
  - `addDescendantStatesToEnter` and `getEffectiveTargetStates` look them up under the `<history>` element (lines 155, 282).
  - History elements are never exited states, so no `<history>` ever has a recorded value (`Entry.HistoryNeverRecorded`).
  - Entering a `<history>` target adds nothing (`Entry.HistoryNeverRestored`).
  - A `<history>` target's effective targets are always its default transition's targets. These contribute to the transition's domain and to ancestor entry, but are not themselves entered by default entry.
- **A targeted `<parallel>` that contains states enters one region.** `isCompoundState` (line 267) asks whether any descendant is a `<state>` or `<parallel>`. For such a `<parallel>`, the compound branch (lines 167-171) wins over the parallel branch. Only the path to its first `<state>` child is entered (`Entry.ParallelTargetEntersOneRegion`).
- **An enabled eventless transition makes the event loop spin.**
  - The inner `while` (lines 336-346) calls `selectTransitions(null)` again and again on an unchanged configuration, and can only stop when that selection is empty.
  - So the microstep after the loop (lines 348-349) never runs.
  - `Engine.InnerLoopSpins` and `Engine.EventLoopDiverges` state the divergence; `Engine.InnerLoopDrains` states the other case.
  - The spin needs the eventless selection itself not to throw (next bullet).
  - Internal events are consumed without effect, apart from the payload.
- **One external event per loop.**
  - The `continue` at line 364 leaves `do … while (false)`.
  - At most one external event is taken per `eventLoop` call, and its microstep runs after activation.
  - So the states it enters are activated only by the next call (`Engine.EventLoopSettles`, `Engine.DispatchTakesOneEvent`).
- **`exitStates` switches off invokes but not transitions.** Lines 220-224 have no `toggleTransition(t, false)`. So a transition listener of an exited state stays on (`Engine.ExitKeepsTransitionSwitches`). `exitInterpreter` does switch them off (`Engine.TerminateSwitchesOffTransitions`).
- **A transition without a `target` throws when its targets are read.**
  - `getTargetStates` (line 273) splits an absent `target` into one empty id, and `querySelector('#')` throws a selector syntax error.
  - The same happens through `getEffectiveTargetStates` (line 282) for a targeted `<history>` with no recorded value whose default transition has no `target`. Since no history is ever recorded (above), this is every such `<history>`.
  - The targets are read by `computeEntrySet` at start-up (line 145), by `computeExitSet` in a microstep (line 230), and by the conflict filter for every collected transition once two or more are collected (line 249).
  - So a selection throws when it collects two or more transitions and one is unreadable (`Selection.SelectThrows`). Taking an external event throws exactly when any transition it collects is unreadable (`Engine.ExternalThrowsExactly`). The event loop throws exactly as `Engine.LoopThrows` says (`Engine.EventLoopDiverges`).
- **Start-up throws on a synthetic root transition.**
  - This happens when `<scxml>` has an `initial` attribute, or has no `<initial>` but has a `<state>` child.
  - The transition `createTransitionTo` makes has no parent element, so `getTransitionDomain` calls `isCompoundState(null)` (line 300).
  - Start-up also throws when the root's declared initial transition cannot have its targets read (line 145), or when the first event loop throws.
  - `Engine.StartThrows` characterises exactly when start-up throws.

## Model

| member | source | states |
|---|---|---|
| `StateTree.ChildrenFrom` | todo-mvc/scxml-impl.ts:29-35 | the children of a node carrying one of the wanted tags are exactly the nodes whose parent it is, in document order |
| `StateTree.TransitionsFrom` | todo-mvc/scxml-impl.ts:93-95 | a state's transitions are exactly the table entries whose source it is, in document order |
| `StateTree.FirstChild` | todo-mvc/scxml-impl.ts:29-31 | the first child with a given tag is a child with that tag and no earlier child has it; it is missing exactly when no child has the tag |
| `StateTree.FirstTransition` | todo-mvc/scxml-impl.ts:70-72 | the transition found belongs to the state and no earlier transition of the state precedes it; it is missing exactly when the state has none |
| `StateTree.InitialTransitionsPriority` | todo-mvc/scxml-impl.ts:66-79 | at most one initial transition, chosen in priority order: the `initial` attribute's state; else the first `<transition>` of the first `<initial>` child (the model gives none when that child has none, where the code gives `[null]`; see Left out); else the first `<state>` child; else nothing. The result is empty exactly when none of these applies |
| `TreeFacts.DescendantIsLater` | todo-mvc/scxml-impl.ts:328-330 | an ancestor precedes its descendants in document order, and descent is never mutual (so no state is its own descendant) |
| `TreeFacts.DescendantTransitive` | todo-mvc/scxml-impl.ts:328-330 | a descendant of a descendant is a descendant |
| `TreeFacts.AncestorsWithoutBoundary` | todo-mvc/scxml-impl.ts:314-326 | with no boundary, the proper-ancestor list holds exactly the strict ancestors, the root included, and never the state itself |
| `TreeFacts.AncestorsWithBoundary` | todo-mvc/scxml-impl.ts:314-326 | with a boundary ancestor, the list holds exactly the states strictly between the state and the boundary, neither end included |
| `TreeFacts.AncestorsReachRoot` | todo-mvc/scxml-impl.ts:314-326 | in a well-formed document the unbounded list starts at the parent, follows parent links, and ends at the root |
| `TreeFacts.ChainOrdered` | todo-mvc/scxml-impl.ts:314-326 | each later entry of an ancestor list is an ancestor of each earlier one |
| `TreeFacts.CompoundIffStateChild` | todo-mvc/scxml-impl.ts:267 | in a well-formed document, having a `<state>`/`<parallel>` descendant is the same as having such a child |
| `TreeFacts.BelowRoot` | todo-mvc/scxml-impl.ts:328-330 | every non-root node of a well-formed document is a descendant of `<scxml>` |
| `Targets.EffectiveTargets` | todo-mvc/scxml-impl.ts:278-291 | the effective targets have no repeats, and hold a state exactly when some target contributes it: itself, a recorded history value, or the history's default targets |
| `Targets.CollectMembers` | todo-mvc/scxml-impl.ts:280-288 | the collection loop keeps its list free of repeats, and adds exactly the contributions of the remaining targets to what it already holds |
| `Targets.DefaultCollected` | todo-mvc/scxml-impl.ts:282 | a `<history>` with no recorded value contributes exactly the targets of its default transition |
| `Targets.EffectiveInRange` | todo-mvc/scxml-impl.ts:278-291 | every effective target is a proper node of the document, never the root |
| `Targets.FirstEnclosing` | todo-mvc/scxml-impl.ts:306-312 | the LCCA search returns the first compound ancestor that contains all the other states, or the root when none does |
| `Targets.LCCAIsNearest` | todo-mvc/scxml-impl.ts:306-312 | the LCCA is an ancestor of the source that contains every state, with no nearer ancestor doing so; otherwise it is the root and no ancestor does |
| `Targets.TransitionDomain` | todo-mvc/scxml-impl.ts:293-304 | the domain is the root for no effective targets, the source when it is compound and contains them all, and otherwise the nearest enclosing compound ancestor or the root |
| `Targets.DomainContainsTargets` | todo-mvc/scxml-impl.ts:293-304 | the domain contains every effective target and is the root or a compound state |
| `ExitSet.ComputeExitSet` | todo-mvc/scxml-impl.ts:227-241 | a state is exited exactly when it is active and lies below the domain of some transition that has targets; nothing inactive is exited |
| `ExitSet.ExitSetUnion` | todo-mvc/scxml-impl.ts:227-241 | the exit set of a list of transitions is the union of the exit sets of its parts |
| `ExitSet.TargetlessExitsNothing` | todo-mvc/scxml-impl.ts:229-237 | adding a transition without targets leaves the exit set unchanged |
| `ExitSet.ExitSetDownwardClosed` | todo-mvc/scxml-impl.ts:233-235 | an active descendant of an exited state is exited too |
| `ExitSet.RemoveConflictingTransitions` | todo-mvc/scxml-impl.ts:243-265 | the filter keeps only enabled transitions, never more than one, and exactly one when any is enabled |
| `ExitSet.FilterKeepsOne` | todo-mvc/scxml-impl.ts:245-262 | each step of the filter loop leaves at most one kept transition, drawn from the input or the earlier kept one |
| `ExitSet.ConflictFilterIsLastClashing` | todo-mvc/scxml-impl.ts:243-265 | the surviving transition is the end of the chain of replacements, each of whose exit sets meets the previous survivor's |
| `ExitSet.EmptyExitFirstBlocks` | todo-mvc/scxml-impl.ts:248-254 | when the first enabled transition exits nothing, it alone survives |
| `ExitSet.DisjointPairKeepsFirst` | todo-mvc/scxml-impl.ts:248-254 | of two enabled transitions with disjoint exit sets, only the first survives |
| `ExitSet.RemoveConflictingCanonical` | todo-mvc/scxml-impl.ts:243-265 | the reference filter keeps a subset of the input with pairwise disjoint exit sets, where every dropped transition conflicts with a kept one and the first one is always kept |
| `ExitSet.CanonicalFacts` | todo-mvc/scxml-impl.ts:243-265 | the accept-in-order loop behind the reference filter yields a conflict-free and maximal selection |
| `ExitSet.CanonicalKeepsDisjointPair` | todo-mvc/scxml-impl.ts:248-254 | the reference filter keeps both transitions of a disjoint pair, where the code keeps one |
| `Selection.FirstMatch` | todo-mvc/scxml-impl.ts:106-113 | a found match is one of the state's own transitions, and its payload is what `matchEvent` returned for it |
| `Selection.FirstMatchIsFirst` | todo-mvc/scxml-impl.ts:106-113 | nothing is found exactly when `matchEvent` rejects every transition of the state, and no earlier transition of the state was accepted |
| `Selection.AncestorsNeverSearched` | todo-mvc/scxml-impl.ts:105-116 | searching the chain `[state, ...ancestors]` gives exactly the atomic state's own first match |
| `Selection.SelectionAgreesOnOwnMatch` | todo-mvc/scxml-impl.ts:105-116 | when the atomic state has a match of its own, the code's search and the ancestor-walking search agree |
| `Selection.CanonicalSearchesAncestors` | todo-mvc/scxml-impl.ts:105-116 | the ancestor-walking search finds something exactly when the state or some ancestor has a matching transition |
| `Selection.AtomicFrom` | todo-mvc/scxml-impl.ts:103 | the states scanned are exactly the active atomic states, in increasing document order (the order the `documentOrder` comparator names; see Left out) |
| `Selection.Enabled` | todo-mvc/scxml-impl.ts:101-117 | every collected transition is an atomic state's first match; every such match is collected; the payload is the one from the last match, or unchanged when nothing matched |
| `Selection.EnabledFacts` | todo-mvc/scxml-impl.ts:101-117 | the collection holds each atomic state's first match, in the document order of the sources, and the payload comes from the last one |
| `Selection.SelectTransitions` | todo-mvc/scxml-impl.ts:101-120 | at most one enabled transition is returned, and it is an atomic state's first match; the result is empty exactly when no active atomic state matches; the payload is the last matched one, even if conflict filtering dropped that transition |
| `Selection.SelectionIgnoresPayload` | todo-mvc/scxml-impl.ts:107-110 | which transitions are selected does not depend on the payload held before the call |
| `Entry.DescKeeps` | todo-mvc/scxml-impl.ts:153-178 | descendant entry adds only the state itself and states below it, never a `<history>` or the root, and marks only compound states for default entry |
| `Entry.DescEnters` | todo-mvc/scxml-impl.ts:153-178 | a non-history target is entered, and a compound one is marked for default entry together with the path to its default target; every state newly marked for default entry anywhere below, at any depth, is compound and has the path to its own default target entered |
| `Entry.ChildLoopDefaults` | todo-mvc/scxml-impl.ts:172-176 | every state the loop over a parallel state's children marks for default entry has the path to its default target entered |
| `Entry.AncLoopDefaults` | todo-mvc/scxml-impl.ts:180-190 | every state the ancestor walk marks for default entry, through the regions of parallel ancestors, has the path to its default target entered |
| `Entry.HistoryNeverRecorded` | todo-mvc/scxml-impl.ts:155 | in a history table whose values lie below their keys, no state is ever recorded for a `<history>` node |
| `Entry.HistoryNeverRestored` | todo-mvc/scxml-impl.ts:153-165 | entering a `<history>` node changes nothing |
| `Entry.ChildLoopEnters` | todo-mvc/scxml-impl.ts:172-176 | after the loop over a parallel state's children, every non-history child is entered or has an entered descendant |
| `Entry.AncLoopEnters` | todo-mvc/scxml-impl.ts:180-190 | every ancestor walked is entered, and every parallel one has all its regions covered |
| `Entry.ParallelTargetEntersOneRegion` | todo-mvc/scxml-impl.ts:167-177 | a targeted `<parallel>` containing states enters only itself and states in the one region holding its first `<state>` child; no other region gains a state |
| `Entry.EntryForFacts` | todo-mvc/scxml-impl.ts:144-150 | one transition's entry adds only states below its domain, enters every target with its default descendants, enters the ancestors up to the domain, and enters the default path of every state it marks for default entry |
| `Entry.EntrySetFacts` | todo-mvc/scxml-impl.ts:143-151 | the entry set of a list of transitions only grows what it starts from, stays below their domains, meets every transition's entry requirement, and enters the default path of every state it marks for default entry |
| `Entry.ComputeEntrySet` | todo-mvc/scxml-impl.ts:143-151 | the entry set holds only proper non-history states below some transition's domain, marks only compound ones for default entry, meets every transition's entry requirement, and for every state marked for default entry, at any depth, enters the path to its default target |
| `Engine.Ascending` | todo-mvc/scxml-impl.ts:193 | the entry order lists exactly the set's states in increasing document order |
| `Engine.Descending` | todo-mvc/scxml-impl.ts:210 | the exit order lists exactly the set's states in decreasing document order |
| `Engine.EntryOrderParentsFirst` | todo-mvc/scxml-impl.ts:38-39 | in entry order (increasing document order, see Left out), every state comes after its ancestors |
| `Engine.ExitOrderChildrenFirst` | todo-mvc/scxml-impl.ts:40 | in exit order (decreasing document order, see Left out), every state comes before its ancestors |
| `Engine.AddAllAppends` | todo-mvc/scxml-impl.ts:195 | adding entered states to `statesToInvoke` appends, in order, exactly those not already there |
| `Engine.DropMembers` | todo-mvc/scxml-impl.ts:207-208 | deleting the exit set from `statesToInvoke` keeps exactly the members outside it |
| `Engine.DefaultEntryContent` | todo-mvc/scxml-impl.ts:42-51 | the default-entry content is that of the first `<transition>` of the first `<initial>` child, and is empty when there is no such transition |
| `Engine.OnEntry` | todo-mvc/scxml-impl.ts:196-198 | entering a state only runs executable content, all with the current payload |
| `Engine.OnEntryRuns` | todo-mvc/scxml-impl.ts:196-198 | entering a state runs its `<onentry>` content in order and then, exactly when it is entered by default, its default transition's content, and nothing else |
| `Engine.OnExit` | todo-mvc/scxml-impl.ts:221-222 | exiting a state only ever switches things off |
| `Engine.OnExitRuns` | todo-mvc/scxml-impl.ts:221-222 | exiting a state runs its `<onexit>` content in order, then switches off each of its invokes in order, and nothing else |
| `Engine.OnShutdown` | todo-mvc/scxml-impl.ts:84-89 | shutting a state down only ever switches things off |
| `Engine.OnShutdownRuns` | todo-mvc/scxml-impl.ts:84-89 | shutting a state down does exactly what exiting it does, then switches off each of its transitions in order |
| `Engine.OnActivate` | todo-mvc/scxml-impl.ts:354-358 | activating a state switches things only on |
| `Engine.TransitionContent` | todo-mvc/scxml-impl.ts:134 | running the transitions' content only executes, with the current payload |
| `Engine.TransitionContentRuns` | todo-mvc/scxml-impl.ts:122-134 | running the transitions' content runs each transition's content unbroken, in list order, with nothing before, between or after |
| `Engine.EnterStatesPending` | todo-mvc/scxml-impl.ts:192-201 | entering adds exactly the entry set to the configuration, appends to `statesToInvoke` exactly the new states not already waiting, in document order, and leaves queues, history and payload alone |
| `Engine.EnterStatesTrace` | todo-mvc/scxml-impl.ts:193-200 | entering extends the trace only with content executions under the current payload; each entered state's block (its `<onentry>` content, then its default content when entered by default) appears unbroken, the blocks follow document order, and an ancestor's block ends before any descendant's begins |
| `Engine.RecordHistoryFacts` | todo-mvc/scxml-impl.ts:210-219 | each exited state with a `<history>` child gets a value: its active children when shallow, or its active atomic descendants when deep, as set by the last history child. Other entries stay, the table stays well-formed, and no `<history>` node becomes a key |
| `Engine.ExitStatesFacts` | todo-mvc/scxml-impl.ts:205-225 | exiting removes exactly the exit set from the configuration and from `statesToInvoke`, stores as history the values recorded from the configuration before any state is removed, keeps queues and payload, and goes descendants first |
| `Engine.ExitStatesTrace` | todo-mvc/scxml-impl.ts:205-224 | exiting extends the trace only with `<onexit>` content and switch-offs; each exited state's block appears unbroken, the blocks follow reverse document order, and a descendant's block ends before its ancestor's begins |
| `Engine.ExitStatesSwitches` | todo-mvc/scxml-impl.ts:220-224 | every invoke of an exited state ends switched off |
| `Engine.ExitKeepsTransitionSwitches` | todo-mvc/scxml-impl.ts:220-224 | exiting leaves every transition listener as it was |
| `Engine.ExitKeepsEngineOk` | todo-mvc/scxml-impl.ts:205-225 | exiting keeps the interpreter's state well-formed |
| `Engine.EnterKeepsEngineOk` | todo-mvc/scxml-impl.ts:138-202 | entering keeps the interpreter's state well-formed |
| `Engine.MicrostepFacts` | todo-mvc/scxml-impl.ts:132-136 | a microstep's new configuration is the old one minus the exit set plus the entry set computed with the history just recorded from the pre-exit configuration, and that history is the one left behind; the state stays well-formed; queues and payload are kept |
| `Engine.MicrostepKeepsTransitionSwitches` | todo-mvc/scxml-impl.ts:132-136 | a microstep switches no transition listener |
| `Engine.MicrostepPendsEntered` | todo-mvc/scxml-impl.ts:132-136 | every state a microstep newly activates waits in `statesToInvoke` |
| `Engine.InnerLoop` | todo-mvc/scxml-impl.ts:336-346 | when the inner loop ends without throwing, only the internal queue and the payload have changed; configuration, history and trace are as before |
| `Engine.InnerLoopSpins` | todo-mvc/scxml-impl.ts:336-346 | with an eventless transition enabled and its selection not throwing, the inner loop never ends |
| `Engine.InnerLoopDrains` | todo-mvc/scxml-impl.ts:336-346 | with none enabled and the eventless selection not throwing, the inner loop throws exactly when the selection for some queued internal event throws; otherwise it ends with the internal queue empty and still none enabled |
| `Engine.ActivateSwitchesOn` | todo-mvc/scxml-impl.ts:354-361 | every invoke and every transition of a waiting state ends switched on |
| `Engine.TakeExternalFacts` | todo-mvc/scxml-impl.ts:366-373 | taking an external event removes it from the queue, switches no transition listener, keeps the state well-formed, and leaves newly active states waiting |
| `Engine.ExternalThrowsExactly` | todo-mvc/scxml-impl.ts:366-373 | taking an external event throws exactly when some transition its selection collects has no `target` or targets a `<history>` whose default has none: one alone is read by the microstep's exit set, two or more are all read by the conflict filter |
| `Engine.EventLoopDiverges` | todo-mvc/scxml-impl.ts:332-375 | the event loop fails to return exactly when an eventless transition is enabled and its selection does not throw; it throws exactly when the eventless selection throws or, with nothing eventless enabled, the selection for a queued internal event throws or the oldest external event collects an unreadable transition |
| `Engine.EventLoopSettles` | todo-mvc/scxml-impl.ts:332-375 | a returning loop leaves the internal queue empty, consumes exactly the first external event when there is one, switches on the transitions of every state that was waiting, and leaves newly entered states waiting |
| `Engine.DispatchTakesOneEvent` | todo-mvc/scxml-impl.ts:381-384 | `dispatch` queues its event and consumes one event from the front of the external queue |
| `Engine.DispatchDiverges` | todo-mvc/scxml-impl.ts:381-384 | `dispatch` fails to return exactly when an eventless transition is already enabled and its selection does not throw, and throws exactly when the event loop throws on the queue with the new event added |
| `Engine.StartThrows` | todo-mvc/scxml-impl.ts:377-378 | start-up throws exactly when the root's initial transition is a created one (`<scxml>` has an `initial` attribute, or has no `<initial>` child but has a `<state>` child), when it is declared but its targets cannot be read, or when the first event loop throws |
| `Engine.StartWithoutInitialEntersNothing` | todo-mvc/scxml-impl.ts:377-378 | when `<scxml>` has no `initial` attribute, no `<initial>` and no `<state>` child (a top-level `<parallel>`, say), start-up returns with nothing entered and no call into the host |
| `Engine.TopLevelParallelStarts` | todo-mvc/scxml-impl.ts:377-378 | `<scxml><parallel><state/><state/></parallel></scxml>` is a well-formed document, `<scxml>` has no initial transition, and start-up settles with an empty configuration |
| `Engine.StartSettles` | todo-mvc/scxml-impl.ts:377-378 | a start-up that returns leaves both queues and `statesToInvoke` empty and every transition of every active state switched on |
| `Engine.TerminateFacts` | todo-mvc/scxml-impl.ts:81-91 | `terminate` switches off every invoke of every active state and changes nothing but the trace, so the configuration is kept |
| `Engine.TerminateTrace` | todo-mvc/scxml-impl.ts:81-91 | `terminate` extends the trace only with `<onexit>` content and switch-offs; each active state's shutdown block appears unbroken, the blocks follow reverse document order, and a descendant's block ends before its ancestor's begins |
| `Engine.TerminateSwitchesOffTransitions` | todo-mvc/scxml-impl.ts:81-91 | `terminate` switches off every transition of every active state |

## Left out

- The rest of the repository is not part of this model: the DOM host, the TodoMVC application and its list and selector helpers. Only the interpreter's use of their callbacks is modelled.
- Engine.Ascending: states sorted with `entryOrder` (entry, line 193) and with `documentOrder` (the atomic states scanned by selection, line 103) are taken in increasing document order. The comparators at lines 38-40 return `compareDocumentPosition` bit masks, which are positive whichever way the two nodes lie. So the order `Array.prototype.sort` actually produces is left to the JavaScript engine, and the model uses the order the comparators' names promise.
- Engine.Descending: for the same reason, states sorted with `exitOrder` (`exitStates`, line 210, and `exitInterpreter`, line 82) are taken in decreasing document order.
- Engine.EntryOrderParentsFirst: states parents-first only under the order the comparator's name promises; with the bit-mask comparator the real entry order is engine-defined (a sort that keeps insertion order for positive results would keep the set's insertion order). `Engine.EnterStatesTrace` states the order at the level of the trace, under the same reading.
- Engine.ExitOrderChildrenFirst: states children-first only under the order `exitOrder`'s name promises; with the bit-mask comparator the real exit order is engine-defined. `Engine.ExitStatesTrace` and `Engine.TerminateTrace` state the order at the level of the trace, under the same reading.
- Selection.FirstMatchIsFirst: a state's transitions are scanned in document order. The code sorts them with the bit-mask `documentOrder` comparator (line 106), so the real scan order, and with it which matching transition is first, is left to the JavaScript engine. The list comes from `childNodes` in document order, so a sort that keeps insertion order for positive results scans in document order and the model is exact for it.
- Engine.OnEntryRuns: a state's `<onentry>` blocks run in document order. The code sorts them with the bit-mask `documentOrder` comparator (line 196), so in general the order is engine-defined; the list comes from `childNodes` in document order, so a sort that keeps insertion order for positive results makes the model exact.
- Engine.OnExitRuns: a state's `<onexit>` blocks run in document order. The code sorts them with the bit-mask `documentOrder` comparator (line 221), so in general the order is engine-defined; as for `<onentry>`, a sort that keeps insertion order for positive results makes the model exact.
- Engine.OnShutdownRuns: a state's `<onexit>` blocks and its invokes are taken in document order. The code sorts both with the bit-mask `documentOrder` comparator (lines 84 and 86), so in general the order is engine-defined; both lists come from `childNodes` in document order, so a sort that keeps insertion order for positive results makes the model exact.
- Selection.AtomicFrom: lists the atomic states in document order; with the bit-mask `documentOrder` comparator the real scan order is engine-defined, and with it which transition's payload is kept last.
- Engine.InnerLoop: an internal event is taken as it is. The code's `internalQueue.shift() || null` (line 342) turns a falsy event (`0`, `''`, `false`) into `null`, that is, into an eventless selection. Nothing in the code pushes onto the internal queue, so no such event can occur.
- Lines 199-200 (`defaultHistoryContent`) are not modelled: the map is created at line 141 and never written, so the branch never runs.
- Engine.RecordHistoryFacts: a history value is listed in document order, where the code keeps the configuration's insertion order. Only membership is stated, and no value is ever read back.
- ExitSet.TargetlessExitsNothing: the model stores an absent `target` as the empty list, which is what the `targets.length` test at line 231 expects, and this lemma states that intended reading of `computeExitSet`. The code never reaches that test with such a transition: `getTargetStates` throws first (line 273), and the engine models that throw (`Engine.ExternalThrowsExactly`, `Engine.StartThrows`).
- Documents outside `StateTree.Valid` are not modelled, whether the code would raise an error on them or not:
  - an unresolved `initial` id or target id;
  - an `initial` attribute naming a `<state>` that is not below its node: line 68 resolves it anywhere in the document, and the code would enter it;
  - an `<initial>` whose transition's first target is not below its parent state: `getProperAncestors` (lines 314-326) would walk past `<scxml>` while entering the target's ancestors;
  - an `<initial>` or `<history>` without a `<transition>`;
  - a compound state other than `<scxml>` without a default target below it. The code raises this error only when such a state is entered by default (line 169). `<scxml>` itself is never entered by default: when it has no initial transition, start-up enters nothing (`Engine.StartWithoutInitialEntersNothing`), so such documents are in scope.
- StateTree.InitialTransitionsPriority: when the first `<initial>` child has no `<transition>`, the code's `querySelector('transition')` (line 72) yields `[null]`, and `getTargetStates(null)` then throws (line 273). The model gives `[]` here, and `StateTree.Valid` rules such documents out, so the lemma's statement for that case is about the model only.
- A `<history>` whose default transition targets another `<history>`: the code would resolve it recursively. `StateTree.Valid` rules such documents out, which keeps the target resolution a single level deep.
- `currentEvent`, the `running` flag (never cleared, so the `!running` exits are dead) and the inner loop's discarded selections on internal events are not state of the model. Nothing pushes onto `internalQueue`, but the model keeps it as an input.
- A `dispatch` made from inside a host callback (re-entrancy), and a `matchEvent` with side effects or with answers that change between calls: `Matcher` is a pure function.
- An undefined and a `null` payload are both `None`.
- Engine.InnerLoop: the unbounded `while` is run with fuel one larger than the internal queue. `Engine.InnerLoopDrains` shows this fuel always suffices when the loop ends, and `Engine.InnerLoopSpins` shows no fuel suffices when it does not.
- Executable content, `<invoke>` and event payloads are opaque ids and maps. What the host does with them is not modelled.

=== FILE: engine.dfy ===
/**
 * The runtime of `startScxmlAlgorithm`: the state it keeps between calls
 * (`config`, `statesToInvoke`, the two queues, `historyValue`, `eventPayload`)
 * and the operations that change it: `enterStates`, `exitStates`,
 * `microstep`, `eventLoop`, `dispatch`, `terminate` and the start-up call.
 *
 * The host's `execute`, `toggleInvoke` and `toggleTransition` callbacks are
 * recorded, in call order, in a trace of effects; `matchEvent` is a function
 * parameter.
 */
module Engine {
  import opened Wrappers
  import opened StateTree
  import opened TreeFacts
  import opened Targets
  import opened ExitSet
  import opened Selection
  import opened Entry

  /** One host callback. */
  datatype Effect =
    | Execute(action: ActionId, payload: Option<Payload>)
    | ToggleInvoke(invoke: InvokeId, enabled: bool)
    | ToggleTransition(trans: TransId, enabled: bool)

  /**
   * The interpreter's state. `pending` is `statesToInvoke`, a JS `Set` kept in
   * insertion order; `payload` is `eventPayload` (`None` before the first match).
   */
  datatype Engine<E> = Engine(
    config: set<NodeId>,
    pending: seq<NodeId>,
    internal: seq<E>,
    external: seq<E>,
    history: HistoryMap,
    payload: Option<Payload>,
    trace: seq<Effect>)

  /** What a call into the interpreter ends in. */
  datatype Outcome<E> =
    | Settled(engine: Engine<E>)
    | Diverges   // the inner `while` of `eventLoop` never exits
    | Throws     // a TypeError escapes the call

  /** The states a reachable configuration can hold. */
  predicate ConfigOk(t: Tree, config: set<NodeId>) {
    forall s | s in config :: 0 < s < |t.nodes| && !HasTag(t, s, History)
  }

  // ---------------------------------------------------------------------
  // Document order.
  // ---------------------------------------------------------------------

  /** The members of `s` from id `i` on, in document order (`sort(documentOrder)`). */
  function Ascending(t: Tree, s: set<NodeId>, i: nat): (xs: seq<NodeId>)
    decreases |t.nodes| - i
    ensures forall x :: x in xs <==> i <= x < |t.nodes| && x in s
    ensures forall k | 0 <= k < |xs| :: i <= xs[k] < |t.nodes| && xs[k] in s
    ensures forall j, k | 0 <= j < k < |xs| :: xs[j] < xs[k]
  {
    if i >= |t.nodes| then []
    else
      var rest := Ascending(t, s, i + 1);
      if i in s then
        var xs := [i] + rest;
        assert forall k | 1 <= k < |xs| :: xs[k] == rest[k - 1];
        xs
      else rest
  }

  /** The members of `s` below id `i`, in reverse document order (`sort(exitOrder)`). */
  function Descending(s: set<NodeId>, i: nat): (xs: seq<NodeId>)
    ensures forall x :: x in xs <==> x < i && x in s
    ensures forall k | 0 <= k < |xs| :: xs[k] < i && xs[k] in s
    ensures forall j, k | 0 <= j < k < |xs| :: xs[j] > xs[k]
  {
    if i == 0 then []
    else
      var rest := Descending(s, i - 1);
      if i - 1 in s then
        var xs := [i - 1] + rest;
        assert forall k | 1 <= k < |xs| :: xs[k] == rest[k - 1];
        xs
      else rest
  }

  /** Strictly ascending, that is, in document order without repeats. */
  predicate Increasing(xs: seq<NodeId>) {
    forall j, k | 0 <= j < k < |xs| :: xs[j] < xs[k]
  }

  /** A state never comes before one of its ancestors (`entryOrder`). */
  predicate ParentsFirst(t: Tree, xs: seq<NodeId>) {
    forall j, k | 0 <= j < |xs| && 0 <= k < |xs| && IsDescendant(t, xs[j], xs[k]) :: k < j
  }

  /** A state never comes before one of its descendants (`exitOrder`). */
  predicate ChildrenFirst(t: Tree, xs: seq<NodeId>) {
    forall j, k | 0 <= j < |xs| && 0 <= k < |xs| && IsDescendant(t, xs[j], xs[k]) :: j < k
  }

  /** States are entered ancestors first. */
  lemma EntryOrderParentsFirst(t: Tree, s: set<NodeId>)
    ensures ParentsFirst(t, Ascending(t, s, 0))
  {
    var xs := Ascending(t, s, 0);
    forall j, k | 0 <= j < |xs| && 0 <= k < |xs| && IsDescendant(t, xs[j], xs[k]) ensures k < j {
      DescendantIsLater(t, xs[j], xs[k]);
    }
  }

  /** States are exited descendants first. */
  lemma ExitOrderChildrenFirst(t: Tree, s: set<NodeId>)
    ensures ChildrenFirst(t, Descending(s, |t.nodes|))
  {
    var xs := Descending(s, |t.nodes|);
    forall j, k | 0 <= j < |xs| && 0 <= k < |xs| && IsDescendant(t, xs[j], xs[k]) ensures j < k {
      DescendantIsLater(t, xs[j], xs[k]);
    }
  }

  // ---------------------------------------------------------------------
  // Ordered sets of states.
  // ---------------------------------------------------------------------

  function Elems(xs: seq<NodeId>): set<NodeId> {
    set y | y in xs
  }

  /** `xs` without the members of `out`, order kept (`Set.delete` on an insertion-ordered set). */
  function Drop(xs: seq<NodeId>, out: set<NodeId>): seq<NodeId> {
    if xs == [] then [] else (if xs[0] in out then [] else [xs[0]]) + Drop(xs[1..], out)
  }

  lemma {:induction false} DropMembers(xs: seq<NodeId>, out: set<NodeId>)
    ensures forall y :: y in Drop(xs, out) <==> y in xs && y !in out
  {
    if xs != [] {
      DropMembers(xs[1..], out);
      assert xs == [xs[0]] + xs[1..];
    }
  }

  /** Dropping keeps a list free of repeats and in order. */
  lemma DropKeepsOrder(xs: seq<NodeId>, out: set<NodeId>)
    ensures Distinct(xs) ==> Distinct(Drop(xs, out))
    ensures Increasing(xs) ==> Increasing(Drop(xs, out))
  {
    if Distinct(xs) {
      DropKeepsDistinct(xs, out);
    }
    if Increasing(xs) {
      DropKeepsIncreasing(xs, out);
    }
  }

  lemma {:induction false} DropKeepsDistinct(xs: seq<NodeId>, out: set<NodeId>)
    requires Distinct(xs)
    ensures Distinct(Drop(xs, out))
  {
    if xs != [] {
      var rest := xs[1..];
      assert forall j, k | 0 <= j < k < |rest| :: rest[j] == xs[j + 1] && rest[k] == xs[k + 1];
      DropKeepsDistinct(rest, out);
      DropMembers(rest, out);
      var m := Drop(rest, out);
      if xs[0] !in out {
        assert xs[0] !in rest by {
          assert forall k | 0 <= k < |rest| :: rest[k] == xs[k + 1];
        }
        assert xs[0] !in m;
        ConsDistinct(xs[0], m);
      }
    }
  }

  lemma ConsDistinct(x: NodeId, m: seq<NodeId>)
    requires Distinct(m) && x !in m
    ensures Distinct([x] + m)
  {
    var r := [x] + m;
    forall j, k | 0 <= j < k < |r| ensures r[j] != r[k] {
      assert r[k] == m[k - 1];
      if j > 0 { assert r[j] == m[j - 1]; }
    }
  }

  lemma {:induction false} DropKeepsIncreasing(xs: seq<NodeId>, out: set<NodeId>)
    requires Increasing(xs)
    ensures Increasing(Drop(xs, out))
  {
    if xs != [] {
      var rest := xs[1..];
      assert forall j, k | 0 <= j < k < |rest| :: rest[j] == xs[j + 1] && rest[k] == xs[k + 1];
      DropKeepsIncreasing(rest, out);
      DropMembers(rest, out);
      var m := Drop(rest, out);
      if xs[0] !in out {
        forall k | 0 <= k < |m| ensures xs[0] < m[k] {
          assert m[k] in m;
          var i :| 0 <= i < |rest| && rest[i] == m[k];
          assert xs[i + 1] == m[k];
        }
        ConsIncreasing(xs[0], m);
      }
    }
  }

  lemma ConsIncreasing(x: NodeId, m: seq<NodeId>)
    requires Increasing(m) && forall k | 0 <= k < |m| :: x < m[k]
    ensures Increasing([x] + m)
  {
    var r := [x] + m;
    forall j, k | 0 <= j < k < |r| ensures r[j] < r[k] {
      assert r[k] == m[k - 1];
      if j > 0 { assert r[j] == m[j - 1]; }
    }
  }

  /** Dropping a state that does not occur in `xs` changes nothing. */
  lemma {:induction false} DropSkips(xs: seq<NodeId>, out: set<NodeId>, s: NodeId)
    requires s !in xs
    ensures Drop(xs, out + {s}) == Drop(xs, out)
  {
    if xs != [] {
      assert xs[0] != s;
      DropSkips(xs[1..], out, s);
    }
  }

  lemma DistinctTail(ys: seq<NodeId>)
    requires Distinct(ys) && ys != []
    ensures Distinct(ys[1..]) && ys[0] !in ys[1..]
  {
    var rest := ys[1..];
    assert forall k | 0 <= k < |rest| :: rest[k] == ys[k + 1];
  }

  lemma ElemsAddUnique(xs: seq<NodeId>, y: NodeId)
    ensures Elems(AddUnique(xs, y)) == Elems(xs) + {y}
  {
  }

  /** Adding distinct states one by one appends exactly those not yet present, in order. */
  lemma {:induction false} AddAllAppends(xs: seq<NodeId>, ys: seq<NodeId>)
    requires Distinct(ys)
    decreases |ys|
    ensures AddAll(xs, ys) == xs + Drop(ys, Elems(xs))
  {
    if ys != [] {
      var y := ys[0];
      var rest := ys[1..];
      DistinctTail(ys);
      var a := AddUnique(xs, y);
      AddAllAppends(a, rest);
      ElemsAddUnique(xs, y);
      DropSkips(rest, Elems(xs), y);
      var d := Drop(rest, Elems(xs));
      assert AddAll(xs, ys) == a + d;
      if y in xs {
        assert y in Elems(xs);
        assert a == xs;
        assert Drop(ys, Elems(xs)) == d;
      } else {
        assert y !in Elems(xs);
        assert a == xs + [y];
        assert Drop(ys, Elems(xs)) == [y] + d;
        assert a + d == xs + ([y] + d);
      }
    }
  }

  // ---------------------------------------------------------------------
  // Effects and the host's switches.
  // ---------------------------------------------------------------------

  /** `executeContent` over a list of executable elements. */
  function Runs(xs: seq<ActionId>, p: Option<Payload>): (r: seq<Effect>)
    ensures |r| == |xs| && forall k | 0 <= k < |r| :: r[k] == Execute(xs[k], p)
  {
    if xs == [] then [] else [Execute(xs[0], p)] + Runs(xs[1..], p)
  }

  function InvokeToggles(xs: seq<InvokeId>, on: bool): (r: seq<Effect>)
    ensures |r| == |xs| && forall k | 0 <= k < |r| :: r[k] == ToggleInvoke(xs[k], on)
  {
    if xs == [] then [] else [ToggleInvoke(xs[0], on)] + InvokeToggles(xs[1..], on)
  }

  function TransitionToggles(xs: seq<TransId>, on: bool): (r: seq<Effect>)
    ensures |r| == |xs| && forall k | 0 <= k < |r| :: r[k] == ToggleTransition(xs[k], on)
  {
    if xs == [] then [] else [ToggleTransition(xs[0], on)] + TransitionToggles(xs[1..], on)
  }

  /** The callbacks made for each state of `xs` in turn. */
  function Each(xs: seq<NodeId>, piece: NodeId -> seq<Effect>): seq<Effect> {
    if xs == [] then [] else piece(xs[0]) + Each(xs[1..], piece)
  }

  lemma {:induction false} EachContains(xs: seq<NodeId>, piece: NodeId -> seq<Effect>, j: nat, f: Effect)
    requires j < |xs| && f in piece(xs[j])
    ensures f in Each(xs, piece)
  {
    if j > 0 {
      EachContains(xs[1..], piece, j - 1, f);
    }
  }

  /** `fx` holds, from position `at` on, an `execute` call for each of `xs` in turn. */
  predicate RunsAt(fx: seq<Effect>, at: nat, xs: seq<ActionId>, p: Option<Payload>) {
    at + |xs| <= |fx| && forall k | 0 <= k < |xs| :: fx[at + k] == Execute(xs[k], p)
  }

  /** `fx` holds `block`, unbroken, from position `at` on. */
  predicate Placed(fx: seq<Effect>, at: nat, block: seq<Effect>) {
    at + |block| <= |fx| && fx[at..at + |block|] == block
  }

  /** Where the callbacks for `s` start in `Each(xs, piece)`: the length of all blocks before the first `s`. */
  function Slot(xs: seq<NodeId>, piece: NodeId -> seq<Effect>, s: NodeId): nat {
    if xs == [] || xs[0] == s then 0 else |piece(xs[0])| + Slot(xs[1..], piece, s)
  }

  /** The callbacks for every state of `xs` appear, unbroken, at its slot. */
  lemma {:induction false} EachPlaces(xs: seq<NodeId>, piece: NodeId -> seq<Effect>, s: NodeId)
    requires s in xs
    ensures Placed(Each(xs, piece), Slot(xs, piece, s), piece(s))
  {
    var a := piece(xs[0]);
    var rest := Each(xs[1..], piece);
    var fx: seq<Effect> := a + rest;
    assert Each(xs, piece) == fx;
    if xs[0] == s {
      assert fx[0..|a|] == a;
    } else {
      assert s in xs[1..];
      EachPlaces(xs[1..], piece, s);
      var at := Slot(xs[1..], piece, s);
      var b := piece(s);
      assert fx[|a| + at..|a| + at + |b|] == rest[at..at + |b|];
    }
  }

  /** In a list without repeats, the block of an earlier state ends before the block of a later one starts. */
  lemma {:induction false} EachOrders(xs: seq<NodeId>, piece: NodeId -> seq<Effect>, j: nat, k: nat)
    requires Distinct(xs) && j < k < |xs|
    ensures Slot(xs, piece, xs[j]) + |piece(xs[j])| <= Slot(xs, piece, xs[k])
  {
    DistinctTail(xs);
    assert xs[k] == xs[1..][k - 1];
    if j > 0 {
      assert xs[j] == xs[1..][j - 1];
      EachOrders(xs[1..], piece, j - 1, k - 1);
    }
  }

  /** In an ascending list, blocks come in increasing order of state. */
  lemma EachUp(xs: seq<NodeId>, piece: NodeId -> seq<Effect>, a: NodeId, b: NodeId)
    requires Increasing(xs) && a in xs && b in xs && a < b
    ensures Slot(xs, piece, a) + |piece(a)| <= Slot(xs, piece, b)
  {
    var j :| 0 <= j < |xs| && xs[j] == a;
    var k :| 0 <= k < |xs| && xs[k] == b;
    EachOrders(xs, piece, j, k);
  }

  /** In a descending list, blocks come in decreasing order of state. */
  lemma EachDown(xs: seq<NodeId>, piece: NodeId -> seq<Effect>, a: NodeId, b: NodeId)
    requires (forall j, k | 0 <= j < k < |xs| :: xs[j] > xs[k]) && a in xs && b in xs && a > b
    ensures Slot(xs, piece, a) + |piece(a)| <= Slot(xs, piece, b)
  {
    var j :| 0 <= j < |xs| && xs[j] == a;
    var k :| 0 <= k < |xs| && xs[k] == b;
    EachOrders(xs, piece, j, k);
  }

  /** Something the host switches on and off: a `<transition>` or an `<invoke>`. */
  datatype Switch = TransitionSwitch(trans: TransId) | InvokeSwitch(invoke: InvokeId)

  /** The setting an effect gives a switch, if it touches it. */
  function Sets(f: Effect, sw: Switch): Option<bool> {
    match f
    case ToggleTransition(x, on) => if sw == TransitionSwitch(x) then Some(on) else None
    case ToggleInvoke(i, on) => if sw == InvokeSwitch(i) then Some(on) else None
    case Execute(_, _) => None
  }

  /** The setting of `sw` after the host has received `trace`; `None` if never touched. */
  function LastSetting(trace: seq<Effect>, sw: Switch): Option<bool>
    decreases |trace|
  {
    if trace == [] then None
    else if Sets(trace[|trace| - 1], sw).Some? then Sets(trace[|trace| - 1], sw)
    else LastSetting(trace[..|trace| - 1], sw)
  }

  /** Every toggle in `fx` sets its switch to `on`. */
  predicate OnlySets(fx: seq<Effect>, on: bool) {
    forall k | 0 <= k < |fx| :: !fx[k].Execute? ==> fx[k].enabled == on
  }

  /** Every effect in `fx` is an `execute` call made with payload `p`. */
  predicate OnlyExecutes(fx: seq<Effect>, p: Option<Payload>) {
    forall k | 0 <= k < |fx| :: fx[k].Execute? && fx[k].payload == p
  }

  lemma {:induction false} EachOnlySets(xs: seq<NodeId>, piece: NodeId -> seq<Effect>, on: bool)
    requires forall k | 0 <= k < |xs| :: OnlySets(piece(xs[k]), on)
    ensures OnlySets(Each(xs, piece), on)
  {
    if xs != [] {
      assert forall k | 0 <= k < |xs[1..]| :: xs[1..][k] == xs[k + 1];
      EachOnlySets(xs[1..], piece, on);
      var a := piece(xs[0]);
      var b := Each(xs[1..], piece);
      var ab: seq<Effect> := a + b;
      assert OnlySets(a, on);
      forall k | 0 <= k < |ab| ensures !ab[k].Execute? ==> ab[k].enabled == on {
        if k >= |a| { assert ab[k] == b[k - |a|]; }
      }
    }
  }

  lemma {:induction false} EachOnlyExecutes(xs: seq<NodeId>, piece: NodeId -> seq<Effect>, p: Option<Payload>)
    requires forall k | 0 <= k < |xs| :: OnlyExecutes(piece(xs[k]), p)
    ensures OnlyExecutes(Each(xs, piece), p)
  {
    if xs != [] {
      assert forall k | 0 <= k < |xs[1..]| :: xs[1..][k] == xs[k + 1];
      EachOnlyExecutes(xs[1..], piece, p);
      var a := piece(xs[0]);
      var b := Each(xs[1..], piece);
      var ab: seq<Effect> := a + b;
      assert OnlyExecutes(a, p);
      forall k | 0 <= k < |ab| ensures ab[k].Execute? && ab[k].payload == p {
        if k >= |a| { assert ab[k] == b[k - |a|]; }
      }
    }
  }

  /**
   * A switch touched by effects that all set `on` ends up `on`, whatever came
   * before.
   */
  lemma {:induction false} LastSettingWins(a: seq<Effect>, b: seq<Effect>, sw: Switch, on: bool, f: Effect)
    requires OnlySets(b, on) && f in b && Sets(f, sw).Some?
    decreases |b|
    ensures LastSetting(a + b, sw) == Some(on)
  {
    var ab := a + b;
    var l := b[|b| - 1];
    assert ab[|ab| - 1] == l;
    if Sets(l, sw).None? {
      var b' := b[..|b| - 1];
      assert ab[..|ab| - 1] == a + b';
      assert f in b' by {
        var k :| 0 <= k < |b| && b[k] == f;
        assert k != |b| - 1;
        assert b'[k] == f;
      }
      assert OnlySets(b', on) by {
        assert forall k | 0 <= k < |b'| :: b'[k] == b[k];
      }
      LastSettingWins(a, b', sw, on, f);
    }
  }

  /** Effects that leave a switch alone leave its setting as it was. */
  lemma {:induction false} LastSettingKept(a: seq<Effect>, b: seq<Effect>, sw: Switch)
    requires forall k | 0 <= k < |b| :: Sets(b[k], sw).None?
    decreases |b|
    ensures LastSetting(a + b, sw) == LastSetting(a, sw)
  {
    if b != [] {
      var ab := a + b;
      var b' := b[..|b| - 1];
      assert ab[|ab| - 1] == b[|b| - 1];
      assert ab[..|ab| - 1] == a + b';
      assert forall k | 0 <= k < |b'| :: b'[k] == b[k];
      LastSettingKept(a, b', sw);
    } else {
      assert a + b == a;
    }
  }

  /** `pathOrNull(s, ['initial', 'transition'])`, executed: the first `<initial>`'s first transition's content. */
  function DefaultEntryContent(t: Tree, s: NodeId): (c: seq<ActionId>)
    ensures forall i: NodeId, k: TransId | IsFirstChild(t, s, Initial, i) && IsFirstTransition(t, i, k) ::
              c == t.transitions[k].content
    ensures (forall i: NodeId | IsFirstChild(t, s, Initial, i) :: TransitionsOf(t, i) == []) ==> c == []
  {
    match FirstChild(t, s, Initial)
    case None => []
    case Some(i) =>
      match FirstTransition(t, i)
      case None =>
        assert forall k: TransId | IsFirstTransition(t, i, k) :: k in TransitionsOf(t, i);
        []
      case Some(k) => t.transitions[k].content
  }

  /** Entering `s`: its `<onentry>` content, then, on default entry, its `<initial>` content. */
  function OnEntry(t: Tree, s: NodeId, forDefault: set<NodeId>, p: Option<Payload>): (fx: seq<Effect>)
    ensures OnlyExecutes(fx, p)
  {
    if s < |t.nodes| then
      Runs(t.nodes[s].onentry, p) + (if s in forDefault then Runs(DefaultEntryContent(t, s), p) else [])
    else []
  }

  /**
   * Entering a state runs its `<onentry>` content in order and, when it is
   * entered by default, the content of its default transition right after;
   * nothing else.
   */
  lemma OnEntryRuns(t: Tree, s: NodeId, forDefault: set<NodeId>, p: Option<Payload>)
    ensures var fx := OnEntry(t, s, forDefault, p);
            && (s < |t.nodes| ==> RunsAt(fx, 0, t.nodes[s].onentry, p))
            && (s < |t.nodes| && s in forDefault ==>
                  && |fx| == |t.nodes[s].onentry| + |DefaultEntryContent(t, s)|
                  && RunsAt(fx, |t.nodes[s].onentry|, DefaultEntryContent(t, s), p))
            && (s < |t.nodes| && s !in forDefault ==> |fx| == |t.nodes[s].onentry|)
            && (s >= |t.nodes| ==> fx == [])
  {}

  /** Exiting `s` (`exitStates`): its `<onexit>` content, then its invokes switched off. */
  function OnExit(t: Tree, s: NodeId, p: Option<Payload>): (fx: seq<Effect>)
    ensures OnlySets(fx, false)
  {
    if s < |t.nodes| then Runs(t.nodes[s].onexit, p) + InvokeToggles(t.nodes[s].invokes, false) else []
  }

  /** Exiting a state runs its `<onexit>` content in order, then switches off each of its invokes in order. */
  lemma OnExitRuns(t: Tree, s: NodeId, p: Option<Payload>)
    ensures var fx := OnExit(t, s, p);
            && (s < |t.nodes| ==>
                  && |fx| == |t.nodes[s].onexit| + |t.nodes[s].invokes|
                  && RunsAt(fx, 0, t.nodes[s].onexit, p)
                  && forall k | 0 <= k < |t.nodes[s].invokes| ::
                       fx[|t.nodes[s].onexit| + k] == ToggleInvoke(t.nodes[s].invokes[k], false))
            && (s >= |t.nodes| ==> fx == [])
  {}

  /** Shutting `s` down (`exitInterpreter`): as on exit, then its transitions switched off too. */
  function OnShutdown(t: Tree, s: NodeId, p: Option<Payload>): (fx: seq<Effect>)
    ensures OnlySets(fx, false)
  {
    OnExit(t, s, p) + TransitionToggles(TransitionsOf(t, s), false)
  }

  /** Shutting a state down does what exiting it does, then switches off each of its transitions in order. */
  lemma OnShutdownRuns(t: Tree, s: NodeId, p: Option<Payload>)
    ensures var fx := OnShutdown(t, s, p); var ox := OnExit(t, s, p); var ts := TransitionsOf(t, s);
            && Placed(fx, 0, ox)
            && |fx| == |ox| + |ts|
            && forall k | 0 <= k < |ts| :: fx[|ox| + k] == ToggleTransition(ts[k], false)
  {
    var fx := OnShutdown(t, s, p);
    var ox := OnExit(t, s, p);
    assert fx[0..|ox|] == ox;
  }

  /** Activating `s` in `eventLoop`: its invokes, then its transitions, switched on. */
  function OnActivate(t: Tree, s: NodeId): (fx: seq<Effect>)
    ensures OnlySets(fx, true)
  {
    if s < |t.nodes| then InvokeToggles(t.nodes[s].invokes, true) + TransitionToggles(TransitionsOf(t, s), true) else []
  }

  // ---------------------------------------------------------------------
  // `enterStates`.
  // ---------------------------------------------------------------------

  function EntryPiece(t: Tree, forDefault: set<NodeId>, p: Option<Payload>): NodeId -> seq<Effect> {
    (s: NodeId) => OnEntry(t, s, forDefault, p)
  }

  /**
   * `enterStates(transitions)`: the entry set, entered in document order.
   * Each state joins `config` and `statesToInvoke`, then runs its `<onentry>`
   * content and, when it was entered by default, its `<initial>` content.
   * Since the payload does not change inside the loop, the three updates are
   * written side by side.
   */
  function EnterStates<E>(t: Tree, e: Engine<E>, ts: seq<TransRef>): Engine<E>
    requires Valid(t) && HistoryOk(t, e.history) && AllDeclared(t, ts)
  {
    var es := ComputeEntrySet(t, e.history, ts);
    var xs := Ascending(t, es.toEnter, 0);
    e.(config := e.config + es.toEnter,
       pending := AddAll(e.pending, xs),
       trace := e.trace + Each(xs, EntryPiece(t, es.forDefault, e.payload)))
  }

  /**
   * After `enterStates` the configuration has gained exactly the entry set and
   * `statesToInvoke` has gained exactly the entered states it lacked, appended
   * in document order; queues, history and payload are untouched.
   */
  lemma EnterStatesPending<E>(t: Tree, e: Engine<E>, ts: seq<TransRef>)
    requires Valid(t) && HistoryOk(t, e.history) && AllDeclared(t, ts)
    ensures var es := ComputeEntrySet(t, e.history, ts);
            var r := EnterStates(t, e, ts);
            && r.config == e.config + es.toEnter
            && |e.pending| <= |r.pending| && r.pending[..|e.pending|] == e.pending
            && (forall x :: x in r.pending[|e.pending|..] <==> x in es.toEnter && x !in e.pending)
            && Increasing(r.pending[|e.pending|..])
            && r.internal == e.internal && r.external == e.external
            && r.history == e.history && r.payload == e.payload
  {
    var es := ComputeEntrySet(t, e.history, ts);
    var xs := Ascending(t, es.toEnter, 0);
    AddAllAppends(e.pending, xs);
    DropKeepsOrder(xs, Elems(e.pending));
    DropMembers(xs, Elems(e.pending));
    var r := EnterStates(t, e, ts);
    assert r.pending[|e.pending|..] == Drop(xs, Elems(e.pending));
  }

  /**
   * `enterStates` appends to the trace and only makes `execute` calls, all
   * with the current payload. Every entered state gets its own unbroken block
   * (its `<onentry>` content, then, on default entry, its `<initial>`
   * content), and the blocks follow document order, so ancestors before
   * descendants.
   */
  lemma EnterStatesTrace<E>(t: Tree, e: Engine<E>, ts: seq<TransRef>)
    requires Valid(t) && HistoryOk(t, e.history) && AllDeclared(t, ts)
    ensures var r := EnterStates(t, e, ts);
            |e.trace| <= |r.trace| && r.trace[..|e.trace|] == e.trace
    ensures var es := ComputeEntrySet(t, e.history, ts);
            var seg := EnterStates(t, e, ts).trace[|e.trace|..];
            var xs := Ascending(t, es.toEnter, 0);
            var piece := EntryPiece(t, es.forDefault, e.payload);
            && OnlyExecutes(seg, e.payload)
            && (forall s | s in es.toEnter ::
                  Placed(seg, Slot(xs, piece, s), OnEntry(t, s, es.forDefault, e.payload)))
            && (forall a, b | a in es.toEnter && b in es.toEnter && a < b ::
                  Slot(xs, piece, a) + |OnEntry(t, a, es.forDefault, e.payload)| <= Slot(xs, piece, b))
            && (forall a, b | a in es.toEnter && b in es.toEnter && IsDescendant(t, b, a) ::
                  Slot(xs, piece, a) + |OnEntry(t, a, es.forDefault, e.payload)| <= Slot(xs, piece, b))
  {
    var es := ComputeEntrySet(t, e.history, ts);
    var xs := Ascending(t, es.toEnter, 0);
    var piece := EntryPiece(t, es.forDefault, e.payload);
    EachOnlyExecutes(xs, piece, e.payload);
    var r := EnterStates(t, e, ts);
    assert r.trace[|e.trace|..] == Each(xs, piece);
    forall s | s in es.toEnter ensures Placed(Each(xs, piece), Slot(xs, piece, s), piece(s)) {
      EachPlaces(xs, piece, s);
    }
    forall a, b | a in es.toEnter && b in es.toEnter && a < b
      ensures Slot(xs, piece, a) + |piece(a)| <= Slot(xs, piece, b)
    {
      EachUp(xs, piece, a, b);
    }
    forall a, b | a in es.toEnter && b in es.toEnter && IsDescendant(t, b, a)
      ensures Slot(xs, piece, a) + |piece(a)| <= Slot(xs, piece, b)
    {
      DescendantIsLater(t, b, a);
      EachUp(xs, piece, a, b);
    }
  }

  // ---------------------------------------------------------------------
  // `exitStates`.
  // ---------------------------------------------------------------------

  /** The exited states that own a `<history>` child, which `exitStates` records under. */
  function Recorded(t: Tree, exit: set<NodeId>): set<NodeId> {
    set s | s in exit && s < |t.nodes| && ChildrenTagged(t, s, {History}) != []
  }

  /** The `deep` attribute of the last `<history>` child of `s`, whose filter wins. */
  function LastDeep(t: Tree, s: NodeId): bool {
    var hs := ChildrenTagged(t, s, {History});
    if hs == [] then false
    else
      assert hs[|hs| - 1] in hs;
      t.nodes[hs[|hs| - 1]].deep
  }

  /** Whether `exitStates` keeps `x` in the value it records for `s`. */
  predicate Remembers(t: Tree, s: NodeId, deep: bool, x: NodeId) {
    if deep then IsAtomic(t, x) && IsDescendant(t, x, s) else Parent(t, x) == Some(s)
  }

  /** The value recorded for `s`: active atomic descendants (deep) or active children (shallow). */
  function HistoryValue(t: Tree, config: set<NodeId>, s: NodeId, deep: bool): seq<NodeId> {
    Ascending(t, set x | x in config && Remembers(t, s, deep, x), 0)
  }

  /** `historyValue.set(s, …)` for every exited state that owns a `<history>` child. */
  function RecordHistory(t: Tree, hist: HistoryMap, config: set<NodeId>, exit: set<NodeId>): HistoryMap {
    var rec := Recorded(t, exit);
    map s | s in hist.Keys + rec :: if s in rec then HistoryValue(t, config, s, LastDeep(t, s)) else hist[s]
  }

  /**
   * What `exitStates` records: an entry for every exited state with a
   * `<history>` child holding exactly the remembered states of the old
   * configuration, every other entry as before; so a well-formed history map
   * stays well formed, and no entry is ever keyed by a `<history>` element
   * (the only elements under which `getEffectiveTargetStates` and
   * `addDescendantStatesToEnter` look a history value up).
   */
  lemma RecordHistoryFacts(t: Tree, hist: HistoryMap, config: set<NodeId>, exit: set<NodeId>)
    requires Valid(t)
    ensures var h := RecordHistory(t, hist, config, exit);
            && (forall s :: s in h <==> s in hist || s in Recorded(t, exit))
            && (forall s, x | s in Recorded(t, exit) ::
                  x in h[s] <==> x in config && x < |t.nodes| && Remembers(t, s, LastDeep(t, s), x))
            && (forall s | s in hist && s !in Recorded(t, exit) :: h[s] == hist[s])
            && (HistoryOk(t, hist) ==> HistoryOk(t, h))
            && (forall s | s in Recorded(t, exit) :: !HasTag(t, s, History))
  {
    var h := RecordHistory(t, hist, config, exit);
    forall s | s in Recorded(t, exit) ensures !HasTag(t, s, History) {
      var hs := ChildrenTagged(t, s, {History});
      assert hs[0] in hs;
      AncestorIsContainer(t, hs[0], s);
    }
  }

  /** The callbacks of `exitStates` per exited state. */
  function ExitPiece(t: Tree, p: Option<Payload>): NodeId -> seq<Effect> {
    (s: NodeId) => OnExit(t, s, p)
  }

  /**
   * `exitStates(transitions)`: the exit set leaves `statesToInvoke`; history
   * is recorded from the configuration as it was; then, descendants first,
   * each exited state runs its `<onexit>` content, has its invokes switched
   * off, and leaves `config`. Its transitions are NOT switched off.
   */
  function ExitStates<E>(t: Tree, e: Engine<E>, ts: seq<TransRef>): Engine<E>
    requires Valid(t) && AllDeclared(t, ts)
  {
    var exit := ComputeExitSet(t, e.history, e.config, ts);
    e.(config := e.config - exit,
       pending := Drop(e.pending, exit),
       history := RecordHistory(t, e.history, e.config, exit),
       trace := e.trace + Each(Descending(exit, |t.nodes|), ExitPiece(t, e.payload)))
  }

  /**
   * After `exitStates` the configuration and `statesToInvoke` have lost
   * exactly the exit set, the rest of `statesToInvoke` in its old order; the
   * history is recorded from the configuration as it was before any state
   * left it; the queues and payload are untouched; and descendants are exited
   * before their ancestors.
   */
  lemma ExitStatesFacts<E>(t: Tree, e: Engine<E>, ts: seq<TransRef>)
    requires Valid(t) && AllDeclared(t, ts)
    ensures var exit := ComputeExitSet(t, e.history, e.config, ts);
            var r := ExitStates(t, e, ts);
            && r.config == e.config - exit
            && (forall x :: x in r.pending <==> x in e.pending && x !in exit)
            && (Distinct(e.pending) ==> Distinct(r.pending))
            && r.history == RecordHistory(t, e.history, e.config, exit)
            && r.internal == e.internal && r.external == e.external && r.payload == e.payload
            && ChildrenFirst(t, Descending(exit, |t.nodes|))
  {
    var exit := ComputeExitSet(t, e.history, e.config, ts);
    DropMembers(e.pending, exit);
    DropKeepsOrder(e.pending, exit);
    ExitOrderChildrenFirst(t, exit);
  }

  /**
   * `exitStates` appends to the trace one unbroken block per exited state (its
   * `<onexit>` content, then its invokes switched off), in reverse document
   * order, so descendants before ancestors.
   */
  lemma ExitStatesTrace<E>(t: Tree, e: Engine<E>, ts: seq<TransRef>)
    requires Valid(t) && AllDeclared(t, ts)
    ensures var r := ExitStates(t, e, ts);
            |e.trace| <= |r.trace| && r.trace[..|e.trace|] == e.trace
    ensures var exit := ComputeExitSet(t, e.history, e.config, ts);
            var seg := ExitStates(t, e, ts).trace[|e.trace|..];
            var xs := Descending(exit, |t.nodes|);
            var piece := ExitPiece(t, e.payload);
            && OnlySets(seg, false)
            && (forall s | s in exit && s < |t.nodes| :: Placed(seg, Slot(xs, piece, s), OnExit(t, s, e.payload)))
            && (forall a, b | a in exit && b in exit && a < b < |t.nodes| ::
                  Slot(xs, piece, b) + |OnExit(t, b, e.payload)| <= Slot(xs, piece, a))
            && (forall a, b | a in exit && b in exit && b < |t.nodes| && IsDescendant(t, b, a) ::
                  Slot(xs, piece, b) + |OnExit(t, b, e.payload)| <= Slot(xs, piece, a))
  {
    var exit := ComputeExitSet(t, e.history, e.config, ts);
    var xs := Descending(exit, |t.nodes|);
    var piece := ExitPiece(t, e.payload);
    EachOnlySets(xs, piece, false);
    var r := ExitStates(t, e, ts);
    assert r.trace[|e.trace|..] == Each(xs, piece);
    forall s | s in exit && s < |t.nodes| ensures Placed(Each(xs, piece), Slot(xs, piece, s), piece(s)) {
      EachPlaces(xs, piece, s);
    }
    forall a, b | a in exit && b in exit && a < b < |t.nodes|
      ensures Slot(xs, piece, b) + |piece(b)| <= Slot(xs, piece, a)
    {
      EachDown(xs, piece, b, a);
    }
    forall a, b | a in exit && b in exit && b < |t.nodes| && IsDescendant(t, b, a)
      ensures Slot(xs, piece, b) + |piece(b)| <= Slot(xs, piece, a)
    {
      DescendantIsLater(t, b, a);
      EachDown(xs, piece, b, a);
    }
  }

  /** Every `<invoke>` of an exited state ends switched off. */
  lemma ExitStatesSwitches<E>(t: Tree, e: Engine<E>, ts: seq<TransRef>)
    requires Valid(t) && AllDeclared(t, ts) && ConfigOk(t, e.config)
    ensures var exit := ComputeExitSet(t, e.history, e.config, ts);
            var r := ExitStates(t, e, ts);
            forall s, i | s in exit && i in t.nodes[s].invokes :: LastSetting(r.trace, InvokeSwitch(i)) == Some(false)
  {
    var exit := ComputeExitSet(t, e.history, e.config, ts);
    var xs := Descending(exit, |t.nodes|);
    assert ExitStates(t, e, ts).trace == e.trace + Each(xs, ExitPiece(t, e.payload));
    ExitBlocksSwitchOff(t, e.trace, xs, e.payload);
  }

  /** After the exit blocks of `xs`, every invoke of every state of `xs` is switched off. */
  lemma ExitBlocksSwitchOff(t: Tree, a: seq<Effect>, xs: seq<NodeId>, p: Option<Payload>)
    ensures forall s, i | s in xs && s < |t.nodes| && i in t.nodes[s].invokes ::
              LastSetting(a + Each(xs, ExitPiece(t, p)), InvokeSwitch(i)) == Some(false)
  {
    var fx := Each(xs, ExitPiece(t, p));
    EachOnlySets(xs, ExitPiece(t, p), false);
    forall s, i | s in xs && s < |t.nodes| && i in t.nodes[s].invokes
      ensures LastSetting(a + fx, InvokeSwitch(i)) == Some(false)
    {
      SwitchedOffOnExit(t, xs, p, s, i);
      LastSettingWins(a, fx, InvokeSwitch(i), false, ToggleInvoke(i, false));
    }
  }

  /**
   * `exitStates` touches no transition switch: the transitions of the states
   * it exits stay switched on at the host.
   */
  lemma ExitKeepsTransitionSwitches<E>(t: Tree, e: Engine<E>, ts: seq<TransRef>)
    requires Valid(t) && AllDeclared(t, ts)
    ensures forall tr :: LastSetting(ExitStates(t, e, ts).trace, TransitionSwitch(tr)) == LastSetting(e.trace, TransitionSwitch(tr))
  {
    var exit := ComputeExitSet(t, e.history, e.config, ts);
    var xs := Descending(exit, |t.nodes|);
    var fx := Each(xs, ExitPiece(t, e.payload));
    assert ExitStates(t, e, ts).trace == e.trace + fx;
    ExitTouchesNoTransition(t, xs, e.payload);
    forall tr ensures LastSetting(e.trace + fx, TransitionSwitch(tr)) == LastSetting(e.trace, TransitionSwitch(tr)) {
      LastSettingKept(e.trace, fx, TransitionSwitch(tr));
    }
  }

  lemma SwitchedOffOnExit(t: Tree, xs: seq<NodeId>, p: Option<Payload>, s: NodeId, i: InvokeId)
    requires s in xs && s < |t.nodes| && i in t.nodes[s].invokes
    ensures ToggleInvoke(i, false) in Each(xs, ExitPiece(t, p))
  {
    var piece := ExitPiece(t, p);
    var j :| 0 <= j < |xs| && xs[j] == s;
    var k :| 0 <= k < |t.nodes[s].invokes| && t.nodes[s].invokes[k] == i;
    assert piece(s)[|t.nodes[s].onexit| + k] == ToggleInvoke(i, false);
    EachContains(xs, piece, j, ToggleInvoke(i, false));
  }

  lemma {:induction false} ExitTouchesNoTransition(t: Tree, xs: seq<NodeId>, p: Option<Payload>)
    ensures forall k | 0 <= k < |Each(xs, ExitPiece(t, p))| :: !Each(xs, ExitPiece(t, p))[k].ToggleTransition?
  {
    if xs != [] {
      ExitTouchesNoTransition(t, xs[1..], p);
      var a := OnExit(t, xs[0], p);
      var b := Each(xs[1..], ExitPiece(t, p));
      var ab: seq<Effect> := a + b;
      forall k | 0 <= k < |ab| ensures !ab[k].ToggleTransition? {
        if k >= |a| { assert ab[k] == b[k - |a|]; }
      }
    }
  }

  // ---------------------------------------------------------------------
  // `microstep`.
  // ---------------------------------------------------------------------

  /**
   * What every call into the interpreter leaves behind: active states are
   * real, non-history states; the history map is well formed and keyed only
   * by states; `statesToInvoke` is a set of active states.
   */
  predicate EngineOk<E>(t: Tree, e: Engine<E>) {
    && ConfigOk(t, e.config)
    && HistoryOk(t, e.history)
    && (forall s | s in e.history :: !HasTag(t, s, History))
    && Distinct(e.pending)
    && (forall k | 0 <= k < |e.pending| :: e.pending[k] in e.config)
  }

  /** `transitions.forEach(executeContent)`. */
  function TransitionContent(t: Tree, ts: seq<TransRef>, p: Option<Payload>): (fx: seq<Effect>)
    requires AllDeclared(t, ts)
    ensures OnlyExecutes(fx, p)
  {
    if ts == [] then []
    else
      var rest := TransitionContent(t, ts[1..], p);
      assert AllDeclared(t, ts[1..]) by {
        assert forall k | 0 <= k < |ts[1..]| :: ts[1..][k] == ts[k + 1];
      }
      var own := Runs(ContentOf(t, ts[0]), p);
      var fx: seq<Effect> := own + rest;
      assert forall k | |own| <= k < |fx| :: fx[k] == rest[k - |own|];
      fx
  }

  /** Where the content of `ts[k]` starts in `transitions.forEach(executeContent)`. */
  function ContentAt(t: Tree, ts: seq<TransRef>, k: nat): nat
    requires AllDeclared(t, ts) && k <= |ts|
  {
    if k == 0 then 0 else ContentAt(t, ts, k - 1) + |ContentOf(t, ts[k - 1])|
  }

  lemma {:induction false} ContentAtShift(t: Tree, ts: seq<TransRef>, k: nat)
    requires AllDeclared(t, ts) && 1 <= k <= |ts|
    ensures AllDeclared(t, ts[1..])
    ensures ContentAt(t, ts, k) == |ContentOf(t, ts[0])| + ContentAt(t, ts[1..], k - 1)
  {
    assert forall j | 0 <= j < |ts[1..]| :: ts[1..][j] == ts[j + 1];
    if k > 1 {
      ContentAtShift(t, ts, k - 1);
    }
  }

  /**
   * `transitions.forEach(executeContent)` runs the content of every
   * transition, each unbroken and in the order of the list, with nothing
   * before, between or after.
   */
  lemma TransitionContentRuns(t: Tree, ts: seq<TransRef>, p: Option<Payload>)
    requires AllDeclared(t, ts)
    ensures var fx := TransitionContent(t, ts, p);
            && |fx| == ContentAt(t, ts, |ts|)
            && forall k | 0 <= k < |ts| :: RunsAt(fx, ContentAt(t, ts, k), ContentOf(t, ts[k]), p)
  {
    TransitionContentLength(t, ts, p);
    forall k | 0 <= k < |ts| ensures RunsAt(TransitionContent(t, ts, p), ContentAt(t, ts, k), ContentOf(t, ts[k]), p) {
      TransitionContentAt(t, ts, p, k);
    }
  }

  lemma {:induction false} TransitionContentLength(t: Tree, ts: seq<TransRef>, p: Option<Payload>)
    requires AllDeclared(t, ts)
    ensures |TransitionContent(t, ts, p)| == ContentAt(t, ts, |ts|)
  {
    if ts != [] {
      ContentAtShift(t, ts, |ts|);
      TransitionContentLength(t, ts[1..], p);
    }
  }

  lemma {:induction false} TransitionContentAt(t: Tree, ts: seq<TransRef>, p: Option<Payload>, k: nat)
    requires AllDeclared(t, ts) && k < |ts|
    ensures RunsAt(TransitionContent(t, ts, p), ContentAt(t, ts, k), ContentOf(t, ts[k]), p)
  {
    ContentAtShift(t, ts, 1);
    if k == 0 {
      TransitionContentFirst(t, ts, p);
    } else {
      TransitionContentAt(t, ts[1..], p, k - 1);
      TransitionContentLater(t, ts, p, k);
    }
  }

  /** The first transition's content opens the sequence. */
  lemma TransitionContentFirst(t: Tree, ts: seq<TransRef>, p: Option<Payload>)
    requires AllDeclared(t, ts) && ts != []
    ensures RunsAt(TransitionContent(t, ts, p), ContentAt(t, ts, 0), ContentOf(t, ts[0]), p)
  {
    ContentAtShift(t, ts, 1);
    var own := Runs(ContentOf(t, ts[0]), p);
    var rx := TransitionContent(t, ts[1..], p);
    assert TransitionContent(t, ts, p) == own + rx;
    RunsAtPrefix(own, rx, 0, ContentOf(t, ts[0]), p);
  }

  /** A later transition's content sits after the first transition's, where it sat in the rest. */
  lemma TransitionContentLater(t: Tree, ts: seq<TransRef>, p: Option<Payload>, k: nat)
    requires AllDeclared(t, ts) && 0 < k < |ts| && AllDeclared(t, ts[1..])
    requires RunsAt(TransitionContent(t, ts[1..], p), ContentAt(t, ts[1..], k - 1), ContentOf(t, ts[1..][k - 1]), p)
    ensures RunsAt(TransitionContent(t, ts, p), ContentAt(t, ts, k), ContentOf(t, ts[k]), p)
  {
    ContentAtShift(t, ts, k);
    var own := Runs(ContentOf(t, ts[0]), p);
    var rx := TransitionContent(t, ts[1..], p);
    assert TransitionContent(t, ts, p) == own + rx;
    RunsAtShift(own, rx, ContentAt(t, ts[1..], k - 1), ContentOf(t, ts[k]), p);
  }

  lemma RunsAtPrefix(a: seq<Effect>, b: seq<Effect>, at: nat, xs: seq<ActionId>, p: Option<Payload>)
    requires RunsAt(a, at, xs, p)
    ensures RunsAt(a + b, at, xs, p)
  {
    var ab: seq<Effect> := a + b;
    forall k | 0 <= k < |xs| ensures ab[at + k] == Execute(xs[k], p) {
      assert ab[at + k] == a[at + k];
    }
  }

  lemma RunsAtShift(a: seq<Effect>, b: seq<Effect>, at: nat, xs: seq<ActionId>, p: Option<Payload>)
    requires RunsAt(b, at, xs, p)
    ensures RunsAt(a + b, |a| + at, xs, p)
  {
    var ab: seq<Effect> := a + b;
    forall k | 0 <= k < |xs| ensures ab[|a| + at + k] == Execute(xs[k], p) {
      assert ab[|a| + at + k] == b[at + k];
    }
  }

  /** `microstep(transitions)`: exit, run the transitions' content, enter. */
  function Microstep<E>(t: Tree, e: Engine<E>, ts: seq<TransRef>): Engine<E>
    requires Valid(t) && HistoryOk(t, e.history) && AllDeclared(t, ts)
  {
    var e1 := ExitStates(t, e, ts);
    RecordHistoryFacts(t, e.history, e.config, ComputeExitSet(t, e.history, e.config, ts));
    var e2 := e1.(trace := e1.trace + TransitionContent(t, ts, e1.payload));
    EnterStates(t, e2, ts)
  }

  /** The state between the exit and the entry half of a microstep keeps the invariant. */
  lemma ExitKeepsEngineOk<E>(t: Tree, e: Engine<E>, ts: seq<TransRef>)
    requires Valid(t) && EngineOk(t, e) && AllDeclared(t, ts)
    ensures EngineOk(t, ExitStates(t, e, ts))
  {
    var exit := ComputeExitSet(t, e.history, e.config, ts);
    var r := ExitStates(t, e, ts);
    RecordHistoryFacts(t, e.history, e.config, exit);
    ExitStatesFacts(t, e, ts);
    forall k | 0 <= k < |r.pending| ensures r.pending[k] in r.config {
      assert r.pending[k] in r.pending;
      var j :| 0 <= j < |e.pending| && e.pending[j] == r.pending[k];
    }
  }

  /** Entering states keeps the invariant. */
  lemma EnterKeepsEngineOk<E>(t: Tree, e: Engine<E>, ts: seq<TransRef>)
    requires Valid(t) && EngineOk(t, e) && AllDeclared(t, ts)
    ensures EngineOk(t, EnterStates(t, e, ts))
  {
    var es := ComputeEntrySet(t, e.history, ts);
    var xs := Ascending(t, es.toEnter, 0);
    var r := EnterStates(t, e, ts);
    assert r.pending == AddAll(e.pending, xs);
    forall k | 0 <= k < |r.pending| ensures r.pending[k] in r.config {
      assert r.pending[k] in r.pending;
      if r.pending[k] in e.pending {
        var j :| 0 <= j < |e.pending| && e.pending[j] == r.pending[k];
      }
    }
  }

  /**
   * A microstep replaces the exit set by the entry set (computed with the
   * history just recorded from the configuration before the exit, which is
   * the history it leaves behind), keeps the invariant, and leaves the queues
   * and the payload alone.
   */
  lemma MicrostepFacts<E>(t: Tree, e: Engine<E>, ts: seq<TransRef>)
    requires Valid(t) && EngineOk(t, e) && AllDeclared(t, ts)
    ensures var exit := ComputeExitSet(t, e.history, e.config, ts);
            var h := RecordHistory(t, e.history, e.config, exit);
            var r := Microstep(t, e, ts);
            && r.config == (e.config - exit) + ComputeEntrySet(t, h, ts).toEnter
            && r.history == h
            && EngineOk(t, r)
            && r.internal == e.internal && r.external == e.external && r.payload == e.payload
  {
    var e1 := ExitStates(t, e, ts);
    ExitKeepsEngineOk(t, e, ts);
    ExitStatesFacts(t, e, ts);
    var e2 := e1.(trace := e1.trace + TransitionContent(t, ts, e1.payload));
    assert EngineOk(t, e2);
    EnterKeepsEngineOk(t, e2, ts);
    EnterStatesPending(t, e2, ts);
  }

  // ---------------------------------------------------------------------
  // `eventLoop`.
  // ---------------------------------------------------------------------

  /**
   * `selectTransitions` while the configuration and history stay fixed (as
   * they do throughout the inner loop): the transitions and payload it gives
   * for an event, starting from a payload.
   */
  type Selector<-E> = (Option<E>, Option<Payload>) -> Scan

  function SelectorOf<E>(t: Tree, m: Matcher<E>, e: Engine<E>): Selector<E>
    requires Valid(t)
  {
    (ev: Option<E>, p: Option<Payload>) => SelectTransitions(t, e.history, e.config, m, ev, p)
  }

  /** What the selector enables for no event does not depend on the payload. */
  ghost predicate Blind<E>(sel: Selector<E>) {
    forall p1: Option<Payload>, p2: Option<Payload> :: sel(None, p1).enabled == sel(None, p2).enabled
  }

  lemma SelectorBlind<E>(t: Tree, m: Matcher<E>, e: Engine<E>)
    requires Valid(t)
    ensures Blind(SelectorOf(t, m, e))
  {
    forall p1: Option<Payload>, p2: Option<Payload>
      ensures SelectorOf(t, m, e)(None, p1).enabled == SelectorOf(t, m, e)(None, p2).enabled
    {
      SelectionIgnoresPayload(t, e.history, e.config, m, None, p1, p2);
    }
  }

  /** Whether `selectTransitions` throws for an event, on the inner loop's fixed configuration. */
  function RaisesOf<E>(t: Tree, m: Matcher<E>, e: Engine<E>): Option<E> -> bool
    requires Valid(t)
  {
    (ev: Option<E>) => SelectThrows(t, e.history, e.config, m, ev)
  }

  /** How the inner `while` of `eventLoop` ends within its rounds. */
  datatype Inner<E> =
    | OutOfFuel              // the rounds ran out
    | Raised                 // a selection threw
    | Exited(engine: Engine<E>)

  /**
   * The inner `while` of `eventLoop`, given `fuel` rounds. `selectTransitions(null)`
   * is retried as long as it finds something, without ever taking a
   * microstep; when it finds nothing, one internal event is taken and
   * selected for, and its selection is discarded. A selection that throws
   * ends the loop. Only the payload and the internal queue change.
   */
  function InnerLoop<E>(sel: Selector<E>, raises: Option<E> -> bool, e: Engine<E>, fuel: nat): (r: Inner<E>)
    decreases fuel
    ensures r.Exited? ==> r.engine == e.(internal := r.engine.internal, payload := r.engine.payload)
  {
    if fuel == 0 then OutOfFuel
    else if raises(None) then Raised
    else
      var none := sel(None, e.payload);
      if none.enabled != [] then InnerLoop(sel, raises, e.(payload := none.payload), fuel - 1)
      else if e.internal == [] then Exited(e.(payload := none.payload))
      else if raises(Some(e.internal[0])) then Raised
      else
        var some := sel(Some(e.internal[0]), none.payload);
        InnerLoop(sel, raises, e.(internal := e.internal[1..], payload := some.payload), fuel - 1)
  }

  /** Whether an eventless transition is enabled in the configuration of `e`. */
  predicate Eventless<E>(t: Tree, m: Matcher<E>, e: Engine<E>)
    requires Valid(t)
  {
    SelectTransitions(t, e.history, e.config, m, None, e.payload).enabled != []
  }

  /** An enabled eventless transition whose selection does not throw makes the inner loop spin for ever. */
  lemma {:induction false} InnerLoopSpins<E>(sel: Selector<E>, raises: Option<E> -> bool, e: Engine<E>, fuel: nat)
    requires Blind(sel) && !raises(None) && sel(None, e.payload).enabled != []
    decreases fuel
    ensures InnerLoop(sel, raises, e, fuel).OutOfFuel?
  {
    if fuel > 0 {
      var none := sel(None, e.payload);
      InnerLoopSpins(sel, raises, e.(payload := none.payload), fuel - 1);
    }
  }

  /**
   * Without an enabled eventless transition the inner loop takes the internal
   * events in turn, one round each. It throws exactly when selecting for one
   * of them throws; otherwise it exits with the internal queue drained and
   * nothing selected, so the microstep guarded after it never runs.
   */
  lemma {:induction false} InnerLoopDrains<E>(sel: Selector<E>, raises: Option<E> -> bool, e: Engine<E>, fuel: nat)
    requires Blind(sel) && !raises(None) && sel(None, e.payload).enabled == [] && fuel > |e.internal|
    decreases fuel
    ensures var r := InnerLoop(sel, raises, e, fuel);
            && (r.Raised? <==> exists k | 0 <= k < |e.internal| :: raises(Some(e.internal[k])))
            && (!r.Raised? ==>
                  && r.Exited? && r.engine.internal == []
                  && sel(None, r.engine.payload).enabled == [])
  {
    if e.internal != [] && !raises(Some(e.internal[0])) {
      var none := sel(None, e.payload);
      var some := sel(Some(e.internal[0]), none.payload);
      var rest := e.internal[1..];
      InnerLoopDrains(sel, raises, e.(internal := rest, payload := some.payload), fuel - 1);
      assert forall k | 0 <= k < |rest| :: rest[k] == e.internal[k + 1];
      assert (exists k | 0 <= k < |e.internal| :: raises(Some(e.internal[k]))) ==>
             exists k | 0 <= k < |rest| :: raises(Some(rest[k])) by {
        if exists k | 0 <= k < |e.internal| :: raises(Some(e.internal[k])) {
          var k :| 0 <= k < |e.internal| && raises(Some(e.internal[k]));
          assert k > 0 && raises(Some(rest[k - 1]));
        }
      }
    }
  }

  function ActivatePiece(t: Tree): NodeId -> seq<Effect> {
    (s: NodeId) => OnActivate(t, s)
  }

  /** The loop over `statesToInvoke` in `eventLoop`, then `statesToInvoke.clear()`. */
  function Activate<E>(t: Tree, e: Engine<E>): Engine<E> {
    e.(pending := [], trace := e.trace + Each(e.pending, ActivatePiece(t)))
  }

  /** After activation every invoke and transition of every state that was waiting is switched on. */
  lemma ActivateSwitchesOn<E>(t: Tree, e: Engine<E>)
    requires forall k | 0 <= k < |e.pending| :: e.pending[k] < |t.nodes|
    ensures var r := Activate(t, e);
            && (forall s, i | s in e.pending && i in t.nodes[s].invokes :: LastSetting(r.trace, InvokeSwitch(i)) == Some(true))
            && (forall s, tr | s in e.pending && tr in TransitionsOf(t, s) :: LastSetting(r.trace, TransitionSwitch(tr)) == Some(true))
  {
    var fx := Each(e.pending, ActivatePiece(t));
    var r := Activate(t, e);
    assert r.trace == e.trace + fx;
    ActivateOnlySets(t, e.pending);
    forall s, i | s in e.pending && i in t.nodes[s].invokes ensures LastSetting(r.trace, InvokeSwitch(i)) == Some(true) {
      ActivateInvokeOn(t, e.pending, s, i);
      LastSettingWins(e.trace, fx, InvokeSwitch(i), true, ToggleInvoke(i, true));
    }
    forall s, tr | s in e.pending && tr in TransitionsOf(t, s) ensures LastSetting(r.trace, TransitionSwitch(tr)) == Some(true) {
      ActivateTransitionOn(t, e.pending, s, tr);
      LastSettingWins(e.trace, fx, TransitionSwitch(tr), true, ToggleTransition(tr, true));
    }
  }

  lemma ActivateOnlySets(t: Tree, xs: seq<NodeId>)
    ensures OnlySets(Each(xs, ActivatePiece(t)), true)
  {
    EachOnlySets(xs, ActivatePiece(t), true);
  }

  lemma ActivateInvokeOn(t: Tree, xs: seq<NodeId>, s: NodeId, i: InvokeId)
    requires s in xs && s < |t.nodes| && i in t.nodes[s].invokes
    ensures ToggleInvoke(i, true) in Each(xs, ActivatePiece(t))
  {
    var j :| 0 <= j < |xs| && xs[j] == s;
    var k :| 0 <= k < |t.nodes[s].invokes| && t.nodes[s].invokes[k] == i;
    assert OnActivate(t, s)[k] == ToggleInvoke(i, true);
    EachContains(xs, ActivatePiece(t), j, ToggleInvoke(i, true));
  }

  lemma ActivateTransitionOn(t: Tree, xs: seq<NodeId>, s: NodeId, tr: TransId)
    requires s in xs && s < |t.nodes| && tr in TransitionsOf(t, s)
    ensures ToggleTransition(tr, true) in Each(xs, ActivatePiece(t))
  {
    var j :| 0 <= j < |xs| && xs[j] == s;
    var k :| 0 <= k < |TransitionsOf(t, s)| && TransitionsOf(t, s)[k] == tr;
    assert OnActivate(t, s)[|t.nodes[s].invokes| + k] == ToggleTransition(tr, true);
    EachContains(xs, ActivatePiece(t), j, ToggleTransition(tr, true));
  }

  /**
   * `eventLoop()`. The `do … while (false)` body runs once: the inner loop;
   * the activation of `statesToInvoke`; then, unless the internal queue is
   * non-empty (the `continue` leaves the loop) or the external queue is empty,
   * one external event is taken, selected for, and its transitions, if any,
   * taken in one microstep. States entered by that microstep are activated by
   * the next call only.
   */
  function EventLoop<E>(t: Tree, m: Matcher<E>, e: Engine<E>): Outcome<E>
    requires Valid(t) && HistoryOk(t, e.history)
  {
    match InnerLoop(SelectorOf(t, m, e), RaisesOf(t, m, e), e, |e.internal| + 1)
    case OutOfFuel => Diverges
    case Raised => Throws
    case Exited(e1) =>
      var e2 := Activate(t, e1);
      if e2.internal != [] || e2.external == [] then Settled(e2)
      else if ExternalThrows(t, m, e2) then Throws
      else Settled(TakeExternal(t, m, e2))
  }

  /**
   * Taking the first external event throws: its selection throws, or the
   * transition it selects cannot have its targets read when the microstep
   * computes its exit set (line 230).
   */
  predicate ExternalThrows<E>(t: Tree, m: Matcher<E>, e: Engine<E>)
    requires Valid(t) && e.external != []
  {
    var ev := Some(e.external[0]);
    var sel := SelectTransitions(t, e.history, e.config, m, ev, e.payload);
    || SelectThrows(t, e.history, e.config, m, ev)
    || (sel.enabled != [] && RefOk(t, sel.enabled[0]) && ReadThrows(t, e.history, sel.enabled[0]))
  }

  /**
   * The tail of `eventLoop`: shift one external event, select for it, take its
   * transitions. This is the result when `ExternalThrows` does not hold.
   */
  function TakeExternal<E>(t: Tree, m: Matcher<E>, e: Engine<E>): Engine<E>
    requires Valid(t) && HistoryOk(t, e.history) && e.external != []
  {
    var e1 := e.(external := e.external[1..]);
    var sel := SelectTransitions(t, e1.history, e1.config, m, Some(e.external[0]), e1.payload);
    var e2 := e1.(payload := sel.payload);
    if sel.enabled == [] then e2
    else
      assert AllDeclared(t, sel.enabled) by {
        assert forall k | 0 <= k < |sel.enabled| :: sel.enabled[k] in sel.enabled;
      }
      Microstep(t, e2, sel.enabled)
  }

  /** `dispatch(e)`: queue the event, run the event loop. */
  function Dispatch<E>(t: Tree, m: Matcher<E>, e: Engine<E>, ev: E): Outcome<E>
    requires Valid(t) && HistoryOk(t, e.history)
  {
    EventLoop(t, m, e.(external := e.external + [ev]))
  }

  function ShutdownPiece(t: Tree, p: Option<Payload>): NodeId -> seq<Effect> {
    (s: NodeId) => OnShutdown(t, s, p)
  }

  /**
   * `terminate()` (`exitInterpreter`): for every active state, descendants
   * first, its `<onexit>` content, its invokes and its transitions switched
   * off. The configuration itself is left as it was.
   */
  function Terminate<E>(t: Tree, e: Engine<E>): Engine<E> {
    e.(trace := e.trace + Each(Descending(e.config, |t.nodes|), ShutdownPiece(t, e.payload)))
  }

  /** A fresh interpreter: nothing active, nothing queued, no payload yet. */
  function Blank<E>(): Engine<E> {
    Engine({}, [], [], [], map[], None, [])
  }

  /**
   * `startScxmlAlgorithm(root, client)`: enter the root's initial
   * transitions, then run the event loop. A transition created for the
   * `initial` attribute or for the first `<state>` child has no parent
   * element, so computing its domain throws; a declared one whose targets
   * cannot be read throws when `computeEntrySet` reads them (line 145).
   */
  function Start<E>(t: Tree, m: Matcher<E>): Outcome<E>
    requires Valid(t)
  {
    var its := InitialTransitionsFor(t, Root);
    if !AllDeclared(t, its) then Throws
    else if AnyUnreadable(t, map[], its) then Throws
    else EventLoop(t, m, EnterStates(t, Blank(), its))
  }

  // ---------------------------------------------------------------------
  // Properties of the calls.
  // ---------------------------------------------------------------------

  /** `execute` calls leave every switch as it was. */
  lemma ExecutesKeepSwitches(a: seq<Effect>, fx: seq<Effect>, p: Option<Payload>, sw: Switch)
    requires OnlyExecutes(fx, p)
    ensures LastSetting(a + fx, sw) == LastSetting(a, sw)
  {
    assert forall k | 0 <= k < |fx| :: fx[k].Execute?;
    LastSettingKept(a, fx, sw);
  }

  /** A microstep touches no transition switch: the exit half switches off invokes only. */
  lemma MicrostepKeepsTransitionSwitches<E>(t: Tree, e: Engine<E>, ts: seq<TransRef>)
    requires Valid(t) && EngineOk(t, e) && AllDeclared(t, ts)
    ensures forall tr :: LastSetting(Microstep(t, e, ts).trace, TransitionSwitch(tr)) == LastSetting(e.trace, TransitionSwitch(tr))
  {
    var e1 := ExitStates(t, e, ts);
    ExitKeepsTransitionSwitches(t, e, ts);
    RecordHistoryFacts(t, e.history, e.config, ComputeExitSet(t, e.history, e.config, ts));
    var fx := TransitionContent(t, ts, e1.payload);
    var e2 := e1.(trace := e1.trace + fx);
    var r := EnterStates(t, e2, ts);
    EnterStatesTrace(t, e2, ts);
    var gx := r.trace[|e2.trace|..];
    assert r.trace == e2.trace + gx;
    assert Microstep(t, e, ts) == r;
    forall tr ensures LastSetting(r.trace, TransitionSwitch(tr)) == LastSetting(e.trace, TransitionSwitch(tr)) {
      ExecutesKeepSwitches(e1.trace, fx, e1.payload, TransitionSwitch(tr));
      ExecutesKeepSwitches(e2.trace, gx, e2.payload, TransitionSwitch(tr));
    }
  }

  /**
   * Taking an external event consumes it and nothing else, keeps the
   * invariant, leaves every newly entered state waiting in
   * `statesToInvoke`, and touches no transition switch.
   */
  lemma TakeExternalFacts<E>(t: Tree, m: Matcher<E>, e: Engine<E>)
    requires Valid(t) && EngineOk(t, e) && e.external != [] && e.pending == []
    ensures var r := TakeExternal(t, m, e);
            && EngineOk(t, r)
            && r.internal == e.internal && r.external == e.external[1..]
            && (forall s | s in r.config && s !in e.config :: s in r.pending)
            && (forall tr :: LastSetting(r.trace, TransitionSwitch(tr)) == LastSetting(e.trace, TransitionSwitch(tr)))
  {
    var e1 := e.(external := e.external[1..]);
    var sel := SelectTransitions(t, e1.history, e1.config, m, Some(e.external[0]), e1.payload);
    var e2 := e1.(payload := sel.payload);
    assert EngineOk(t, e2);
    if sel.enabled != [] {
      assert AllDeclared(t, sel.enabled) by {
        assert forall k | 0 <= k < |sel.enabled| :: sel.enabled[k] in sel.enabled;
      }
      MicrostepFacts(t, e2, sel.enabled);
      MicrostepKeepsTransitionSwitches(t, e2, sel.enabled);
      MicrostepPendsEntered(t, e2, sel.enabled);
    }
  }

  /** With nothing waiting beforehand, every state a microstep adds is left waiting. */
  lemma MicrostepPendsEntered<E>(t: Tree, e: Engine<E>, ts: seq<TransRef>)
    requires Valid(t) && EngineOk(t, e) && AllDeclared(t, ts) && e.pending == []
    ensures var r := Microstep(t, e, ts);
            forall s | s in r.config && s !in e.config :: s in r.pending
  {
    var e1 := ExitStates(t, e, ts);
    ExitStatesFacts(t, e, ts);
    ExitKeepsEngineOk(t, e, ts);
    var e2 := e1.(trace := e1.trace + TransitionContent(t, ts, e1.payload));
    assert e2.pending == [];
    EnterStatesPending(t, e2, ts);
    var r := Microstep(t, e, ts);
    assert r == EnterStates(t, e2, ts);
    assert r.pending[|e2.pending|..] == r.pending;
  }

  /**
   * Taking an external event throws exactly when one of the transitions its
   * selection collects cannot have its targets read: a single one is read by
   * the microstep, two or more are all read by the conflict filter.
   */
  lemma ExternalThrowsExactly<E>(t: Tree, m: Matcher<E>, e: Engine<E>)
    requires Valid(t) && e.external != []
    ensures ExternalThrows(t, m, e) <==>
              AnyUnreadable(t, e.history, Enabled(t, m, Some(e.external[0]), e.config, None).enabled)
  {
    var ev := Some(e.external[0]);
    var pre := Enabled(t, m, ev, e.config, e.payload).enabled;
    EnabledIgnoresPayload(t, m, ev, e.config, e.payload, None);
    var sel := SelectTransitions(t, e.history, e.config, m, ev, e.payload);
    assert AllDeclared(t, pre) by {
      forall k | 0 <= k < |pre| ensures pre[k].Declared? && RefOk(t, pre[k]) {
        assert EnabledBy(t, m, ev, e.config, pre[k]);
      }
    }
    assert sel.enabled == RemoveConflictingTransitions(t, e.history, e.config, pre);
    if sel.enabled != [] {
      assert sel.enabled[0] in pre;
      var j :| 0 <= j < |pre| && pre[j] == sel.enabled[0];
      if |pre| == 1 {
        assert j == 0;
      }
    }
  }

  /**
   * When the event loop throws: selecting for no event throws; or, with no
   * eventless transition enabled, selecting for one of the queued internal
   * events throws, or the oldest external event collects a transition whose
   * targets cannot be read.
   */
  predicate LoopThrows<E>(t: Tree, m: Matcher<E>, e: Engine<E>)
    requires Valid(t)
  {
    || SelectThrows(t, e.history, e.config, m, None)
    || (&& !Eventless(t, m, e)
        && (|| (exists k | 0 <= k < |e.internal| :: SelectThrows(t, e.history, e.config, m, Some(e.internal[k])))
            || (e.external != [] &&
                AnyUnreadable(t, e.history, Enabled(t, m, Some(e.external[0]), e.config, None).enabled))))
  }

  /**
   * `eventLoop` diverges exactly when an eventless transition is enabled when
   * it is called and selecting it does not throw; it throws exactly as
   * `LoopThrows` says.
   */
  lemma EventLoopDiverges<E>(t: Tree, m: Matcher<E>, e: Engine<E>)
    requires Valid(t) && HistoryOk(t, e.history)
    ensures EventLoop(t, m, e).Diverges? <==> Eventless(t, m, e) && !SelectThrows(t, e.history, e.config, m, None)
    ensures EventLoop(t, m, e).Throws? <==> LoopThrows(t, m, e)
  {
    if SelectThrows(t, e.history, e.config, m, None) {
      LoopThrowsAtOnce(t, m, e);
    } else if Eventless(t, m, e) {
      LoopSpinsOnEventless(t, m, e);
    } else {
      LoopDrainsOtherwise(t, m, e);
    }
  }

  /** Selecting for no event throws: the loop throws in its first round. */
  lemma LoopThrowsAtOnce<E>(t: Tree, m: Matcher<E>, e: Engine<E>)
    requires Valid(t) && HistoryOk(t, e.history) && SelectThrows(t, e.history, e.config, m, None)
    ensures EventLoop(t, m, e).Throws? && LoopThrows(t, m, e)
  {
    assert RaisesOf(t, m, e)(None);
  }

  /** An eventless transition is enabled and selecting it does not throw: the loop spins. */
  lemma LoopSpinsOnEventless<E>(t: Tree, m: Matcher<E>, e: Engine<E>)
    requires Valid(t) && HistoryOk(t, e.history)
    requires !SelectThrows(t, e.history, e.config, m, None) && Eventless(t, m, e)
    ensures EventLoop(t, m, e).Diverges? && !LoopThrows(t, m, e)
  {
    var raises := RaisesOf(t, m, e);
    assert !raises(None);
    SelectorBlind(t, m, e);
    InnerLoopSpins(SelectorOf(t, m, e), raises, e, |e.internal| + 1);
  }

  /** Nothing eventless is enabled: the loop returns or throws, as `LoopThrows` says. */
  lemma LoopDrainsOtherwise<E>(t: Tree, m: Matcher<E>, e: Engine<E>)
    requires Valid(t) && HistoryOk(t, e.history)
    requires !SelectThrows(t, e.history, e.config, m, None) && !Eventless(t, m, e)
    ensures !EventLoop(t, m, e).Diverges? && (EventLoop(t, m, e).Throws? <==> LoopThrows(t, m, e))
  {
    var sel := SelectorOf(t, m, e);
    var raises := RaisesOf(t, m, e);
    assert !raises(None);
    SelectorBlind(t, m, e);
    InnerLoopDrains(sel, raises, e, |e.internal| + 1);
    var r := InnerLoop(sel, raises, e, |e.internal| + 1);
    var internalThrows := exists k | 0 <= k < |e.internal| :: SelectThrows(t, e.history, e.config, m, Some(e.internal[k]));
    assert r.Raised? <==> internalThrows;
    if r.Raised? {
      LoopRaised(t, m, e);
    } else {
      LoopExitThrows(t, m, e, r.engine);
    }
  }

  /** A selection throwing inside the inner loop makes the loop throw. */
  lemma LoopRaised<E>(t: Tree, m: Matcher<E>, e: Engine<E>)
    requires Valid(t) && HistoryOk(t, e.history)
    requires InnerLoop(SelectorOf(t, m, e), RaisesOf(t, m, e), e, |e.internal| + 1).Raised?
    ensures EventLoop(t, m, e) == Throws
  {
  }

  /** After the inner loop exits, the loop returns, or throws exactly when taking the oldest external event does. */
  lemma LoopExitThrows<E>(t: Tree, m: Matcher<E>, e: Engine<E>, e1: Engine<E>)
    requires Valid(t) && HistoryOk(t, e.history)
    requires InnerLoop(SelectorOf(t, m, e), RaisesOf(t, m, e), e, |e.internal| + 1) == Exited(e1)
    requires e1.internal == []
    ensures !EventLoop(t, m, e).Diverges?
    ensures EventLoop(t, m, e).Throws? <==>
              e.external != [] &&
              AnyUnreadable(t, e.history, Enabled(t, m, Some(e.external[0]), e.config, None).enabled)
  {
    var e2 := Activate(t, e1);
    if e2.external != [] {
      ExternalThrowsExactly(t, m, e2);
    }
  }

  /**
   * When `eventLoop` settles: the internal queue is empty; at most one
   * external event was consumed, the oldest; the invariant holds; every state
   * that was waiting in `statesToInvoke` has its transitions switched on; and
   * every state entered during the call is still waiting.
   */
  lemma EventLoopSettles<E>(t: Tree, m: Matcher<E>, e: Engine<E>)
    requires Valid(t) && EngineOk(t, e) && EventLoop(t, m, e).Settled?
    ensures var r := EventLoop(t, m, e).engine;
            && EngineOk(t, r)
            && r.internal == []
            && r.external == (if e.external == [] then [] else e.external[1..])
            && (forall s, tr | s in e.pending && tr in TransitionsOf(t, s) ::
                  LastSetting(r.trace, TransitionSwitch(tr)) == Some(true))
            && (forall s | s in r.config && s !in e.config :: s in r.pending)
  {
    SettledLoopExits(t, m, e);
    var e1 := InnerLoop(SelectorOf(t, m, e), RaisesOf(t, m, e), e, |e.internal| + 1).engine;
    var e2 := Activate(t, e1);
    assert forall k | 0 <= k < |e1.pending| :: e1.pending[k] < |t.nodes| by {
      assert forall k | 0 <= k < |e1.pending| :: e1.pending[k] in e1.config;
    }
    ActivateSwitchesOn(t, e1);
    assert EngineOk(t, e2);
    if e2.external != [] {
      TakeExternalFacts(t, m, e2);
    }
  }

  /**
   * A loop that returns has left its inner loop with the internal queue
   * drained, then activated and, with an external event queued, taken it.
   */
  lemma SettledLoopExits<E>(t: Tree, m: Matcher<E>, e: Engine<E>)
    requires Valid(t) && HistoryOk(t, e.history) && EventLoop(t, m, e).Settled?
    ensures var r := InnerLoop(SelectorOf(t, m, e), RaisesOf(t, m, e), e, |e.internal| + 1);
            && r.Exited? && r.engine == e.(internal := [], payload := r.engine.payload)
            && var e2 := Activate(t, r.engine);
               EventLoop(t, m, e).engine == if e2.external == [] then e2 else TakeExternal(t, m, e2)
  {
    var sel := SelectorOf(t, m, e);
    var raises := RaisesOf(t, m, e);
    EventLoopDiverges(t, m, e);
    assert !raises(None);
    SelectorBlind(t, m, e);
    InnerLoopDrains(sel, raises, e, |e.internal| + 1);
    if InnerLoop(sel, raises, e, |e.internal| + 1).Raised? {
      LoopRaised(t, m, e);
    }
  }

  /** `dispatch` consumes the oldest queued event, or the new one when none was queued. */
  lemma DispatchTakesOneEvent<E>(t: Tree, m: Matcher<E>, e: Engine<E>, ev: E)
    requires Valid(t) && EngineOk(t, e) && Dispatch(t, m, e, ev).Settled?
    ensures var r := Dispatch(t, m, e, ev).engine;
            && EngineOk(t, r)
            && r.internal == []
            && r.external == (e.external + [ev])[1..]
            && (e.external == [] ==> r.external == [])
  {
    var e' := e.(external := e.external + [ev]);
    assert EngineOk(t, e');
    EventLoopSettles(t, m, e');
  }

  /**
   * `dispatch` diverges exactly when an eventless transition is already
   * enabled and selecting it does not throw, and throws exactly when the
   * event loop does on the queue with the event added.
   */
  lemma DispatchDiverges<E>(t: Tree, m: Matcher<E>, e: Engine<E>, ev: E)
    requires Valid(t) && HistoryOk(t, e.history)
    ensures Dispatch(t, m, e, ev).Diverges? <==> Eventless(t, m, e) && !SelectThrows(t, e.history, e.config, m, None)
    ensures Dispatch(t, m, e, ev).Throws? <==> LoopThrows(t, m, e.(external := e.external + [ev]))
  {
    EventLoopDiverges(t, m, e.(external := e.external + [ev]));
  }

  /**
   * The start-up call throws exactly when the root's initial transition is a
   * created one (the root has an `initial` attribute, or has no `<initial>`
   * child but a `<state>` child), when it is a declared one whose targets
   * cannot be read, or when the event loop run after entering it throws.
   */
  lemma StartThrows<E>(t: Tree, m: Matcher<E>)
    requires Valid(t)
    ensures var its := InitialTransitionsFor(t, Root);
            && (!AllDeclared(t, its) <==>
                  t.nodes[Root].initial.Some? ||
                  (FirstChild(t, Root, Initial).None? && FirstChild(t, Root, State).Some?))
            && (Start(t, m).Throws? <==>
                  || !AllDeclared(t, its)
                  || AnyUnreadable(t, map[], its)
                  || (AllDeclared(t, its) && LoopThrows(t, m, EnterStates(t, Blank(), its))))
  {
    var its := InitialTransitionsFor(t, Root);
    if t.nodes[Root].initial.None? && FirstChild(t, Root, Initial).Some? {
      var i := FirstChild(t, Root, Initial).value;
      var cs := ChildrenTagged(t, Root, {Initial});
      assert cs[0] in cs;
      assert NodeShapeOk(t, i);
      assert AllDeclared(t, its);
    }
    if AllDeclared(t, its) {
      EventLoopDiverges(t, m, EnterStates(t, Blank(), its));
    }
  }

  /**
   * When the start-up call settles, nothing is queued or waiting, the
   * invariant holds, and every transition of every active state is switched
   * on.
   */
  lemma StartSettles<E>(t: Tree, m: Matcher<E>)
    requires Valid(t) && Start(t, m).Settled?
    ensures var r := Start(t, m).engine;
            && EngineOk(t, r)
            && r.internal == [] && r.external == [] && r.pending == []
            && (forall s, tr | s in r.config && tr in TransitionsOf(t, s) ::
                  LastSetting(r.trace, TransitionSwitch(tr)) == Some(true))
  {
    var its := InitialTransitionsFor(t, Root);
    var b: Engine<E> := Blank();
    var e := EnterStates(t, b, its);
    EnterKeepsEngineOk(t, b, its);
    EnterStatesPending(t, b, its);
    assert e.pending[|b.pending|..] == e.pending;
    EventLoopSettles(t, m, e);
    var r := Start(t, m).engine;
    assert r.config == e.config;
  }

  /**
   * A document whose `<scxml>` has no `initial` attribute, no `<initial>` and
   * no `<state>` child (a top-level `<parallel>`, say) starts without throwing,
   * enters nothing and makes no call into the host.
   */
  lemma StartWithoutInitialEntersNothing<E>(t: Tree, m: Matcher<E>)
    requires Valid(t) && InitialTransitionsFor(t, Root) == []
    ensures Start(t, m).Settled?
    ensures Start(t, m).engine.config == {} && Start(t, m).engine.trace == []
  {
    var e: Engine<E> := EnterStates(t, Blank(), []);
    assert e.config == {} && e.pending == [] && e.trace == [] && e.internal == [] && e.external == [];
    assert Start(t, m) == EventLoop(t, m, e);
    IdleLoopSettles(t, m, e);
  }

  /** With nothing active, waiting or queued, the event loop returns at once and changes neither configuration nor trace. */
  lemma IdleLoopSettles<E>(t: Tree, m: Matcher<E>, e: Engine<E>)
    requires Valid(t) && HistoryOk(t, e.history)
    requires e.config == {} && e.pending == [] && e.internal == [] && e.external == []
    ensures EventLoop(t, m, e).Settled?
    ensures EventLoop(t, m, e).engine.config == {} && EventLoop(t, m, e).engine.trace == e.trace
  {
    NothingActiveSelectsNothing(t, m, None);
    EventLoopDiverges(t, m, e);
  }

  /** With nothing active, no transition is collected for any event. */
  lemma NothingActiveSelectsNothing<E>(t: Tree, m: Matcher<E>, ev: Option<E>)
    ensures forall p :: Enabled(t, m, ev, {}, p).enabled == []
  {
  }

  /** `<scxml><parallel><state/><state/></parallel></scxml>`, with any content and no `initial` attributes. */
  predicate TopLevelParallel(t: Tree) {
    && |t.nodes| == 4 && t.transitions == []
    && t.nodes[0].tag == Scxml && t.nodes[0].parent == None
    && t.nodes[1].tag == Parallel && t.nodes[1].parent == Some(0)
    && t.nodes[2].tag == State && t.nodes[2].parent == Some(1)
    && t.nodes[3].tag == State && t.nodes[3].parent == Some(1)
    && forall x | 0 <= x < 4 :: t.nodes[x].initial.None?
  }

  /** In that document the two `<state>`s are leaves. */
  lemma TopLevelLeaves(t: Tree)
    requires TopLevelParallel(t)
    ensures !IsCompound(t, 2) && !IsCompound(t, 3)
  {
    assert Parent(t, 0) == None && Parent(t, 1) == Some(0);
    assert Parent(t, 2) == Some(1) && Parent(t, 3) == Some(1);
    forall x, d | 2 <= x < 4 && 0 <= d < 4 ensures !IsDescendant(t, d, x) {
      assert !IsDescendant(t, 0, x);
      assert !IsDescendant(t, 1, x);
    }
  }

  /** In that document the `<parallel>` is compound, with its first `<state>` as default target. */
  lemma TopLevelRegionDefault(t: Tree)
    requires TopLevelParallel(t)
    ensures IsCompound(t, 1) && DefaultTarget(t, 1) == Some(2) && IsDescendant(t, 2, 1)
  {
    assert Parent(t, 2) == Some(1);
    assert IsDescendant(t, 2, 1);
    assert !HasChildTagged(t, 1, Initial) by {
      assert Parent(t, 0) == None && Parent(t, 1) == Some(0);
    }
    assert IsFirstChild(t, 1, State, 2) by {
      assert Parent(t, 0) == None && Parent(t, 1) == Some(0);
    }
    FirstChildUnique(t, 1, State, FirstChild(t, 1, State).value, 2);
  }

  /** In that document no node has an `initial` attribute, an `<initial>` tag or a `<history>` tag. */
  lemma TopLevelShapes(t: Tree)
    requires TopLevelParallel(t)
    ensures forall x | 0 <= x < |t.nodes| :: NodeShapeOk(t, x)
  {
    forall x | 0 <= x < |t.nodes| ensures NodeShapeOk(t, x) {
      assert t.nodes[x].initial.None?;
      assert t.nodes[x].tag in {Scxml, Parallel, State};
    }
  }

  /** In that document `<scxml>` has neither an `<initial>` nor a `<state>` child. */
  lemma TopLevelRootChildren(t: Tree)
    requires TopLevelParallel(t)
    ensures InitialTransitionsFor(t, Root) == []
  {
    assert Parent(t, 0) == None && Parent(t, 1) == Some(0);
    assert Parent(t, 2) == Some(1) && Parent(t, 3) == Some(1);
    assert !HasChildTagged(t, Root, Initial) && !HasChildTagged(t, Root, State);
  }

  /** The top-level `<parallel>` document is well-formed, and `<scxml>` has no initial transition. */
  lemma TopLevelValid(t: Tree)
    requires TopLevelParallel(t)
    ensures Valid(t) && InitialTransitionsFor(t, Root) == []
  {
    TopLevelShapes(t);
    TopLevelRootChildren(t);
    TopLevelDefaults(t);
    TopLevelParents(t);
  }

  /** In that document every compound state below `<scxml>` has a default target below it. */
  lemma TopLevelDefaults(t: Tree)
    requires TopLevelParallel(t)
    ensures forall x | 0 < x < |t.nodes| :: IsCompound(t, x) ==>
              DefaultTarget(t, x).Some? && IsDescendant(t, DefaultTarget(t, x).value, x)
  {
    forall x | 0 < x < |t.nodes| && IsCompound(t, x)
      ensures DefaultTarget(t, x).Some? && IsDescendant(t, DefaultTarget(t, x).value, x)
    {
      if x == 1 {
        TopLevelRegionDefault(t);
      } else {
        TopLevelLeaves(t);
      }
    }
  }

  /** In that document every node but `<scxml>` hangs below an earlier `<scxml>` or `<parallel>`. */
  lemma TopLevelParents(t: Tree)
    requires TopLevelParallel(t)
    ensures forall x | 0 < x < |t.nodes| ::
              && t.nodes[x].tag != Scxml && t.nodes[x].parent.Some? && t.nodes[x].parent.value < x
              && t.nodes[t.nodes[x].parent.value].tag in {Scxml, State, Parallel}
  {
    forall x | 0 < x < |t.nodes|
      ensures && t.nodes[x].tag != Scxml && t.nodes[x].parent.Some? && t.nodes[x].parent.value < x
              && t.nodes[t.nodes[x].parent.value].tag in {Scxml, State, Parallel}
    {
      if x == 1 {
        assert t.nodes[x].parent == Some(0);
      } else {
        assert t.nodes[x].parent == Some(1);
      }
    }
  }

  /**
   * The top-level `<parallel>` document is in scope, and start-up settles on
   * it with nothing entered.
   */
  lemma TopLevelParallelStarts<E>(t: Tree, m: Matcher<E>)
    requires TopLevelParallel(t)
    ensures Valid(t)
    ensures InitialTransitionsFor(t, Root) == []
    ensures Start(t, m).Settled? && Start(t, m).engine.config == {}
  {
    TopLevelValid(t);
    StartWithoutInitialEntersNothing(t, m);
  }

  /**
   * `terminate()` switches off every invoke of every active state and
   * changes nothing but the host's view: the configuration, queues and
   * history stay.
   */
  lemma TerminateFacts<E>(t: Tree, e: Engine<E>)
    requires ConfigOk(t, e.config)
    ensures var r := Terminate(t, e);
            && (forall s, i | s in e.config && i in t.nodes[s].invokes ::
                  LastSetting(r.trace, InvokeSwitch(i)) == Some(false))
            && r == e.(trace := r.trace)
  {
    var xs := Descending(e.config, |t.nodes|);
    var fx := Each(xs, ShutdownPiece(t, e.payload));
    var r := Terminate(t, e);
    assert r.trace == e.trace + fx;
    ShutdownOnlySets(t, xs, e.payload);
    forall s, i | s in e.config && i in t.nodes[s].invokes ensures LastSetting(r.trace, InvokeSwitch(i)) == Some(false) {
      ShutdownInvokeOff(t, xs, e.payload, s, i);
      LastSettingWins(e.trace, fx, InvokeSwitch(i), false, ToggleInvoke(i, false));
    }
  }

  lemma ShutdownInvokeOff(t: Tree, xs: seq<NodeId>, p: Option<Payload>, s: NodeId, i: InvokeId)
    requires s in xs && s < |t.nodes| && i in t.nodes[s].invokes
    ensures ToggleInvoke(i, false) in Each(xs, ShutdownPiece(t, p))
  {
    var j :| 0 <= j < |xs| && xs[j] == s;
    var k :| 0 <= k < |t.nodes[s].invokes| && t.nodes[s].invokes[k] == i;
    var ox := OnExit(t, s, p);
    assert ox[|t.nodes[s].onexit| + k] == ToggleInvoke(i, false);
    OnShutdownRuns(t, s, p);
    assert OnShutdown(t, s, p)[|t.nodes[s].onexit| + k] == ToggleInvoke(i, false);
    EachContains(xs, ShutdownPiece(t, p), j, ToggleInvoke(i, false));
  }

  /**
   * `terminate()` appends to the trace one unbroken block per active state
   * (its `<onexit>` content, its invokes, then its transitions switched off),
   * in reverse document order, so descendants before ancestors.
   */
  lemma TerminateTrace<E>(t: Tree, e: Engine<E>)
    ensures var r := Terminate(t, e);
            |e.trace| <= |r.trace| && r.trace[..|e.trace|] == e.trace
    ensures var seg := Terminate(t, e).trace[|e.trace|..];
            var xs := Descending(e.config, |t.nodes|);
            var piece := ShutdownPiece(t, e.payload);
            && OnlySets(seg, false)
            && (forall s | s in e.config && s < |t.nodes| :: Placed(seg, Slot(xs, piece, s), OnShutdown(t, s, e.payload)))
            && (forall a, b | a in e.config && b in e.config && a < b < |t.nodes| ::
                  Slot(xs, piece, b) + |OnShutdown(t, b, e.payload)| <= Slot(xs, piece, a))
            && (forall a, b | a in e.config && b in e.config && b < |t.nodes| && IsDescendant(t, b, a) ::
                  Slot(xs, piece, b) + |OnShutdown(t, b, e.payload)| <= Slot(xs, piece, a))
  {
    var xs := Descending(e.config, |t.nodes|);
    var piece := ShutdownPiece(t, e.payload);
    EachOnlySets(xs, piece, false);
    var r := Terminate(t, e);
    assert r.trace[|e.trace|..] == Each(xs, piece);
    forall s | s in e.config && s < |t.nodes| ensures Placed(Each(xs, piece), Slot(xs, piece, s), piece(s)) {
      EachPlaces(xs, piece, s);
    }
    forall a, b | a in e.config && b in e.config && a < b < |t.nodes|
      ensures Slot(xs, piece, b) + |piece(b)| <= Slot(xs, piece, a)
    {
      EachDown(xs, piece, b, a);
    }
    forall a, b | a in e.config && b in e.config && b < |t.nodes| && IsDescendant(t, b, a)
      ensures Slot(xs, piece, b) + |piece(b)| <= Slot(xs, piece, a)
    {
      DescendantIsLater(t, b, a);
      EachDown(xs, piece, b, a);
    }
  }

  /** `terminate()` switches off every transition of every active state. */
  lemma TerminateSwitchesOffTransitions<E>(t: Tree, e: Engine<E>)
    requires ConfigOk(t, e.config)
    ensures var r := Terminate(t, e);
            forall s, tr | s in e.config && tr in TransitionsOf(t, s) ::
              LastSetting(r.trace, TransitionSwitch(tr)) == Some(false)
  {
    var xs := Descending(e.config, |t.nodes|);
    var piece := ShutdownPiece(t, e.payload);
    var fx := Each(xs, piece);
    var r := Terminate(t, e);
    ShutdownOnlySets(t, xs, e.payload);
    assert r.trace == e.trace + fx;
    forall s, tr | s in e.config && tr in TransitionsOf(t, s) ensures LastSetting(r.trace, TransitionSwitch(tr)) == Some(false) {
      ShutdownSwitchesOff(t, xs, e.payload, s, tr);
      LastSettingWins(e.trace, fx, TransitionSwitch(tr), false, ToggleTransition(tr, false));
    }
  }

  lemma ShutdownOnlySets(t: Tree, xs: seq<NodeId>, p: Option<Payload>)
    ensures OnlySets(Each(xs, ShutdownPiece(t, p)), false)
  {
    EachOnlySets(xs, ShutdownPiece(t, p), false);
  }

  lemma ShutdownSwitchesOff(t: Tree, xs: seq<NodeId>, p: Option<Payload>, s: NodeId, tr: TransId)
    requires s in xs && tr in TransitionsOf(t, s)
    ensures ToggleTransition(tr, false) in Each(xs, ShutdownPiece(t, p))
  {
    var ts := TransitionsOf(t, s);
    var k :| 0 <= k < |ts| && ts[k] == tr;
    OnShutdownRuns(t, s, p);
    assert OnShutdown(t, s, p)[|OnExit(t, s, p)| + k] == ToggleTransition(tr, false);
    var j :| 0 <= j < |xs| && xs[j] == s;
    EachContains(xs, ShutdownPiece(t, p), j, ToggleTransition(tr, false));
  }
}

=== FILE: entry.dfy ===
/**
 * The entry set of `enterStates`: `computeEntrySet`,
 * `addDescendantStatesToEnter` and `addAncestorStatesToEnter`, as mutually
 * recursive functions over an accumulator that plays the two sets
 * `statesToEnter` and `statesForDefaultEntry`.
 *
 * The recursion terminates because every call moves strictly down the tree:
 * the measure is the rank of the node worked on (rank drops from parent to
 * child), then a tier that orders the functions at the same rank, then the
 * length of the list still to walk.
 */
module Entry {
  import opened Wrappers
  import opened StateTree
  import opened TreeFacts
  import opened Targets

  /** `statesToEnter` and `statesForDefaultEntry`. */
  datatype EntryAcc = EntryAcc(toEnter: set<NodeId>, forDefault: set<NodeId>)

  /** The test `Array.from(statesToEnter).some(s => isDescendant(s, child))`. */
  predicate Represented(t: Tree, toEnter: set<NodeId>, c: NodeId) {
    exists s | s in toEnter :: IsDescendant(t, s, c)
  }

  /** The largest rank among `xs`, 0 for an empty list. */
  function MaxRank(t: Tree, xs: seq<NodeId>): nat {
    if xs == [] then 0
    else
      var r := MaxRank(t, xs[1..]);
      if Rank(t, xs[0]) > r then Rank(t, xs[0]) else r
  }

  lemma {:induction false} MaxRankBelow(t: Tree, xs: seq<NodeId>, bound: nat)
    requires 0 < bound
    requires forall k | 0 <= k < |xs| :: Rank(t, xs[k]) < bound
    ensures MaxRank(t, xs) < bound
  {
    if xs != [] {
      assert forall k | 0 <= k < |xs[1..]| :: xs[1..][k] == xs[k + 1];
      MaxRankBelow(t, xs[1..], bound);
    }
  }

  lemma RankPositive(t: Tree, x: NodeId)
    requires x < |t.nodes|
    ensures Rank(t, x) >= 1
  {
    DepthBounded(t, x);
  }

  /** Every entry of the walk from `o` is `o` or one of its ancestors. */
  lemma {:induction false} ChainMember(t: Tree, o: NodeId, b: Option<NodeId>, e: NodeId)
    requires e in ChainFrom(t, Some(o), b)
    ensures e == o || IsDescendant(t, o, e)
    decreases o
  {
    if e != o {
      var p := Parent(t, o).value;
      ChainMember(t, p, b, e);
      if e != p {
        DescendantTransitive(t, o, p, e);
      }
    }
  }

  /** The proper ancestors of `s` are real nodes before `s`. */
  lemma AncestorsInRange(t: Tree, s: NodeId, b: Option<NodeId>)
    requires s < |t.nodes|
    ensures forall e | e in ProperAncestors(t, s, b) :: e < s && IsDescendant(t, s, e)
  {
    forall e | e in ProperAncestors(t, s, b) ensures e < s && IsDescendant(t, s, e) {
      var p := Parent(t, s).value;
      ChainMember(t, p, b, e);
      if e != p {
        DescendantTransitive(t, s, p, e);
      }
      DescendantIsLater(t, s, e);
    }
  }

  /** The nodes strictly between `v` and `b` all rank below `b`. */
  lemma AncestorRanks(t: Tree, v: NodeId, b: NodeId)
    requires IsDescendant(t, v, b)
    ensures var xs := ProperAncestors(t, v, Some(b));
            && (forall k | 0 <= k < |xs| :: xs[k] < |t.nodes| && IsDescendant(t, v, xs[k]) && IsDescendant(t, xs[k], b))
            && MaxRank(t, xs) < Rank(t, b)
  {
    var xs := ProperAncestors(t, v, Some(b));
    DescendantIsLater(t, v, b);
    assert v < |t.nodes|;
    forall e | e in xs
      ensures e < |t.nodes| && IsDescendant(t, v, e) && IsDescendant(t, e, b) && Rank(t, e) < Rank(t, b)
    {
      AncestorsWithBoundary(t, v, b, e);
      DescendantIsLater(t, v, e);
      DescendantDeeper(t, e, b);
    }
    RankPositive(t, b);
    MaxRankBelow(t, xs, Rank(t, b));
  }

  /** A `<history>` node of a valid tree is never the root. */
  lemma HistoryHasParent(t: Tree, h: NodeId)
    requires Valid(t) && HasTag(t, h, History)
    ensures Parent(t, h).Some?
  {
    assert h != Root;
  }

  /** `addDescendantStatesToEnter(x)`. */
  function Desc(t: Tree, hist: HistoryMap, x: NodeId, acc: EntryAcc): EntryAcc
    requires Valid(t) && HistoryOk(t, hist) && 0 < x < |t.nodes|
    decreases Rank(t, x), 4, 0
  {
    if HasTag(t, x, History) then
      if x in hist then
        HistoryHasParent(t, x);
        var p := Parent(t, x).value;
        var vals := hist[x];
        assert forall k | 0 <= k < |vals| :: vals[k] < |t.nodes| && IsDescendant(t, vals[k], p) && Rank(t, vals[k]) < Rank(t, x) by {
          forall k | 0 <= k < |vals| ensures vals[k] < |t.nodes| && IsDescendant(t, vals[k], p) && Rank(t, vals[k]) < Rank(t, x) {
            assert vals[k] in vals;
            DescendantTransitive(t, vals[k], x, p);
            DescendantDeeper(t, vals[k], x);
          }
        }
        ChildRank(t, x, p);
        var acc1 := DescList(t, hist, Rank(t, x), vals, acc);
        AncList(t, hist, Rank(t, x), vals, p, acc1)
      else acc
    else
      var acc1 := acc.(toEnter := acc.toEnter + {x});
      if IsCompound(t, x) then
        var d := DefaultTarget(t, x).value;
        var acc2 := acc1.(forDefault := acc1.forDefault + {x});
        DescendantDeeper(t, d, x);
        AncestorRanks(t, d, x);
        AncLoop(t, hist, ProperAncestors(t, d, Some(x)), Desc(t, hist, d, acc2))
      else if HasTag(t, x, Parallel) then
        ChildLoop(t, hist, x, ChildStates(t, x), acc1)
      else acc1
  }

  /**
   * The loop over `getChildStates(p)` shared by both parallel branches: a child
   * is entered unless some state already chosen lies strictly below it.
   */
  function ChildLoop(t: Tree, hist: HistoryMap, p: NodeId, cs: seq<NodeId>, acc: EntryAcc): EntryAcc
    requires Valid(t) && HistoryOk(t, hist)
    requires forall k | 0 <= k < |cs| :: Parent(t, cs[k]) == Some(p)
    decreases Rank(t, p), 1, |cs|
  {
    if cs == [] then acc
    else
      var c := cs[0];
      ChildRank(t, c, p);
      var acc1 := if Represented(t, acc.toEnter, c) then acc else Desc(t, hist, c, acc);
      ChildLoop(t, hist, p, cs[1..], acc1)
  }

  /** The loop of `addAncestorStatesToEnter` over an already computed ancestor list. */
  function AncLoop(t: Tree, hist: HistoryMap, ancs: seq<NodeId>, acc: EntryAcc): EntryAcc
    requires Valid(t) && HistoryOk(t, hist)
    requires forall k | 0 <= k < |ancs| :: ancs[k] < |t.nodes|
    decreases MaxRank(t, ancs), 2, |ancs|
  {
    if ancs == [] then acc
    else
      var a := ancs[0];
      var acc1 := acc.(toEnter := acc.toEnter + {a});
      var acc2 := if HasTag(t, a, Parallel) then ChildLoop(t, hist, a, ChildStates(t, a), acc1) else acc1;
      AncLoop(t, hist, ancs[1..], acc2)
  }

  /** `for (const s of values) addDescendantStatesToEnter(s)` for a recorded history. */
  function DescList(t: Tree, hist: HistoryMap, bound: nat, vals: seq<NodeId>, acc: EntryAcc): EntryAcc
    requires Valid(t) && HistoryOk(t, hist)
    requires forall k | 0 <= k < |vals| :: 0 < vals[k] < |t.nodes| && Rank(t, vals[k]) < bound
    decreases bound, 3, |vals|
  {
    if vals == [] then acc
    else DescList(t, hist, bound, vals[1..], Desc(t, hist, vals[0], acc))
  }

  /** `for (const s of values) addAncestorStatesToEnter(s, state.parentElement)`. */
  function AncList(t: Tree, hist: HistoryMap, bound: nat, vals: seq<NodeId>, b: NodeId, acc: EntryAcc): EntryAcc
    requires Valid(t) && HistoryOk(t, hist)
    requires forall k | 0 <= k < |vals| :: IsDescendant(t, vals[k], b)
    requires Rank(t, b) <= bound + 1
    decreases bound, 3, |vals|
  {
    if vals == [] then acc
    else
      AncestorRanks(t, vals[0], b);
      var acc1 := AncLoop(t, hist, ProperAncestors(t, vals[0], Some(b)), acc);
      AncList(t, hist, bound, vals[1..], b, acc1)
  }

  // ---------------------------------------------------------------------
  // The invariant the two sets keep, and where new states come from.
  // ---------------------------------------------------------------------

  /** `s` is `top` or lies below it. */
  predicate Under(t: Tree, s: NodeId, top: NodeId) {
    s == top || IsDescendant(t, s, top)
  }

  /**
   * What holds of the two sets at every step: only real, non-root, non-history
   * states are chosen, and every state marked for default entry is a chosen
   * compound state.
   */
  predicate AccOk(t: Tree, acc: EntryAcc) {
    && (forall s | s in acc.toEnter :: 0 < s < |t.nodes| && !HasTag(t, s, History))
    && (forall s | s in acc.forDefault :: s in acc.toEnter && IsCompound(t, s))
  }

  /** Both sets only ever grow. */
  predicate Grows(a: EntryAcc, r: EntryAcc) {
    a.toEnter <= r.toEnter && a.forDefault <= r.forDefault
  }

  /** Everything added to either set lies at or below `top`. */
  predicate AddsUnder(t: Tree, a: EntryAcc, r: EntryAcc, top: NodeId) {
    && (forall s | s in r.toEnter && s !in a.toEnter :: Under(t, s, top))
    && (forall s | s in r.forDefault && s !in a.forDefault :: Under(t, s, top))
  }

  /** In a valid document every element that has a descendant is a state container. */
  lemma {:induction false} AncestorIsContainer(t: Tree, v: NodeId, e: NodeId)
    requires Valid(t) && IsDescendant(t, v, e)
    ensures e < |t.nodes| && t.nodes[e].tag in {Scxml, State, Parallel}
    decreases v
  {
    var p := Parent(t, v).value;
    assert 0 < v < |t.nodes|;
    if p != e {
      AncestorIsContainer(t, p, e);
    }
  }

  /**
   * A recorded history only ever holds descendants of its key, and a
   * `<history>` element has none, so it never has anything to restore.
   */
  lemma HistoryNeverRecorded(t: Tree, hist: HistoryMap, h: NodeId)
    requires Valid(t) && HistoryOk(t, hist) && HasTag(t, h, History)
    ensures h !in hist || hist[h] == []
  {
    if h in hist && hist[h] != [] {
      var v := hist[h][0];
      assert v in hist[h];
      AncestorIsContainer(t, v, h);
      assert false;
    }
  }

  /**
   * `addDescendantStatesToEnter` on a `<history>` element adds nothing: the
   * lookup is by the history element, and nothing is ever stored under one.
   */
  lemma HistoryNeverRestored(t: Tree, hist: HistoryMap, h: NodeId, acc: EntryAcc)
    requires Valid(t) && HistoryOk(t, hist) && h < |t.nodes| && HasTag(t, h, History)
    ensures Desc(t, hist, h, acc) == acc
  {
    HistoryNeverRecorded(t, hist, h);
  }

  /** The walk between `v` and `b` meets only non-root, non-history nodes below `b`. */
  lemma WalkBelow(t: Tree, v: NodeId, b: NodeId)
    requires Valid(t) && IsDescendant(t, v, b)
    ensures var xs := ProperAncestors(t, v, Some(b));
            forall k | 0 <= k < |xs| :: && 0 < xs[k] < |t.nodes| && !HasTag(t, xs[k], History) && xs[k] != b
                                         && IsDescendant(t, xs[k], b) && IsDescendant(t, v, xs[k])
  {
    var xs := ProperAncestors(t, v, Some(b));
    AncestorRanks(t, v, b);
    forall k | 0 <= k < |xs| ensures 0 < xs[k] && !HasTag(t, xs[k], History) && xs[k] != b {
      AncestorIsContainer(t, v, xs[k]);
      DescendantIsLater(t, xs[k], b);
    }
  }

  lemma {:induction false} DescKeeps(t: Tree, hist: HistoryMap, x: NodeId, acc: EntryAcc)
    requires Valid(t) && HistoryOk(t, hist) && 0 < x < |t.nodes| && AccOk(t, acc)
    ensures var r := Desc(t, hist, x, acc); AccOk(t, r) && Grows(acc, r) && AddsUnder(t, acc, r, x)
    decreases Rank(t, x), 5, 0
  {
    if HasTag(t, x, History) {
      HistoryNeverRecorded(t, hist, x);
    } else if IsCompound(t, x) {
      DescKeepsCompound(t, hist, x, acc);
    } else if HasTag(t, x, Parallel) {
      var acc1 := acc.(toEnter := acc.toEnter + {x});
      ChildLoopKeeps(t, hist, x, ChildStates(t, x), acc1);
    }
  }

  lemma {:induction false} DescKeepsCompound(t: Tree, hist: HistoryMap, x: NodeId, acc: EntryAcc)
    requires Valid(t) && HistoryOk(t, hist) && 0 < x < |t.nodes| && AccOk(t, acc)
    requires !HasTag(t, x, History) && IsCompound(t, x)
    ensures var r := Desc(t, hist, x, acc); AccOk(t, r) && Grows(acc, r) && AddsUnder(t, acc, r, x)
    decreases Rank(t, x), 4, 0
  {
    var d := DefaultTarget(t, x).value;
    var acc2 := EntryAcc(acc.toEnter + {x}, acc.forDefault + {x});
    DescendantDeeper(t, d, x);
    DescendantIsLater(t, d, x);
    DescKeeps(t, hist, d, acc2);
    var acc3 := Desc(t, hist, d, acc2);
    AddsUnderWidens(t, acc2, acc3, d, x);
    var ancs := ProperAncestors(t, d, Some(x));
    WalkBelow(t, d, x);
    AncestorRanks(t, d, x);
    AncLoopKeeps(t, hist, ancs, acc3, x);
    AddsUnderChain(t, acc, acc2, acc3, x);
    AddsUnderChain(t, acc, acc3, AncLoop(t, hist, ancs, acc3), x);
  }

  lemma {:induction false} ChildLoopKeeps(t: Tree, hist: HistoryMap, p: NodeId, cs: seq<NodeId>, acc: EntryAcc)
    requires Valid(t) && HistoryOk(t, hist) && AccOk(t, acc)
    requires forall k | 0 <= k < |cs| :: Parent(t, cs[k]) == Some(p)
    ensures var r := ChildLoop(t, hist, p, cs, acc); AccOk(t, r) && Grows(acc, r) && AddsBelow(t, acc, r, p)
    decreases Rank(t, p), 1, |cs|
  {
    if cs != [] {
      var c := cs[0];
      ChildRank(t, c, p);
      var acc1 := if Represented(t, acc.toEnter, c) then acc else Desc(t, hist, c, acc);
      if !Represented(t, acc.toEnter, c) {
        DescKeeps(t, hist, c, acc);
        UnderChildIsBelow(t, acc, acc1, c, p);
      }
      ChildLoopKeeps(t, hist, p, cs[1..], acc1);
      AddsBelowChain(t, acc, acc1, ChildLoop(t, hist, p, cs[1..], acc1), p);
    }
  }

  lemma {:induction false} AncLoopKeeps(t: Tree, hist: HistoryMap, ancs: seq<NodeId>, acc: EntryAcc, top: NodeId)
    requires Valid(t) && HistoryOk(t, hist) && AccOk(t, acc)
    requires forall k | 0 <= k < |ancs| ::
               0 < ancs[k] < |t.nodes| && !HasTag(t, ancs[k], History) && Under(t, ancs[k], top)
    ensures var r := AncLoop(t, hist, ancs, acc); AccOk(t, r) && Grows(acc, r) && AddsUnder(t, acc, r, top)
    ensures (forall k | 0 <= k < |ancs| :: ancs[k] != top) ==> AddsBelow(t, acc, AncLoop(t, hist, ancs, acc), top)
    decreases MaxRank(t, ancs), 2, |ancs|
  {
    if ancs != [] {
      var a := ancs[0];
      var acc1 := acc.(toEnter := acc.toEnter + {a});
      var acc2 := if HasTag(t, a, Parallel) then ChildLoop(t, hist, a, ChildStates(t, a), acc1) else acc1;
      AncStepKeeps(t, hist, a, acc, top);
      var rest := ancs[1..];
      assert forall k | 0 <= k < |rest| :: rest[k] == ancs[k + 1];
      AncLoopKeeps(t, hist, rest, acc2, top);
      var r := AncLoop(t, hist, rest, acc2);
      AddsUnderChain(t, acc, acc2, r, top);
      if forall k | 0 <= k < |ancs| :: ancs[k] != top {
        assert a == ancs[0];
        assert forall k | 0 <= k < |rest| :: rest[k] != top;
        AddsBelowChain(t, acc, acc2, r, top);
      }
    }
  }

  /** One round of the loop of `addAncestorStatesToEnter`. */
  lemma {:induction false} AncStepKeeps(t: Tree, hist: HistoryMap, a: NodeId, acc: EntryAcc, top: NodeId)
    requires Valid(t) && HistoryOk(t, hist) && AccOk(t, acc)
    requires 0 < a < |t.nodes| && !HasTag(t, a, History) && Under(t, a, top)
    ensures var acc1 := acc.(toEnter := acc.toEnter + {a});
            var r := if HasTag(t, a, Parallel) then ChildLoop(t, hist, a, ChildStates(t, a), acc1) else acc1;
            && AccOk(t, r) && Grows(acc, r) && AddsUnder(t, acc, r, top)
            && (a != top ==> AddsBelow(t, acc, r, top))
    decreases Rank(t, a), 2, 0
  {
    var acc1 := acc.(toEnter := acc.toEnter + {a});
    if HasTag(t, a, Parallel) {
      ChildLoopKeeps(t, hist, a, ChildStates(t, a), acc1);
      var r := ChildLoop(t, hist, a, ChildStates(t, a), acc1);
      AddsBelowWidens(t, acc1, r, a, top);
      AddsUnderChain(t, acc, acc1, r, top);
      if a != top {
        AddsBelowChain(t, acc, acc1, r, top);
      }
    }
  }

  /** Everything added to either set lies strictly below `top`. */
  predicate AddsBelow(t: Tree, a: EntryAcc, r: EntryAcc, top: NodeId) {
    && (forall s | s in r.toEnter && s !in a.toEnter :: IsDescendant(t, s, top))
    && (forall s | s in r.forDefault && s !in a.forDefault :: IsDescendant(t, s, top))
  }

  lemma AddsUnderWidens(t: Tree, a: EntryAcc, r: EntryAcc, d: NodeId, x: NodeId)
    requires AddsUnder(t, a, r, d) && Under(t, d, x)
    ensures AddsUnder(t, a, r, x)
  {
    forall s | s in r.toEnter && s !in a.toEnter ensures Under(t, s, x) {
      if s != d && d != x { DescendantTransitive(t, s, d, x); }
    }
    forall s | s in r.forDefault && s !in a.forDefault ensures Under(t, s, x) {
      if s != d && d != x { DescendantTransitive(t, s, d, x); }
    }
  }

  lemma AddsBelowWidens(t: Tree, a: EntryAcc, r: EntryAcc, d: NodeId, x: NodeId)
    requires AddsBelow(t, a, r, d) && Under(t, d, x)
    ensures AddsBelow(t, a, r, x)
  {
    forall s | s in r.toEnter && s !in a.toEnter ensures IsDescendant(t, s, x) {
      if d != x { DescendantTransitive(t, s, d, x); }
    }
    forall s | s in r.forDefault && s !in a.forDefault ensures IsDescendant(t, s, x) {
      if d != x { DescendantTransitive(t, s, d, x); }
    }
  }

  /** What is added below a child of `p` is added strictly below `p`. */
  lemma UnderChildIsBelow(t: Tree, a: EntryAcc, r: EntryAcc, c: NodeId, p: NodeId)
    requires AddsUnder(t, a, r, c) && Parent(t, c) == Some(p)
    ensures AddsBelow(t, a, r, p)
  {
    forall s | s in r.toEnter && s !in a.toEnter ensures IsDescendant(t, s, p) {
      if s != c { DescendantTransitive(t, s, c, p); }
    }
    forall s | s in r.forDefault && s !in a.forDefault ensures IsDescendant(t, s, p) {
      if s != c { DescendantTransitive(t, s, c, p); }
    }
  }

  lemma AddsUnderChain(t: Tree, a: EntryAcc, b: EntryAcc, c: EntryAcc, x: NodeId)
    requires AddsUnder(t, a, b, x) && AddsUnder(t, b, c, x)
    ensures AddsUnder(t, a, c, x)
  {}

  lemma AddsBelowChain(t: Tree, a: EntryAcc, b: EntryAcc, c: EntryAcc, x: NodeId)
    requires AddsBelow(t, a, b, x) && AddsBelow(t, b, c, x)
    ensures AddsBelow(t, a, c, x)
  {}

  // ---------------------------------------------------------------------
  // What the sets are guaranteed to contain.
  // ---------------------------------------------------------------------

  /**
   * The default entry of the compound state `x` chose its default target
   * (unless that is a `<history>` element) and every state between the two.
   */
  predicate DefaultPathIn(t: Tree, x: NodeId, toEnter: set<NodeId>)
    requires Valid(t) && 0 < x < |t.nodes| && IsCompound(t, x)
  {
    var d := DefaultTarget(t, x).value;
    && (!HasTag(t, d, History) ==> d in toEnter)
    && forall e | e in ProperAncestors(t, d, Some(x)) :: e in toEnter
  }

  /** Every non-history child state of `p` is chosen or has a chosen descendant. */
  predicate RegionsCovered(t: Tree, p: NodeId, toEnter: set<NodeId>) {
    var cs := ChildStates(t, p);
    forall k | 0 <= k < |cs| :: !HasTag(t, cs[k], History) ==> cs[k] in toEnter || Represented(t, toEnter, cs[k])
  }

  lemma RepresentedGrows(t: Tree, a: set<NodeId>, b: set<NodeId>, c: NodeId)
    requires a <= b && Represented(t, a, c)
    ensures Represented(t, b, c)
  {
    var s :| s in a && IsDescendant(t, s, c);
    assert s in b;
  }

  lemma CoveredGrows(t: Tree, p: NodeId, a: set<NodeId>, b: set<NodeId>)
    requires a <= b && RegionsCovered(t, p, a)
    ensures RegionsCovered(t, p, b)
  {
    var cs := ChildStates(t, p);
    forall k | 0 <= k < |cs| && !HasTag(t, cs[k], History) && cs[k] !in b
      ensures Represented(t, b, cs[k])
    {
      RepresentedGrows(t, a, b, cs[k]);
    }
  }

  /** A default path once chosen stays chosen as the set grows. */
  lemma DefaultPathGrows(t: Tree, x: NodeId, a: set<NodeId>, b: set<NodeId>)
    requires Valid(t) && 0 < x < |t.nodes| && IsCompound(t, x)
    requires a <= b && DefaultPathIn(t, x, a)
    ensures DefaultPathIn(t, x, b)
  {}

  /**
   * Every state newly marked for default entry between `a` and `r` is a
   * compound state whose default path has been chosen in `r`.
   */
  predicate DefaultsEntered(t: Tree, a: EntryAcc, r: EntryAcc)
    requires Valid(t)
  {
    forall s | s in r.forDefault && s !in a.forDefault ::
      0 < s < |t.nodes| && IsCompound(t, s) && DefaultPathIn(t, s, r.toEnter)
  }

  lemma DefaultsChain(t: Tree, a: EntryAcc, b: EntryAcc, c: EntryAcc)
    requires Valid(t) && Grows(b, c) && DefaultsEntered(t, a, b) && DefaultsEntered(t, b, c)
    ensures DefaultsEntered(t, a, c)
  {
    forall s | s in c.forDefault && s !in a.forDefault
      ensures 0 < s < |t.nodes| && IsCompound(t, s) && DefaultPathIn(t, s, c.toEnter)
    {
      if s in b.forDefault {
        DefaultPathGrows(t, s, b.toEnter, c.toEnter);
      }
    }
  }

  /**
   * `addDescendantStatesToEnter` on a non-history state chooses it; on a
   * compound one it marks it for default entry and chooses its default path;
   * and every compound state it marks for default entry on the way, however
   * deep, has its own default path chosen too.
   */
  lemma {:induction false} DescEnters(t: Tree, hist: HistoryMap, x: NodeId, acc: EntryAcc)
    requires Valid(t) && HistoryOk(t, hist) && 0 < x < |t.nodes| && AccOk(t, acc)
    requires !HasTag(t, x, History)
    ensures var r := Desc(t, hist, x, acc);
            && x in r.toEnter
            && (IsCompound(t, x) ==> x in r.forDefault && DefaultPathIn(t, x, r.toEnter))
    ensures DefaultsEntered(t, acc, Desc(t, hist, x, acc))
    decreases Rank(t, x), 4, 0
  {
    var acc1 := acc.(toEnter := acc.toEnter + {x});
    if IsCompound(t, x) {
      DefaultEntryEnters(t, hist, x, acc);
    } else if HasTag(t, x, Parallel) {
      ChildLoopKeeps(t, hist, x, ChildStates(t, x), acc1);
      ChildLoopDefaults(t, hist, x, ChildStates(t, x), acc1);
    }
  }

  /** The compound case of `DescEnters`: default entry chooses the default path, at every depth. */
  lemma DefaultEntryEnters(t: Tree, hist: HistoryMap, x: NodeId, acc: EntryAcc)
    requires Valid(t) && HistoryOk(t, hist) && 0 < x < |t.nodes| && AccOk(t, acc)
    requires !HasTag(t, x, History) && IsCompound(t, x)
    ensures var r := Desc(t, hist, x, acc);
            && x in r.toEnter && x in r.forDefault && DefaultPathIn(t, x, r.toEnter)
    ensures DefaultsEntered(t, acc, Desc(t, hist, x, acc))
    decreases Rank(t, x), 3, 2
  {
    DefaultEntryPath(t, hist, x, acc);
    DefaultEntryDefaults(t, hist, x, acc);
  }

  /** Default entry of a compound state chooses it, marks it, and chooses its default path. */
  lemma {:induction false} DefaultEntryPath(t: Tree, hist: HistoryMap, x: NodeId, acc: EntryAcc)
    requires Valid(t) && HistoryOk(t, hist) && 0 < x < |t.nodes| && AccOk(t, acc)
    requires !HasTag(t, x, History) && IsCompound(t, x)
    ensures var r := Desc(t, hist, x, acc);
            && x in r.toEnter && x in r.forDefault && DefaultPathIn(t, x, r.toEnter)
    decreases Rank(t, x), 3, 0
  {
    var acc1 := acc.(toEnter := acc.toEnter + {x});
    var d := DefaultTarget(t, x).value;
    var acc2 := acc1.(forDefault := acc1.forDefault + {x});
    DescendantDeeper(t, d, x);
    DescendantIsLater(t, d, x);
    DescKeeps(t, hist, d, acc2);
    if !HasTag(t, d, History) {
      DescEnters(t, hist, d, acc2);
    }
    var acc3 := Desc(t, hist, d, acc2);
    var ancs := ProperAncestors(t, d, Some(x));
    WalkBelow(t, d, x);
    AncestorRanks(t, d, x);
    AncLoopKeeps(t, hist, ancs, acc3, x);
    AncLoopEnters(t, hist, ancs, acc3, x);
    var r := Desc(t, hist, x, acc);
    assert r == AncLoop(t, hist, ancs, acc3);
    forall e | e in ancs ensures e in r.toEnter {
      var k :| 0 <= k < |ancs| && ancs[k] == e;
    }
  }

  /** Every state default entry of a compound state marks, at whatever depth, has its default path chosen. */
  lemma {:induction false} DefaultEntryDefaults(t: Tree, hist: HistoryMap, x: NodeId, acc: EntryAcc)
    requires Valid(t) && HistoryOk(t, hist) && 0 < x < |t.nodes| && AccOk(t, acc)
    requires !HasTag(t, x, History) && IsCompound(t, x)
    ensures DefaultsEntered(t, acc, Desc(t, hist, x, acc))
    decreases Rank(t, x), 3, 1
  {
    var acc1 := acc.(toEnter := acc.toEnter + {x});
    var d := DefaultTarget(t, x).value;
    var acc2 := acc1.(forDefault := acc1.forDefault + {x});
    DescendantDeeper(t, d, x);
    DescendantIsLater(t, d, x);
    DescKeeps(t, hist, d, acc2);
    if !HasTag(t, d, History) {
      DescEnters(t, hist, d, acc2);
    } else {
      HistoryNeverRestored(t, hist, d, acc2);
    }
    var acc3 := Desc(t, hist, d, acc2);
    var ancs := ProperAncestors(t, d, Some(x));
    WalkBelow(t, d, x);
    AncestorRanks(t, d, x);
    AncLoopKeeps(t, hist, ancs, acc3, x);
    var r := Desc(t, hist, x, acc);
    assert r == AncLoop(t, hist, ancs, acc3);
    DefaultEntryPath(t, hist, x, acc);
    AncLoopDefaults(t, hist, ancs, acc3, x);
    DefaultsChain(t, acc2, acc3, r);
    DefaultsAddOne(t, acc, acc2, r, x);
  }

  /** Marking one more compound state whose default path is chosen keeps the closure. */
  lemma DefaultsAddOne(t: Tree, a: EntryAcc, a2: EntryAcc, r: EntryAcc, x: NodeId)
    requires Valid(t) && 0 < x < |t.nodes| && IsCompound(t, x)
    requires a2.forDefault == a.forDefault + {x}
    requires DefaultsEntered(t, a2, r) && DefaultPathIn(t, x, r.toEnter)
    ensures DefaultsEntered(t, a, r)
  {}

  lemma {:induction false} ChildLoopDefaults(t: Tree, hist: HistoryMap, p: NodeId, cs: seq<NodeId>, acc: EntryAcc)
    requires Valid(t) && HistoryOk(t, hist) && AccOk(t, acc)
    requires forall k | 0 <= k < |cs| :: Parent(t, cs[k]) == Some(p)
    ensures DefaultsEntered(t, acc, ChildLoop(t, hist, p, cs, acc))
    decreases Rank(t, p), 1, |cs|
  {
    if cs != [] {
      var c := cs[0];
      ChildRank(t, c, p);
      var acc1 := if Represented(t, acc.toEnter, c) then acc else Desc(t, hist, c, acc);
      if !Represented(t, acc.toEnter, c) {
        DescKeeps(t, hist, c, acc);
        if !HasTag(t, c, History) {
          DescEnters(t, hist, c, acc);
        } else {
          HistoryNeverRestored(t, hist, c, acc);
        }
      }
      ChildLoopKeeps(t, hist, p, cs[1..], acc1);
      ChildLoopDefaults(t, hist, p, cs[1..], acc1);
      DefaultsChain(t, acc, acc1, ChildLoop(t, hist, p, cs[1..], acc1));
    }
  }

  lemma {:induction false} AncLoopDefaults(t: Tree, hist: HistoryMap, ancs: seq<NodeId>, acc: EntryAcc, top: NodeId)
    requires Valid(t) && HistoryOk(t, hist) && AccOk(t, acc)
    requires forall k | 0 <= k < |ancs| ::
               0 < ancs[k] < |t.nodes| && !HasTag(t, ancs[k], History) && Under(t, ancs[k], top)
    ensures DefaultsEntered(t, acc, AncLoop(t, hist, ancs, acc))
    decreases MaxRank(t, ancs), 2, |ancs|
  {
    if ancs != [] {
      var a := ancs[0];
      var acc1 := acc.(toEnter := acc.toEnter + {a});
      var acc2 := if HasTag(t, a, Parallel) then ChildLoop(t, hist, a, ChildStates(t, a), acc1) else acc1;
      if HasTag(t, a, Parallel) {
        ChildLoopDefaults(t, hist, a, ChildStates(t, a), acc1);
      }
      AncStepKeeps(t, hist, a, acc, top);
      var rest := ancs[1..];
      assert forall k | 0 <= k < |rest| :: rest[k] == ancs[k + 1];
      AncLoopKeeps(t, hist, rest, acc2, top);
      AncLoopDefaults(t, hist, rest, acc2, top);
      DefaultsChain(t, acc, acc2, AncLoop(t, hist, rest, acc2));
    }
  }

  lemma {:induction false} ChildLoopEnters(t: Tree, hist: HistoryMap, p: NodeId, cs: seq<NodeId>, acc: EntryAcc)
    requires Valid(t) && HistoryOk(t, hist) && AccOk(t, acc)
    requires forall k | 0 <= k < |cs| :: Parent(t, cs[k]) == Some(p)
    ensures var r := ChildLoop(t, hist, p, cs, acc);
            forall k | 0 <= k < |cs| :: !HasTag(t, cs[k], History) ==> cs[k] in r.toEnter || Represented(t, r.toEnter, cs[k])
    decreases Rank(t, p), 1, |cs|
  {
    if cs != [] {
      var c := cs[0];
      ChildRank(t, c, p);
      var acc1 := if Represented(t, acc.toEnter, c) then acc else Desc(t, hist, c, acc);
      if !Represented(t, acc.toEnter, c) {
        DescKeeps(t, hist, c, acc);
        if !HasTag(t, c, History) {
          DescEnters(t, hist, c, acc);
        }
      }
      var r := ChildLoop(t, hist, p, cs[1..], acc1);
      ChildLoopKeeps(t, hist, p, cs[1..], acc1);
      ChildLoopEnters(t, hist, p, cs[1..], acc1);
      if !HasTag(t, c, History) && c !in r.toEnter {
        RepresentedGrows(t, acc1.toEnter, r.toEnter, c);
      }
      forall k | 1 <= k < |cs| && !HasTag(t, cs[k], History)
        ensures cs[k] in r.toEnter || Represented(t, r.toEnter, cs[k])
      {
        assert cs[k] == cs[1..][k - 1];
      }
    }
  }

  lemma {:induction false} AncLoopEnters(t: Tree, hist: HistoryMap, ancs: seq<NodeId>, acc: EntryAcc, top: NodeId)
    requires Valid(t) && HistoryOk(t, hist) && AccOk(t, acc)
    requires forall k | 0 <= k < |ancs| ::
               0 < ancs[k] < |t.nodes| && !HasTag(t, ancs[k], History) && Under(t, ancs[k], top)
    ensures var r := AncLoop(t, hist, ancs, acc);
            forall k | 0 <= k < |ancs| ::
              ancs[k] in r.toEnter && (HasTag(t, ancs[k], Parallel) ==> RegionsCovered(t, ancs[k], r.toEnter))
    decreases MaxRank(t, ancs), 2, |ancs|
  {
    if ancs != [] {
      var a := ancs[0];
      var acc1 := acc.(toEnter := acc.toEnter + {a});
      var acc2 := if HasTag(t, a, Parallel) then ChildLoop(t, hist, a, ChildStates(t, a), acc1) else acc1;
      if HasTag(t, a, Parallel) {
        ChildLoopKeeps(t, hist, a, ChildStates(t, a), acc1);
        ChildLoopEnters(t, hist, a, ChildStates(t, a), acc1);
      }
      var rest := ancs[1..];
      assert forall k | 0 <= k < |rest| :: rest[k] == ancs[k + 1];
      var r := AncLoop(t, hist, rest, acc2);
      AncLoopKeeps(t, hist, rest, acc2, top);
      AncLoopEnters(t, hist, rest, acc2, top);
      if HasTag(t, a, Parallel) {
        CoveredGrows(t, a, acc2.toEnter, r.toEnter);
      }
      forall k | 1 <= k < |ancs|
        ensures ancs[k] in r.toEnter && (HasTag(t, ancs[k], Parallel) ==> RegionsCovered(t, ancs[k], r.toEnter))
      {
        assert ancs[k] == rest[k - 1];
      }
    }
  }

  // ---------------------------------------------------------------------
  // A `<parallel>` entered by `addDescendantStatesToEnter` is compound.
  // ---------------------------------------------------------------------

  /** The ancestor-or-self of `d` at depth `depth`. */
  function AncestorAt(t: Tree, d: NodeId, depth: nat): NodeId
    decreases d
  {
    if Depth(t, d) <= depth then d
    else match Parent(t, d)
      case None => d
      case Some(p) => AncestorAt(t, p, depth)
  }

  lemma {:induction false} AncestorAtFinds(t: Tree, d: NodeId, c: NodeId)
    requires Under(t, d, c)
    ensures AncestorAt(t, d, Depth(t, c)) == c
    decreases d
  {
    if d != c {
      DescendantDeeper(t, d, c);
      AncestorAtFinds(t, Parent(t, d).value, c);
    }
  }

  /** A node lies below at most one child of a given node. */
  lemma ChildOnPathUnique(t: Tree, d: NodeId, c1: NodeId, c2: NodeId, p: NodeId)
    requires Parent(t, c1) == Some(p) && Parent(t, c2) == Some(p)
    requires Under(t, d, c1) && Under(t, d, c2)
    ensures c1 == c2
  {
    AncestorAtFinds(t, d, c1);
    AncestorAtFinds(t, d, c2);
  }

  /**
   * `isCompoundState` is true of a `<parallel>` with child states, so a
   * parallel state chosen by `addDescendantStatesToEnter` takes the compound
   * branch: besides the parallel itself, only states in the one region that
   * holds its default target are chosen, and no other region gets anything.
   */
  lemma ParallelTargetEntersOneRegion(t: Tree, hist: HistoryMap, p: NodeId, acc: EntryAcc) returns (region: NodeId)
    requires Valid(t) && HistoryOk(t, hist) && 0 < p < |t.nodes| && AccOk(t, acc)
    requires HasTag(t, p, Parallel) && IsCompound(t, p)
    ensures Parent(t, region) == Some(p) && Under(t, DefaultTarget(t, p).value, region)
    ensures var r := Desc(t, hist, p, acc);
            forall s | s in r.toEnter && s !in acc.toEnter :: s == p || Under(t, s, region)
    ensures var r := Desc(t, hist, p, acc);
            forall c, s | Parent(t, c) == Some(p) && c != region && s in r.toEnter && s !in acc.toEnter :: !Under(t, s, c)
  {
    var d := DefaultTarget(t, p).value;
    region := ChildOnPath(t, d, p);
    var acc2 := EntryAcc(acc.toEnter + {p}, acc.forDefault + {p});
    DescendantIsLater(t, d, p);
    DescKeeps(t, hist, d, acc2);
    var acc3 := Desc(t, hist, d, acc2);
    AddsUnderWidens(t, acc2, acc3, d, region);
    var ancs := ProperAncestors(t, d, Some(p));
    WalkBelow(t, d, p);
    PathInRegion(t, d, p, region);
    AncestorRanks(t, d, p);
    AncLoopKeeps(t, hist, ancs, acc3, region);
    var r := Desc(t, hist, p, acc);
    assert r == AncLoop(t, hist, ancs, acc3);
    AddsUnderChain(t, acc2, acc3, r, region);
    OtherRegionsUntouched(t, acc, r, p, region);
  }

  /** The walk from a node up to `p` stays inside the child of `p` that holds the node. */
  lemma PathInRegion(t: Tree, d: NodeId, p: NodeId, region: NodeId)
    requires IsDescendant(t, d, p) && Parent(t, region) == Some(p) && Under(t, d, region)
    ensures var ancs := ProperAncestors(t, d, Some(p));
            forall k | 0 <= k < |ancs| :: Under(t, ancs[k], region)
  {
    var ancs := ProperAncestors(t, d, Some(p));
    forall k | 0 <= k < |ancs| ensures Under(t, ancs[k], region) {
      AncestorsWithBoundary(t, d, p, ancs[k]);
      var c := ChildOnPath(t, ancs[k], p);
      if ancs[k] != c {
        DescendantTransitive(t, d, ancs[k], c);
      }
      ChildOnPathUnique(t, d, c, region, p);
    }
  }

  /** When all that is added is `p` or inside `region`, no other child of `p` gains anything. */
  lemma OtherRegionsUntouched(t: Tree, acc: EntryAcc, r: EntryAcc, p: NodeId, region: NodeId)
    requires Parent(t, region) == Some(p)
    requires forall s | s in r.toEnter && s !in acc.toEnter :: s == p || Under(t, s, region)
    ensures forall c, s | Parent(t, c) == Some(p) && c != region && s in r.toEnter && s !in acc.toEnter :: !Under(t, s, c)
  {
    forall c, s | Parent(t, c) == Some(p) && c != region && s in r.toEnter && s !in acc.toEnter
      ensures !Under(t, s, c)
    {
      if s == p {
        if IsDescendant(t, p, c) {
          DescendantIsLater(t, p, c);
        }
      } else if Under(t, s, c) {
        ChildOnPathUnique(t, s, c, region, p);
      }
    }
  }

  // ---------------------------------------------------------------------
  // `computeEntrySet`.
  // ---------------------------------------------------------------------

  /** `for (const s of getTargetStates(t)) addDescendantStatesToEnter(s)`. */
  function DescAll(t: Tree, hist: HistoryMap, xs: seq<NodeId>, acc: EntryAcc): EntryAcc
    requires Valid(t) && HistoryOk(t, hist)
    requires forall k | 0 <= k < |xs| :: 0 < xs[k] < |t.nodes|
  {
    if xs == [] then acc
    else DescAll(t, hist, xs[1..], Desc(t, hist, xs[0], acc))
  }

  /** `for (const s of getEffectiveTargetStates(t)) addAncestorStatesToEnter(s, ancestor)`. */
  function AncAll(t: Tree, hist: HistoryMap, xs: seq<NodeId>, b: NodeId, acc: EntryAcc): EntryAcc
    requires Valid(t) && HistoryOk(t, hist)
    requires forall k | 0 <= k < |xs| :: IsDescendant(t, xs[k], b)
  {
    if xs == [] then acc
    else
      AncestorRanks(t, xs[0], b);
      AncAll(t, hist, xs[1..], b, AncLoop(t, hist, ProperAncestors(t, xs[0], Some(b)), acc))
  }

  /** One round of the loop of `computeEntrySet`, for one declared transition. */
  function EntryFor(t: Tree, hist: HistoryMap, r: TransRef, acc: EntryAcc): EntryAcc
    requires Valid(t) && HistoryOk(t, hist) && RefOk(t, r) && r.Declared?
  {
    assert TransitionOk(t, t.transitions[r.index]);
    var acc1 := DescAll(t, hist, TargetsOf(t, r), acc);
    DomainContainsTargets(t, hist, r);
    AncAll(t, hist, EffectiveTargets(t, hist, r), TransitionDomain(t, hist, r), acc1)
  }

  /** The loop of `computeEntrySet` over the transitions, in order. */
  function EntrySet(t: Tree, hist: HistoryMap, ts: seq<TransRef>, acc: EntryAcc): EntryAcc
    requires Valid(t) && HistoryOk(t, hist) && AllDeclared(t, ts)
  {
    if ts == [] then acc
    else EntrySet(t, hist, ts[1..], EntryFor(t, hist, ts[0], acc))
  }

  /** A chosen target is entered, and a compound one by its default path. */
  predicate TargetEntered(t: Tree, x: NodeId, acc: EntryAcc)
    requires Valid(t)
  {
    x < |t.nodes| && !HasTag(t, x, History) ==>
      && x in acc.toEnter
      && (IsCompound(t, x) ==> x in acc.forDefault && 0 < x && DefaultPathIn(t, x, acc.toEnter))
  }

  /**
   * Every state strictly between `e` and the domain is entered, and each
   * parallel one among them has all its regions covered.
   */
  predicate PathEntered(t: Tree, e: NodeId, dom: NodeId, toEnter: set<NodeId>) {
    forall a | a in ProperAncestors(t, e, Some(dom)) ::
      a in toEnter && (HasTag(t, a, Parallel) ==> RegionsCovered(t, a, toEnter))
  }

  /** What entering along the declared transition `r` demands of the two sets. */
  predicate EntryRequired(t: Tree, hist: HistoryMap, r: TransRef, acc: EntryAcc)
    requires Valid(t) && RefOk(t, r) && r.Declared?
  {
    var targets := TargetsOf(t, r);
    var effs := EffectiveTargets(t, hist, r);
    var dom := TransitionDomain(t, hist, r);
    && (forall k | 0 <= k < |targets| :: TargetEntered(t, targets[k], acc))
    && (forall j | 0 <= j < |effs| :: PathEntered(t, effs[j], dom, acc.toEnter))
  }

  lemma EntryRequiredGrows(t: Tree, hist: HistoryMap, r: TransRef, a: EntryAcc, b: EntryAcc)
    requires Valid(t) && RefOk(t, r) && r.Declared?
    requires Grows(a, b) && EntryRequired(t, hist, r, a)
    ensures EntryRequired(t, hist, r, b)
  {
    var effs := EffectiveTargets(t, hist, r);
    var dom := TransitionDomain(t, hist, r);
    forall j | 0 <= j < |effs| ensures PathEntered(t, effs[j], dom, b.toEnter) {
      PathEnteredGrows(t, effs[j], dom, a.toEnter, b.toEnter);
    }
  }

  lemma PathEnteredGrows(t: Tree, e: NodeId, dom: NodeId, a: set<NodeId>, b: set<NodeId>)
    requires a <= b && PathEntered(t, e, dom, a)
    ensures PathEntered(t, e, dom, b)
  {
    forall x | x in ProperAncestors(t, e, Some(dom)) && HasTag(t, x, Parallel)
      ensures RegionsCovered(t, x, b)
    {
      CoveredGrows(t, x, a, b);
    }
  }

  lemma {:induction false} DescAllKeeps(t: Tree, hist: HistoryMap, xs: seq<NodeId>, dom: NodeId, acc: EntryAcc)
    requires Valid(t) && HistoryOk(t, hist) && AccOk(t, acc)
    requires forall k | 0 <= k < |xs| :: 0 < xs[k] < |t.nodes|
    requires forall k | 0 <= k < |xs| :: !HasTag(t, xs[k], History) ==> IsDescendant(t, xs[k], dom)
    ensures var r := DescAll(t, hist, xs, acc);
            && AccOk(t, r) && Grows(acc, r) && AddsBelow(t, acc, r, dom)
            && forall k | 0 <= k < |xs| :: TargetEntered(t, xs[k], r)
    ensures DefaultsEntered(t, acc, DescAll(t, hist, xs, acc))
  {
    if xs != [] {
      var x := xs[0];
      var acc1 := Desc(t, hist, x, acc);
      DescKeeps(t, hist, x, acc);
      if !HasTag(t, x, History) {
        DescEnters(t, hist, x, acc);
        forall s | s in acc1.toEnter && s !in acc.toEnter ensures IsDescendant(t, s, dom) {
          if s != x { DescendantTransitive(t, s, x, dom); }
        }
        forall s | s in acc1.forDefault && s !in acc.forDefault ensures IsDescendant(t, s, dom) {
          if s != x { DescendantTransitive(t, s, x, dom); }
        }
      } else {
        HistoryNeverRestored(t, hist, x, acc);
      }
      var rest := xs[1..];
      assert forall k | 0 <= k < |rest| :: rest[k] == xs[k + 1];
      DescAllKeeps(t, hist, rest, dom, acc1);
      var r := DescAll(t, hist, rest, acc1);
      if x < |t.nodes| && !HasTag(t, x, History) && IsCompound(t, x) {
        assert x in acc1.forDefault && DefaultPathIn(t, x, acc1.toEnter);
      }
      assert TargetEntered(t, x, r);
      DefaultsChain(t, acc, acc1, r);
    }
  }

  lemma {:induction false} AncAllKeeps(t: Tree, hist: HistoryMap, xs: seq<NodeId>, b: NodeId, acc: EntryAcc)
    requires Valid(t) && HistoryOk(t, hist) && AccOk(t, acc)
    requires forall k | 0 <= k < |xs| :: IsDescendant(t, xs[k], b)
    ensures var r := AncAll(t, hist, xs, b, acc);
            && AccOk(t, r) && Grows(acc, r) && AddsBelow(t, acc, r, b)
            && forall j | 0 <= j < |xs| :: PathEntered(t, xs[j], b, r.toEnter)
    ensures DefaultsEntered(t, acc, AncAll(t, hist, xs, b, acc))
  {
    if xs != [] {
      var ancs := ProperAncestors(t, xs[0], Some(b));
      WalkBelow(t, xs[0], b);
      AncHeadKeeps(t, hist, xs[0], b, ancs, acc);
      var acc1 := AncLoop(t, hist, ancs, acc);
      var rest := xs[1..];
      assert forall k | 0 <= k < |rest| :: rest[k] == xs[k + 1];
      AncAllKeeps(t, hist, rest, b, acc1);
      var r := AncAll(t, hist, rest, b, acc1);
      PathEnteredGrows(t, xs[0], b, acc1.toEnter, r.toEnter);
      DefaultsChain(t, acc, acc1, r);
    }
  }

  /** Entering the proper ancestors of one target below `b`: one step of `AncAll`. */
  lemma AncHeadKeeps(t: Tree, hist: HistoryMap, x: NodeId, b: NodeId, ancs: seq<NodeId>, acc: EntryAcc)
    requires Valid(t) && HistoryOk(t, hist) && AccOk(t, acc) && IsDescendant(t, x, b)
    requires ancs == ProperAncestors(t, x, Some(b)) && forall k | 0 <= k < |ancs| :: ancs[k] < |t.nodes|
    ensures var r := AncLoop(t, hist, ancs, acc);
            && AccOk(t, r) && Grows(acc, r) && AddsBelow(t, acc, r, b)
            && PathEntered(t, x, b, r.toEnter) && DefaultsEntered(t, acc, r)
  {
    WalkBelow(t, x, b);
    AncLoopKeeps(t, hist, ancs, acc, b);
    AncLoopEnters(t, hist, ancs, acc, b);
    AncLoopDefaults(t, hist, ancs, acc, b);
    var acc1 := AncLoop(t, hist, ancs, acc);
    forall a | a in ancs
      ensures a in acc1.toEnter && (HasTag(t, a, Parallel) ==> RegionsCovered(t, a, acc1.toEnter))
    {
      var k :| 0 <= k < |ancs| && ancs[k] == a;
    }
  }

  /** A target that is not a `<history>` element is one of the effective targets. */
  lemma PlainTargetEffective(t: Tree, hist: HistoryMap, r: TransRef, k: nat)
    requires Valid(t) && RefOk(t, r) && k < |TargetsOf(t, r)|
    requires !HasTag(t, TargetsOf(t, r)[k], History)
    ensures TargetsOf(t, r)[k] in EffectiveTargets(t, hist, r)
  {
    assert Contributes(t, hist, TargetsOf(t, r)[k], TargetsOf(t, r)[k]);
  }

  /**
   * One round of `computeEntrySet` keeps the invariant, adds only states
   * strictly below the transition domain, and adds everything that entering
   * along the transition demands.
   */
  lemma EntryForFacts(t: Tree, hist: HistoryMap, r: TransRef, acc: EntryAcc)
    requires Valid(t) && HistoryOk(t, hist) && RefOk(t, r) && r.Declared? && AccOk(t, acc)
    ensures var res := EntryFor(t, hist, r, acc);
            && AccOk(t, res) && Grows(acc, res)
            && AddsBelow(t, acc, res, TransitionDomain(t, hist, r))
            && EntryRequired(t, hist, r, res)
            && DefaultsEntered(t, acc, res)
  {
    assert TransitionOk(t, t.transitions[r.index]);
    var targets := TargetsOf(t, r);
    var effs := EffectiveTargets(t, hist, r);
    var dom := TransitionDomain(t, hist, r);
    DomainContainsTargets(t, hist, r);
    forall k | 0 <= k < |targets| && !HasTag(t, targets[k], History)
      ensures IsDescendant(t, targets[k], dom)
    {
      PlainTargetEffective(t, hist, r, k);
    }
    DescAllKeeps(t, hist, targets, dom, acc);
    var acc1 := DescAll(t, hist, targets, acc);
    AncAllKeeps(t, hist, effs, dom, acc1);
    var res := AncAll(t, hist, effs, dom, acc1);
    forall k | 0 <= k < |targets| ensures TargetEntered(t, targets[k], res) {
      var x := targets[k];
      if x < |t.nodes| && !HasTag(t, x, History) && IsCompound(t, x) {
        assert DefaultPathIn(t, x, acc1.toEnter);
      }
    }
    DefaultsChain(t, acc, acc1, res);
  }

  /** A new state lies strictly below the domain of one of the transitions. */
  predicate BelowSomeDomain(t: Tree, hist: HistoryMap, ts: seq<TransRef>, s: NodeId)
    requires Valid(t) && AllDeclared(t, ts)
  {
    exists k | 0 <= k < |ts| :: IsDescendant(t, s, TransitionDomain(t, hist, ts[k]))
  }

  /**
   * States added by the first transition lie below its domain, and states
   * added after it below a later transition's domain: so every added state
   * lies below the domain of one of the transitions.
   */
  lemma BelowDomainsJoin(t: Tree, hist: HistoryMap, ts: seq<TransRef>, a: set<NodeId>, a1: set<NodeId>, r: set<NodeId>)
    requires Valid(t) && AllDeclared(t, ts) && ts != []
    requires forall s | s in a1 && s !in a :: IsDescendant(t, s, TransitionDomain(t, hist, ts[0]))
    requires forall s | s in r && s !in a1 :: BelowSomeDomain(t, hist, ts[1..], s)
    ensures forall s | s in r && s !in a :: BelowSomeDomain(t, hist, ts, s)
  {
    var rest := ts[1..];
    forall s | s in r && s !in a ensures BelowSomeDomain(t, hist, ts, s) {
      if s in a1 {
        assert IsDescendant(t, s, TransitionDomain(t, hist, ts[0]));
      } else {
        var k :| 0 <= k < |rest| && IsDescendant(t, s, TransitionDomain(t, hist, rest[k]));
        assert IsDescendant(t, s, TransitionDomain(t, hist, ts[k + 1]));
      }
    }
  }

  lemma {:induction false} EntrySetFacts(t: Tree, hist: HistoryMap, ts: seq<TransRef>, acc: EntryAcc)
    requires Valid(t) && HistoryOk(t, hist) && AllDeclared(t, ts) && AccOk(t, acc)
    ensures var r := EntrySet(t, hist, ts, acc);
            && AccOk(t, r) && Grows(acc, r)
            && (forall s | s in r.toEnter && s !in acc.toEnter :: BelowSomeDomain(t, hist, ts, s))
            && (forall s | s in r.forDefault && s !in acc.forDefault :: BelowSomeDomain(t, hist, ts, s))
            && (forall k | 0 <= k < |ts| :: EntryRequired(t, hist, ts[k], r))
            && DefaultsEntered(t, acc, r)
  {
    if ts != [] {
      var acc1 := EntryFor(t, hist, ts[0], acc);
      EntryForFacts(t, hist, ts[0], acc);
      var rest := ts[1..];
      assert forall k | 0 <= k < |rest| :: rest[k] == ts[k + 1];
      EntrySetFacts(t, hist, rest, acc1);
      var r := EntrySet(t, hist, rest, acc1);
      EntryRequiredGrows(t, hist, ts[0], acc1, r);
      BelowDomainsJoin(t, hist, ts, acc.toEnter, acc1.toEnter, r.toEnter);
      BelowDomainsJoin(t, hist, ts, acc.forDefault, acc1.forDefault, r.forDefault);
      forall k | 1 <= k < |ts| ensures EntryRequired(t, hist, ts[k], r) {
        assert ts[k] == rest[k - 1];
      }
      DefaultsChain(t, acc, acc1, r);
    }
  }

  /**
   * `computeEntrySet` for a set of declared transitions: the states chosen are
   * real, non-history states, each strictly below the domain of one of the
   * transitions; those marked for default entry are chosen compound states;
   * and every transition's targets, default paths, and the states between its
   * effective targets and its domain, with the regions of parallel ones, are
   * chosen; and every state marked for default entry, at whatever depth, has
   * its own default path chosen.
   */
  function ComputeEntrySet(t: Tree, hist: HistoryMap, ts: seq<TransRef>): (e: EntryAcc)
    requires Valid(t) && HistoryOk(t, hist) && AllDeclared(t, ts)
    ensures AccOk(t, e)
    ensures forall s | s in e.toEnter :: BelowSomeDomain(t, hist, ts, s)
    ensures forall k | 0 <= k < |ts| :: EntryRequired(t, hist, ts[k], e)
    ensures forall s | s in e.forDefault :: DefaultPathIn(t, s, e.toEnter)
  {
    EntrySetFacts(t, hist, ts, EntryAcc({}, {}));
    EntrySet(t, hist, ts, EntryAcc({}, {}))
  }
}

=== FILE: exitset.dfy ===
/**
 * Which active states a set of transitions exits (`computeExitSet`), and how
 * the enabled transitions are filtered for conflicts
 * (`removeConflictingTransitions`), together with the first-accepted-wins rule
 * of the SCXML design as a separately named variant.
 */
module ExitSet {
  import opened Wrappers
  import opened StateTree
  import opened TreeFacts
  import opened Targets

  /** The part of the exit set that one transition contributes. */
  function ExitOf(t: Tree, hist: HistoryMap, config: set<NodeId>, r: TransRef): set<NodeId>
    requires Valid(t) && r.Declared? && RefOk(t, r)
  {
    if TargetsOf(t, r) == [] then {}
    else
      var d := TransitionDomain(t, hist, r);
      set s | s in config && IsDescendant(t, s, d)
  }

  /**
   * `computeExitSet(transitions)`: every active state strictly below the
   * domain of some transition that has targets.
   */
  function ComputeExitSet(t: Tree, hist: HistoryMap, config: set<NodeId>, ts: seq<TransRef>): (exit: set<NodeId>)
    requires Valid(t) && AllDeclared(t, ts)
    ensures exit <= config
    ensures forall x :: x in exit <==>
              x in config && exists k | 0 <= k < |ts| ::
                TargetsOf(t, ts[k]) != [] && IsDescendant(t, x, TransitionDomain(t, hist, ts[k]))
  {
    if ts == [] then {}
    else
      var rest := ComputeExitSet(t, hist, config, ts[1..]);
      ExitSetStep(t, hist, config, ts, rest);
      ExitOf(t, hist, config, ts[0]) + rest
  }

  /** The exit set of `ts` is that of its head joined to that of its tail. */
  lemma ExitSetStep(t: Tree, hist: HistoryMap, config: set<NodeId>, ts: seq<TransRef>, rest: set<NodeId>)
    requires Valid(t) && AllDeclared(t, ts) && ts != []
    requires forall x :: x in rest <==>
               x in config && exists k | 0 <= k < |ts[1..]| ::
                 TargetsOf(t, ts[1..][k]) != [] && IsDescendant(t, x, TransitionDomain(t, hist, ts[1..][k]))
    ensures forall x | x in config ::
              (exists k | 0 <= k < |ts| ::
                 TargetsOf(t, ts[k]) != [] && IsDescendant(t, x, TransitionDomain(t, hist, ts[k])))
              <==> x in ExitOf(t, hist, config, ts[0]) || x in rest
  {
    forall x | x in config
      ensures (exists k | 0 <= k < |ts| ::
                 TargetsOf(t, ts[k]) != [] && IsDescendant(t, x, TransitionDomain(t, hist, ts[k])))
              <==> x in ExitOf(t, hist, config, ts[0]) || x in rest
    {
      if exists k | 0 <= k < |ts| ::
           TargetsOf(t, ts[k]) != [] && IsDescendant(t, x, TransitionDomain(t, hist, ts[k])) {
        var k :| 0 <= k < |ts| &&
                 TargetsOf(t, ts[k]) != [] && IsDescendant(t, x, TransitionDomain(t, hist, ts[k]));
        if k > 0 {
          assert ts[1..][k - 1] == ts[k];
        }
      }
      if x in rest {
        var k :| 0 <= k < |ts[1..]| &&
                 TargetsOf(t, ts[1..][k]) != [] && IsDescendant(t, x, TransitionDomain(t, hist, ts[1..][k]));
        assert ts[k + 1] == ts[1..][k];
      }
    }
  }

  /** Exit sets distribute over concatenation of transition lists. */
  lemma ExitSetUnion(t: Tree, hist: HistoryMap, config: set<NodeId>, a: seq<TransRef>, b: seq<TransRef>)
    requires Valid(t) && AllDeclared(t, a) && AllDeclared(t, b)
    ensures AllDeclared(t, a + b)
    ensures ComputeExitSet(t, hist, config, a + b)
            == ComputeExitSet(t, hist, config, a) + ComputeExitSet(t, hist, config, b)
  {
    var ab := a + b;
    forall x | x in ComputeExitSet(t, hist, config, ab)
      ensures x in ComputeExitSet(t, hist, config, a) || x in ComputeExitSet(t, hist, config, b)
    {
      var k :| 0 <= k < |ab| &&
               TargetsOf(t, ab[k]) != [] && IsDescendant(t, x, TransitionDomain(t, hist, ab[k]));
      if k < |a| {
        assert ab[k] == a[k];
      } else {
        assert ab[k] == b[k - |a|];
      }
    }
    ExitSetUnionLeft(t, hist, config, a, b);
    ExitSetUnionRight(t, hist, config, a, b);
  }

  lemma ExitSetUnionLeft(t: Tree, hist: HistoryMap, config: set<NodeId>, a: seq<TransRef>, b: seq<TransRef>)
    requires Valid(t) && AllDeclared(t, a) && AllDeclared(t, b)
    ensures AllDeclared(t, a + b)
    ensures ComputeExitSet(t, hist, config, a) <= ComputeExitSet(t, hist, config, a + b)
  {
    var ab := a + b;
    forall x | x in ComputeExitSet(t, hist, config, a) ensures x in ComputeExitSet(t, hist, config, ab) {
      var k :| 0 <= k < |a| &&
               TargetsOf(t, a[k]) != [] && IsDescendant(t, x, TransitionDomain(t, hist, a[k]));
      assert ab[k] == a[k];
    }
  }

  lemma ExitSetUnionRight(t: Tree, hist: HistoryMap, config: set<NodeId>, a: seq<TransRef>, b: seq<TransRef>)
    requires Valid(t) && AllDeclared(t, a) && AllDeclared(t, b)
    ensures AllDeclared(t, a + b)
    ensures ComputeExitSet(t, hist, config, b) <= ComputeExitSet(t, hist, config, a + b)
  {
    var ab := a + b;
    forall x | x in ComputeExitSet(t, hist, config, b) ensures x in ComputeExitSet(t, hist, config, ab) {
      var k :| 0 <= k < |b| &&
               TargetsOf(t, b[k]) != [] && IsDescendant(t, x, TransitionDomain(t, hist, b[k]));
      assert ab[k + |a|] == b[k];
    }
  }

  /** A transition without targets exits nothing. */
  lemma TargetlessExitsNothing(t: Tree, hist: HistoryMap, config: set<NodeId>, ts: seq<TransRef>, r: TransRef)
    requires Valid(t) && AllDeclared(t, ts) && r.Declared? && RefOk(t, r)
    requires TargetsOf(t, r) == []
    ensures AllDeclared(t, ts + [r])
    ensures ComputeExitSet(t, hist, config, ts + [r]) == ComputeExitSet(t, hist, config, ts)
  {
    ExitSetUnion(t, hist, config, ts, [r]);
    assert ComputeExitSet(t, hist, config, [r]) == {};
  }

  /**
   * The exit set is closed downwards inside the configuration: an active
   * descendant of an exiting state exits too.
   */
  lemma ExitSetDownwardClosed(t: Tree, hist: HistoryMap, config: set<NodeId>, ts: seq<TransRef>, x: NodeId, y: NodeId)
    requires Valid(t) && AllDeclared(t, ts)
    requires x in ComputeExitSet(t, hist, config, ts)
    requires y in config && IsDescendant(t, y, x)
    ensures y in ComputeExitSet(t, hist, config, ts)
  {
    var k :| 0 <= k < |ts| &&
             TargetsOf(t, ts[k]) != [] && IsDescendant(t, x, TransitionDomain(t, hist, ts[k]));
    DescendantTransitive(t, y, x, TransitionDomain(t, hist, ts[k]));
  }

  /** `intersectSets(s1, s2)`. */
  predicate Intersects(a: set<NodeId>, b: set<NodeId>) {
    exists x | x in a :: x in b
  }

  /** Two transitions conflict when their single-transition exit sets meet. */
  predicate Conflict(t: Tree, hist: HistoryMap, config: set<NodeId>, r1: TransRef, r2: TransRef)
    requires Valid(t) && r1.Declared? && RefOk(t, r1) && r2.Declared? && RefOk(t, r2)
  {
    Intersects(ExitOf(t, hist, config, r1), ExitOf(t, hist, config, r2))
  }

  /**
   * A candidate of the conflict filter: a transition together with the exit set
   * `computeExitSet(new Set([t]))` that the filter compares.
   */
  datatype Candidate = Candidate(tr: TransRef, exit: set<NodeId>)

  predicate Clash(a: Candidate, b: Candidate) {
    Intersects(a.exit, b.exit)
  }

  function Candidates(t: Tree, hist: HistoryMap, config: set<NodeId>, ts: seq<TransRef>): (cs: seq<Candidate>)
    requires Valid(t) && AllDeclared(t, ts)
    ensures |cs| == |ts|
    ensures forall k | 0 <= k < |ts| :: cs[k].tr == ts[k]
    ensures forall k | 0 <= k < |ts| :: cs[k].exit == ExitOf(t, hist, config, ts[k])
  {
    if ts == [] then []
    else [Candidate(ts[0], ExitOf(t, hist, config, ts[0]))] + Candidates(t, hist, config, ts[1..])
  }

  /** Every candidate built from `ts` carries a transition of `ts` and that transition's own exit set. */
  lemma CandidateSound(t: Tree, hist: HistoryMap, config: set<NodeId>, ts: seq<TransRef>, c: Candidate)
    requires Valid(t) && AllDeclared(t, ts)
    requires c in Candidates(t, hist, config, ts)
    ensures c.tr in ts && c.tr.Declared? && RefOk(t, c.tr)
    ensures c.exit == ExitOf(t, hist, config, c.tr)
  {
    var cs := Candidates(t, hist, config, ts);
    var k :| 0 <= k < |cs| && cs[k] == c;
  }

  function Transitions(cs: seq<Candidate>): (ts: seq<TransRef>)
    ensures |ts| == |cs|
    ensures forall k | 0 <= k < |cs| :: ts[k] == cs[k].tr
  {
    if cs == [] then [] else [cs[0].tr] + Transitions(cs[1..])
  }

  function Without(xs: seq<Candidate>, drop: set<Candidate>): (r: seq<Candidate>)
    ensures forall x :: x in r <==> x in xs && x !in drop
    ensures (forall k | 0 <= k < |xs| :: xs[k] in drop) ==> r == []
  {
    if xs == [] then []
    else (if xs[0] in drop then [] else [xs[0]]) + Without(xs[1..], drop)
  }

  /**
   * The inner loop of `removeConflictingTransitions` for candidate `t1`: every
   * kept transition that conflicts with `t1` is marked for removal, and the
   * first one that does NOT conflict preempts `t1`.
   */
  function ScanKept(t1: Candidate, kept: seq<Candidate>, toRemove: set<Candidate>): (bool, set<Candidate>)
    decreases |kept|
  {
    if kept == [] then (false, toRemove)
    else if Clash(t1, kept[0]) then ScanKept(t1, kept[1..], toRemove + {kept[0]})
    else (true, toRemove)
  }

  /** The outer loop of `removeConflictingTransitions`. */
  function FilterFrom(cs: seq<Candidate>, kept: seq<Candidate>): seq<Candidate>
    decreases |cs|
  {
    if cs == [] then kept
    else
      var t1 := cs[0];
      var (preempted, toRemove) := ScanKept(t1, kept, {});
      var left := Without(kept, toRemove);
      var kept' := if preempted then kept else if t1 in left then left else left + [t1];
      FilterFrom(cs[1..], kept')
  }

  lemma {:induction false} FilterKeepsOne(cs: seq<Candidate>, kept: seq<Candidate>)
    requires |kept| <= 1
    ensures var r := FilterFrom(cs, kept);
            && |r| <= 1
            && (cs != [] || kept != [] ==> |r| == 1)
            && forall x | x in r :: x in cs || x in kept
    decreases |cs|
  {
    if cs != [] {
      var t1 := cs[0];
      var (preempted, toRemove) := ScanKept(t1, kept, {});
      var left := Without(kept, toRemove);
      var kept' := if preempted then kept else if t1 in left then left else left + [t1];
      if kept != [] && Clash(t1, kept[0]) {
        assert kept[1..] == [];
        assert kept == [kept[0]];
        assert ScanKept(t1, kept, {}) == ScanKept(t1, [], {} + {kept[0]});
        assert toRemove == {kept[0]};
        assert left == [];
      }
      assert |kept'| == 1;
      FilterKeepsOne(cs[1..], kept');
      assert forall x | x in cs[1..] :: x in cs;
    }
  }

  /**
   * `removeConflictingTransitions(enabled)` as written: it keeps a subset of its
   * input, never more than one transition, and one whenever the input is
   * non-empty.
   */
  function RemoveConflictingTransitions(t: Tree, hist: HistoryMap, config: set<NodeId>, ts: seq<TransRef>): (r: seq<TransRef>)
    requires Valid(t) && AllDeclared(t, ts)
    ensures forall x | x in r :: x in ts
    ensures |r| <= 1
    ensures ts != [] ==> |r| == 1
  {
    var cs := Candidates(t, hist, config, ts);
    FilterKeepsOne(cs, []);
    var kept := FilterFrom(cs, []);
    forall x | x in Transitions(kept) ensures x in ts {
      var j :| 0 <= j < |kept| && kept[j].tr == x;
      CandidateSound(t, hist, config, ts, kept[j]);
    }
    Transitions(kept)
  }

  /**
   * Reference reading of the filter as written: walking the candidates in
   * order, a candidate replaces the kept transition exactly when their exit
   * sets meet.
   */
  function LastClashing(kept: Candidate, rest: seq<Candidate>): Candidate
    decreases |rest|
  {
    if rest == [] then kept
    else LastClashing(if Clash(rest[0], kept) then rest[0] else kept, rest[1..])
  }

  lemma {:induction false} FilterTracksKept(rest: seq<Candidate>, kept: Candidate)
    ensures FilterFrom(rest, [kept]) == [LastClashing(kept, rest)]
    decreases |rest|
  {
    if rest != [] {
      var t1 := rest[0];
      var next := if Clash(t1, kept) then t1 else kept;
      var (preempted, toRemove) := ScanKept(t1, [kept], {});
      if Clash(t1, kept) {
        assert [kept][1..] == [];
        assert ScanKept(t1, [kept], {}) == ScanKept(t1, [], {} + {kept});
        assert toRemove == {kept};
        assert Without([kept], toRemove) == [];
        assert [] + [t1] == [t1];
      } else {
        assert Clash(t1, kept) == Clash(kept, t1);
      }
      assert FilterFrom(rest, [kept]) == FilterFrom(rest[1..], [next]);
      FilterTracksKept(rest[1..], next);
    }
  }

  /**
   * The filter as written keeps exactly one transition: the last candidate
   * reached through a chain of candidates each conflicting with the one kept
   * before it.
   */
  lemma {:induction false} ConflictFilterIsLastClashing(t: Tree, hist: HistoryMap, config: set<NodeId>, ts: seq<TransRef>)
    requires Valid(t) && AllDeclared(t, ts) && ts != []
    ensures var cs := Candidates(t, hist, config, ts);
            RemoveConflictingTransitions(t, hist, config, ts) == [LastClashing(cs[0], cs[1..]).tr]
  {
    var cs := Candidates(t, hist, config, ts);
    assert Without([], {}) == [];
    assert [] + [cs[0]] == [cs[0]];
    assert FilterFrom(cs, []) == FilterFrom(cs[1..], [cs[0]]);
    FilterTracksKept(cs[1..], cs[0]);
  }

  lemma {:induction false} StaysWithEmptyExit(kept: Candidate, rest: seq<Candidate>)
    requires kept.exit == {}
    ensures LastClashing(kept, rest) == kept
    decreases |rest|
  {
    if rest != [] {
      assert !Clash(rest[0], kept);
      StaysWithEmptyExit(kept, rest[1..]);
    }
  }

  /**
   * As written, a first candidate that exits nothing (for instance one without
   * targets) blocks every later candidate.
   */
  lemma EmptyExitFirstBlocks(t: Tree, hist: HistoryMap, config: set<NodeId>, ts: seq<TransRef>)
    requires Valid(t) && AllDeclared(t, ts) && ts != []
    requires ExitOf(t, hist, config, ts[0]) == {}
    ensures RemoveConflictingTransitions(t, hist, config, ts) == [ts[0]]
  {
    var cs := Candidates(t, hist, config, ts);
    ConflictFilterIsLastClashing(t, hist, config, ts);
    StaysWithEmptyExit(cs[0], cs[1..]);
  }

  /**
   * As written, of two candidates whose exit sets are disjoint only the earlier
   * one survives.
   */
  lemma DisjointPairKeepsFirst(t: Tree, hist: HistoryMap, config: set<NodeId>, a: TransRef, b: TransRef)
    requires Valid(t) && a.Declared? && RefOk(t, a) && b.Declared? && RefOk(t, b)
    requires !Conflict(t, hist, config, a, b)
    ensures AllDeclared(t, [a, b])
    ensures RemoveConflictingTransitions(t, hist, config, [a, b]) == [a]
  {
    var cs := Candidates(t, hist, config, [a, b]);
    ConflictFilterIsLastClashing(t, hist, config, [a, b]);
    assert cs[1..] == [cs[1]];
    assert !Clash(cs[1], cs[0]);
    assert LastClashing(cs[0], [cs[1]]) == LastClashing(cs[0], []);
  }

  /**
   * First-accepted-wins conflict resolution (the SCXML design's rule): a
   * candidate is accepted when its exit set meets no exit set accepted so far.
   */
  function AcceptFrom(cs: seq<Candidate>, accepted: seq<Candidate>): seq<Candidate>
    decreases |cs|
  {
    if cs == [] then accepted
    else if exists k | 0 <= k < |accepted| :: Clash(cs[0], accepted[k]) then AcceptFrom(cs[1..], accepted)
    else AcceptFrom(cs[1..], accepted + [cs[0]])
  }

  predicate Compatible(cs: seq<Candidate>) {
    forall j, k | 0 <= j < k < |cs| :: !Clash(cs[j], cs[k])
  }

  lemma {:induction false} AcceptFromFacts(cs: seq<Candidate>, accepted: seq<Candidate>)
    requires Compatible(accepted)
    ensures var r := AcceptFrom(cs, accepted);
            && (forall x | x in r :: x in cs || x in accepted)
            && Compatible(r)
            && (forall x | x in cs :: x in r || exists k | 0 <= k < |r| :: Clash(x, r[k]))
            && (forall x | x in accepted :: x in r)
    decreases |cs|
  {
    if cs != [] {
      var t1 := cs[0];
      assert forall x | x in cs :: x == t1 || x in cs[1..];
      if exists k | 0 <= k < |accepted| :: Clash(t1, accepted[k]) {
        var k :| 0 <= k < |accepted| && Clash(t1, accepted[k]);
        AcceptFromFacts(cs[1..], accepted);
        var r := AcceptFrom(cs, accepted);
        assert accepted[k] in r;
        var k' :| 0 <= k' < |r| && r[k'] == accepted[k];
        assert Clash(t1, r[k']);
      } else {
        var acc' := accepted + [t1];
        assert Compatible(acc') by {
          forall j, k | 0 <= j < k < |acc'| ensures !Clash(acc'[j], acc'[k]) {
            assert acc'[j] == accepted[j];
            if k == |accepted| {
              assert Clash(acc'[j], t1) == Clash(t1, accepted[j]);
            } else {
              assert acc'[k] == accepted[k];
            }
          }
        }
        AcceptFromFacts(cs[1..], acc');
        assert t1 in acc';
      }
    }
  }

  lemma AcceptKeepsFirst(cs: seq<Candidate>)
    requires cs != []
    ensures cs[0] in AcceptFrom(cs, [])
  {
    AcceptFromFacts(cs[1..], [cs[0]]);
    assert [] + [cs[0]] == [cs[0]];
    assert AcceptFrom(cs, []) == AcceptFrom(cs[1..], [cs[0]]);
  }

  /**
   * The canonical filter keeps transitions of its input whose exit sets are
   * pairwise disjoint; every candidate it drops conflicts with one it keeps,
   * and the first candidate is always kept.
   */
  function RemoveConflictingCanonical(t: Tree, hist: HistoryMap, config: set<NodeId>, ts: seq<TransRef>): (r: seq<TransRef>)
    requires Valid(t) && AllDeclared(t, ts)
    ensures AllDeclared(t, r)
    ensures forall x | x in r :: x in ts
    ensures forall j, k | 0 <= j < k < |r| :: !Conflict(t, hist, config, r[j], r[k])
    ensures forall x | x in ts :: x in r || exists k | 0 <= k < |r| :: Conflict(t, hist, config, x, r[k])
    ensures ts != [] ==> ts[0] in r
  {
    CanonicalFacts(t, hist, config, ts);
    CanonicalFirstKept(t, hist, config, ts);
    Transitions(AcceptFrom(Candidates(t, hist, config, ts), []))
  }

  /** Every entry of `acc` is a candidate built from `ts`. */
  predicate SoundList(t: Tree, hist: HistoryMap, config: set<NodeId>, ts: seq<TransRef>, acc: seq<Candidate>)
    requires Valid(t)
  {
    forall k | 0 <= k < |acc| ::
      && acc[k].tr in ts && acc[k].tr.Declared? && RefOk(t, acc[k].tr)
      && acc[k].exit == ExitOf(t, hist, config, acc[k].tr)
  }

  lemma SoundSubset(t: Tree, hist: HistoryMap, config: set<NodeId>, ts: seq<TransRef>, acc: seq<Candidate>)
    requires Valid(t) && AllDeclared(t, ts)
    requires forall x | x in acc :: x in Candidates(t, hist, config, ts)
    ensures SoundList(t, hist, config, ts, acc)
  {
    forall k | 0 <= k < |acc|
      ensures acc[k].tr in ts && acc[k].tr.Declared? && RefOk(t, acc[k].tr)
      ensures acc[k].exit == ExitOf(t, hist, config, acc[k].tr)
    {
      CandidateSound(t, hist, config, ts, acc[k]);
    }
  }

  lemma SoundCompatible(t: Tree, hist: HistoryMap, config: set<NodeId>, ts: seq<TransRef>, acc: seq<Candidate>)
    requires Valid(t) && SoundList(t, hist, config, ts, acc) && Compatible(acc)
    ensures AllDeclared(t, Transitions(acc))
    ensures var r := Transitions(acc);
            forall j, k | 0 <= j < k < |r| :: !Conflict(t, hist, config, r[j], r[k])
  {
    var r := Transitions(acc);
    forall j, k | 0 <= j < k < |r| ensures !Conflict(t, hist, config, r[j], r[k]) {
      assert !Clash(acc[j], acc[k]);
    }
  }

  lemma SoundMaximal(t: Tree, hist: HistoryMap, config: set<NodeId>, ts: seq<TransRef>, acc: seq<Candidate>)
    requires Valid(t) && AllDeclared(t, ts) && SoundList(t, hist, config, ts, acc)
    requires var cs := Candidates(t, hist, config, ts);
             forall x | x in cs :: x in acc || exists k | 0 <= k < |acc| :: Clash(x, acc[k])
    ensures AllDeclared(t, Transitions(acc))
    ensures var r := Transitions(acc);
            forall x | x in ts :: x in r || exists k | 0 <= k < |r| :: Conflict(t, hist, config, x, r[k])
  {
    var cs := Candidates(t, hist, config, ts);
    var r := Transitions(acc);
    forall x | x in ts ensures x in r || exists k | 0 <= k < |r| :: Conflict(t, hist, config, x, r[k]) {
      var i :| 0 <= i < |ts| && ts[i] == x;
      assert cs[i] in cs;
      if cs[i] in acc {
        var k :| 0 <= k < |acc| && acc[k] == cs[i];
        assert r[k] == x;
      } else {
        var k :| 0 <= k < |acc| && Clash(cs[i], acc[k]);
        assert Conflict(t, hist, config, x, r[k]);
      }
    }
  }

  lemma CanonicalFirstKept(t: Tree, hist: HistoryMap, config: set<NodeId>, ts: seq<TransRef>)
    requires Valid(t) && AllDeclared(t, ts)
    ensures ts != [] ==> ts[0] in Transitions(AcceptFrom(Candidates(t, hist, config, ts), []))
  {
    if ts != [] {
      var cs := Candidates(t, hist, config, ts);
      var acc := AcceptFrom(cs, []);
      AcceptKeepsFirst(cs);
      var k :| 0 <= k < |acc| && acc[k] == cs[0];
      assert Transitions(acc)[k] == cs[0].tr;
    }
  }

  lemma CanonicalFacts(t: Tree, hist: HistoryMap, config: set<NodeId>, ts: seq<TransRef>)
    requires Valid(t) && AllDeclared(t, ts)
    ensures var r := Transitions(AcceptFrom(Candidates(t, hist, config, ts), []));
            && AllDeclared(t, r)
            && (forall x | x in r :: x in ts)
            && (forall j, k | 0 <= j < k < |r| :: !Conflict(t, hist, config, r[j], r[k]))
            && (forall x | x in ts :: x in r || exists k | 0 <= k < |r| :: Conflict(t, hist, config, x, r[k]))
  {
    var cs := Candidates(t, hist, config, ts);
    var acc := AcceptFrom(cs, []);
    AcceptFromFacts(cs, []);
    SoundSubset(t, hist, config, ts, acc);
    SoundCompatible(t, hist, config, ts, acc);
    SoundMaximal(t, hist, config, ts, acc);
    var r := Transitions(acc);
    assert forall x | x in r :: x in ts by {
      forall x | x in r ensures x in ts {
        var k :| 0 <= k < |r| && r[k] == x;
      }
    }
  }

  lemma AcceptPair(c0: Candidate, c1: Candidate)
    requires !Clash(c1, c0)
    ensures AcceptFrom([c0, c1], []) == [c0, c1]
  {
    assert [] + [c0] == [c0];
    assert [c0, c1][1..] == [c1];
    assert AcceptFrom([c0, c1], []) == AcceptFrom([c1], [c0]);
    assert [c0] + [c1] == [c0, c1];
    assert AcceptFrom([c1], [c0]) == AcceptFrom([], [c0, c1]);
  }

  /** Under the canonical rule, two candidates with disjoint exit sets both survive. */
  lemma CanonicalKeepsDisjointPair(t: Tree, hist: HistoryMap, config: set<NodeId>, a: TransRef, b: TransRef)
    requires Valid(t) && a.Declared? && RefOk(t, a) && b.Declared? && RefOk(t, b)
    requires !Conflict(t, hist, config, a, b)
    ensures AllDeclared(t, [a, b])
    ensures RemoveConflictingCanonical(t, hist, config, [a, b]) == [a, b]
  {
    var cs := Candidates(t, hist, config, [a, b]);
    assert cs == [cs[0], cs[1]];
    assert !Clash(cs[1], cs[0]);
    AcceptPair(cs[0], cs[1]);
    assert Transitions([cs[0], cs[1]]) == [a, b];
  }
}

=== FILE: selection.dfy ===
/**
 * Transition selection, `selectTransitions(e)`: for every active atomic state
 * the first of its transitions that the host's `matchEvent` accepts, then the
 * conflict filter. The host is a pure function from a declared transition and
 * an event (or `null`) to a payload (truthy) or nothing.
 */
module Selection {
  import opened Wrappers
  import opened StateTree
  import opened TreeFacts
  import opened Targets
  import opened ExitSet

  /** The payload object `matchEvent` hands back; any object is truthy. */
  type Payload = map<string, string>

  /** The host callback `matchEvent(transition, event)`. */
  type Matcher<-E> = (TransId, Option<E>) -> Option<Payload>

  /** A selected transition with the payload of its match. */
  datatype Match = Match(trans: TransId, payload: Payload)

  /** The first transition of `ts` that the host accepts. */
  function MatchIn<E>(m: Matcher<E>, ev: Option<E>, ts: seq<TransId>): (r: Option<Match>)
    ensures r.None? <==> forall k | 0 <= k < |ts| :: m(ts[k], ev).None?
    ensures r.Some? ==> exists i | 0 <= i < |ts| ::
              && ts[i] == r.value.trans
              && m(ts[i], ev) == Some(r.value.payload)
              && forall j | 0 <= j < i :: m(ts[j], ev).None?
  {
    if ts == [] then None
    else match m(ts[0], ev)
      case Some(p) => Some(Match(ts[0], p))
      case None =>
        var r := MatchIn(m, ev, ts[1..]);
        assert forall k | 1 <= k < |ts| :: ts[k] == ts[1..][k - 1];
        if r.Some? then
          var i :| 0 <= i < |ts[1..]| && ts[1..][i] == r.value.trans
                   && m(ts[1..][i], ev) == Some(r.value.payload)
                   && forall j | 0 <= j < i :: m(ts[1..][j], ev).None?;
          assert ts[i + 1] == r.value.trans;
          r
        else r
  }

  /**
   * The first transition child of `s`, in document order, that the host
   * accepts for `ev`.
   */
  function FirstMatch<E>(t: Tree, m: Matcher<E>, ev: Option<E>, s: NodeId): (r: Option<Match>)
    ensures r.Some? ==> r.value.trans < |t.transitions| && t.transitions[r.value.trans].source == s
    ensures r.Some? ==> m(r.value.trans, ev) == Some(r.value.payload)
  {
    var ts := TransitionsOf(t, s);
    var r := MatchIn(m, ev, ts);
    assert r.Some? ==> r.value.trans in ts;
    r
  }

  /**
   * `FirstMatch` finds an accepted transition exactly when `s` has one, and no
   * earlier transition child of `s` is accepted.
   */
  lemma FirstMatchIsFirst<E>(t: Tree, m: Matcher<E>, ev: Option<E>, s: NodeId)
    ensures var r := FirstMatch(t, m, ev, s);
            && (r.None? <==> forall k | 0 <= k < |t.transitions| && t.transitions[k].source == s :: m(k, ev).None?)
            && (r.Some? ==> forall k | 0 <= k < r.value.trans && t.transitions[k].source == s :: m(k, ev).None?)
  {
    NoMatchMeansNoneAccepted(t, m, ev, s);
    if FirstMatch(t, m, ev, s).Some? {
      NothingAcceptedBefore(t, m, ev, s);
    }
  }

  lemma NoMatchMeansNoneAccepted<E>(t: Tree, m: Matcher<E>, ev: Option<E>, s: NodeId)
    ensures FirstMatch(t, m, ev, s).None? <==>
              forall k | 0 <= k < |t.transitions| && t.transitions[k].source == s :: m(k, ev).None?
  {
    var ts := TransitionsOf(t, s);
    assert FirstMatch(t, m, ev, s) == MatchIn(m, ev, ts);
    forall k | 0 <= k < |t.transitions| && t.transitions[k].source == s
      ensures exists j | 0 <= j < |ts| :: ts[j] == k
    {
      assert k in ts;
    }
  }

  lemma NothingAcceptedBefore<E>(t: Tree, m: Matcher<E>, ev: Option<E>, s: NodeId)
    requires FirstMatch(t, m, ev, s).Some?
    ensures var r := FirstMatch(t, m, ev, s);
            forall k | 0 <= k < r.value.trans && t.transitions[k].source == s :: m(k, ev).None?
  {
    var ts := TransitionsOf(t, s);
    var r := FirstMatch(t, m, ev, s);
    assert r == MatchIn(m, ev, ts);
    forall k | 0 <= k < r.value.trans && t.transitions[k].source == s
      ensures m(k, ev).None?
    {
      assert k in ts;
      var j :| 0 <= j < |ts| && ts[j] == k;
      MatchInSkips(m, ev, ts, j);
    }
  }

  /** In an ascending list, nothing before the accepted transition is accepted. */
  lemma {:induction false} MatchInSkips<E>(m: Matcher<E>, ev: Option<E>, ts: seq<TransId>, j: nat)
    requires forall a, b | 0 <= a < b < |ts| :: ts[a] < ts[b]
    requires MatchIn(m, ev, ts).Some? && j < |ts| && ts[j] < MatchIn(m, ev, ts).value.trans
    ensures m(ts[j], ev).None?
  {
    if j > 0 && m(ts[0], ev).None? {
      var rest := ts[1..];
      assert forall a | 0 <= a < |rest| :: rest[a] == ts[a + 1];
      MatchInSkips(m, ev, rest, j - 1);
    }
  }

  /**
   * The `find` over `[state, ...getProperAncestors(state, null)]` as written:
   * the callback looks at `getTransitions(state)` whatever chain element it is
   * given.
   */
  function FindInChain<E>(t: Tree, m: Matcher<E>, ev: Option<E>, state: NodeId, chain: seq<NodeId>): Option<Match>
    decreases |chain|
  {
    if chain == [] then None
    else
      match FirstMatch(t, m, ev, state)
      case Some(x) => Some(x)
      case None => FindInChain(t, m, ev, state, chain[1..])
  }

  /** What `selectTransitions` picks for one active atomic state. */
  function SelectFor<E>(t: Tree, m: Matcher<E>, ev: Option<E>, state: NodeId): Option<Match> {
    FindInChain(t, m, ev, state, [state] + ProperAncestors(t, state, None))
  }

  /**
   * Ancestors are never searched: selection for a state is that state's own
   * first match, whatever its ancestors declare.
   */
  lemma {:induction false} AncestorsNeverSearched<E>(t: Tree, m: Matcher<E>, ev: Option<E>, state: NodeId)
    ensures SelectFor(t, m, ev, state) == FirstMatch(t, m, ev, state)
  {
    ChainIgnored(t, m, ev, state, [state] + ProperAncestors(t, state, None));
  }

  lemma {:induction false} ChainIgnored<E>(t: Tree, m: Matcher<E>, ev: Option<E>, state: NodeId, chain: seq<NodeId>)
    requires chain != []
    ensures FindInChain(t, m, ev, state, chain) == FirstMatch(t, m, ev, state)
    decreases |chain|
  {
    if FirstMatch(t, m, ev, state).None? && |chain| > 1 {
      ChainIgnored(t, m, ev, state, chain[1..]);
    }
  }

  /**
   * The SCXML selection rule, kept apart from the model: the first element of
   * the chain, nearest first, that has an accepted transition of its own.
   */
  function FirstInChain<E>(t: Tree, m: Matcher<E>, ev: Option<E>, chain: seq<NodeId>): (r: Option<Match>)
    ensures r.None? <==> forall k | 0 <= k < |chain| :: FirstMatch(t, m, ev, chain[k]).None?
    ensures r.Some? ==> exists k | 0 <= k < |chain| :: r == FirstMatch(t, m, ev, chain[k])
    decreases |chain|
  {
    if chain == [] then None
    else
      match FirstMatch(t, m, ev, chain[0])
      case Some(x) => Some(x)
      case None =>
        var r := FirstInChain(t, m, ev, chain[1..]);
        assert forall k | 1 <= k < |chain| :: chain[k] == chain[1..][k - 1];
        r
  }

  function SelectForCanonical<E>(t: Tree, m: Matcher<E>, ev: Option<E>, state: NodeId): Option<Match> {
    FirstInChain(t, m, ev, [state] + ProperAncestors(t, state, None))
  }

  /**
   * The rule as written and the SCXML rule agree on every state that has an
   * accepted transition of its own.
   */
  lemma SelectionAgreesOnOwnMatch<E>(t: Tree, m: Matcher<E>, ev: Option<E>, state: NodeId)
    requires FirstMatch(t, m, ev, state).Some?
    ensures SelectFor(t, m, ev, state) == SelectForCanonical(t, m, ev, state)
  {
    AncestorsNeverSearched(t, m, ev, state);
    var chain := [state] + ProperAncestors(t, state, None);
    assert chain[0] == state;
  }

  /**
   * The SCXML rule selects something exactly when the state or one of its
   * ancestors has an accepted transition; as written, only the state's own
   * transitions count (`AncestorsNeverSearched`).
   */
  lemma CanonicalSearchesAncestors<E>(t: Tree, m: Matcher<E>, ev: Option<E>, state: NodeId)
    ensures SelectForCanonical(t, m, ev, state).Some? <==>
              FirstMatch(t, m, ev, state).Some? ||
              exists a | IsDescendant(t, state, a) :: FirstMatch(t, m, ev, a).Some?
  {
    if exists a | IsDescendant(t, state, a) :: FirstMatch(t, m, ev, a).Some? {
      var a :| IsDescendant(t, state, a) && FirstMatch(t, m, ev, a).Some?;
      AncestorMatchFound(t, m, ev, state, a);
    }
    if SelectForCanonical(t, m, ev, state).Some? {
      CanonicalMatchInChain(t, m, ev, state);
    }
  }

  lemma AncestorMatchFound<E>(t: Tree, m: Matcher<E>, ev: Option<E>, state: NodeId, a: NodeId)
    requires IsDescendant(t, state, a) && FirstMatch(t, m, ev, a).Some?
    ensures SelectForCanonical(t, m, ev, state).Some?
  {
    var chain := [state] + ProperAncestors(t, state, None);
    AncestorsWithoutBoundary(t, state, a);
    assert a in chain;
    var k :| 0 <= k < |chain| && chain[k] == a;
  }

  lemma CanonicalMatchInChain<E>(t: Tree, m: Matcher<E>, ev: Option<E>, state: NodeId)
    requires SelectForCanonical(t, m, ev, state).Some?
    ensures FirstMatch(t, m, ev, state).Some? ||
            exists a | IsDescendant(t, state, a) :: FirstMatch(t, m, ev, a).Some?
  {
    var chain := [state] + ProperAncestors(t, state, None);
    var k :| 0 <= k < |chain| && FirstMatch(t, m, ev, chain[k]).Some?;
    if k > 0 {
      assert chain[k] == ProperAncestors(t, state, None)[k - 1];
      AncestorsWithoutBoundary(t, state, chain[k]);
    }
  }

  /** The active atomic states with id at least `i`, in document order. */
  function AtomicFrom(t: Tree, config: set<NodeId>, i: nat): (states: seq<NodeId>)
    decreases |t.nodes| - i
    ensures forall x :: x in states <==> i <= x < |t.nodes| && x in config && IsAtomic(t, x)
    ensures forall j, k | 0 <= j < k < |states| :: states[j] < states[k]
  {
    if i >= |t.nodes| then []
    else
      var rest := AtomicFrom(t, config, i + 1);
      assert forall k | 0 <= k < |rest| :: rest[k] in rest;
      (if i in config && IsAtomic(t, i) then [i] else []) + rest
  }

  /** `Array.from(config).filter(isAtomicState).sort(documentOrder)`. */
  function AtomicStates(t: Tree, config: set<NodeId>): seq<NodeId> {
    AtomicFrom(t, config, 0)
  }

  /** The transitions collected so far and the payload of the latest match. */
  datatype Scan = Scan(enabled: seq<TransRef>, payload: Option<Payload>)

  /** The table index of a declared transition. */
  function Index(r: TransRef): TransId {
    if r.Declared? then r.index else 0
  }

  function SourceIndex(t: Tree, r: TransRef): NodeId {
    if r.Declared? && r.index < |t.transitions| then t.transitions[r.index].source else 0
  }

  /** What one state contributes to the scan: its pick, if any, and that pick's payload. */
  function Collect(acc: Scan, pick: Option<Match>): Scan {
    match pick
    case Some(x) =>
      Scan(if Declared(x.trans) in acc.enabled then acc.enabled else acc.enabled + [Declared(x.trans)],
           Some(x.payload))
    case None => acc
  }

  /**
   * The loop over the atomic states of `selectTransitions`; `pick` is what the
   * `find` callback selects for a state.
   */
  function ScanStates(pick: NodeId -> Option<Match>, states: seq<NodeId>, acc: Scan): Scan
    decreases |states|
  {
    if states == [] then acc
    else ScanStates(pick, states[1..], Collect(acc, pick(states[0])))
  }

  /**
   * A transition that `selectTransitions` may enable: the first match of an
   * active atomic state (membership in `AtomicStates` is exactly that).
   */
  predicate EnabledBy<E>(t: Tree, m: Matcher<E>, ev: Option<E>, config: set<NodeId>, r: TransRef) {
    && r.Declared?
    && r.index < |t.transitions|
    && var s := t.transitions[r.index].source;
       && s in AtomicStates(t, config)
       && FirstMatch(t, m, ev, s).Some?
       && FirstMatch(t, m, ev, s).value.trans == r.index
  }

  /** `pick` only ever selects a transition of the state it is asked about. */
  predicate PickOwn(t: Tree, pick: NodeId -> Option<Match>, pool: seq<NodeId>) {
    forall x | x in pool :: pick(x).Some? ==> SourceIndex(t, Declared(pick(x).value.trans)) == x
  }

  /** `r` is the pick of one of the states of `pool`. */
  predicate PickOf(t: Tree, pick: NodeId -> Option<Match>, pool: seq<NodeId>, r: TransRef) {
    && r.Declared?
    && SourceIndex(t, r) in pool
    && pick(SourceIndex(t, r)).Some?
    && pick(SourceIndex(t, r)).value.trans == r.index
  }

  /** The loop invariant of the scan. */
  predicate ScanInv(t: Tree, pick: NodeId -> Option<Match>, pool: seq<NodeId>, states: seq<NodeId>, acc: Scan) {
    && (forall k | 0 <= k < |acc.enabled| :: PickOf(t, pick, pool, acc.enabled[k]))
    && (forall j, k | 0 <= j < k < |acc.enabled| :: SourceIndex(t, acc.enabled[j]) < SourceIndex(t, acc.enabled[k]))
    && (forall k, j | 0 <= k < |acc.enabled| && 0 <= j < |states| :: SourceIndex(t, acc.enabled[k]) < states[j])
    && (acc.enabled != [] ==>
          acc.payload.Some? &&
          pick(SourceIndex(t, acc.enabled[|acc.enabled| - 1])) ==
            Some(Match(Index(acc.enabled[|acc.enabled| - 1]), acc.payload.value)))
  }

  lemma {:induction false} ScanFacts(t: Tree, pick: NodeId -> Option<Match>, pool: seq<NodeId>,
                                     states: seq<NodeId>, acc: Scan)
    requires PickOwn(t, pick, pool)
    requires forall x | x in states :: x in pool
    requires forall j, k | 0 <= j < k < |states| :: states[j] < states[k]
    requires ScanInv(t, pick, pool, states, acc)
    ensures var s := ScanStates(pick, states, acc);
            && ScanInv(t, pick, pool, [], s)
            && (forall x | x in states && pick(x).Some? :: Declared(pick(x).value.trans) in s.enabled)
            && (forall r | r in acc.enabled :: r in s.enabled)
            && (s.enabled == acc.enabled ==> s.payload == acc.payload)
    decreases |states|
  {
    if states != [] {
      var x := states[0];
      var acc' := Collect(acc, pick(x));
      ScanStep(t, pick, pool, states, acc);
      ScanFacts(t, pick, pool, states[1..], acc');
      assert forall y | y in states :: y == x || y in states[1..];
    }
  }

  /** One round of the loop keeps the invariant and records the first state's pick. */
  lemma ScanStep(t: Tree, pick: NodeId -> Option<Match>, pool: seq<NodeId>, states: seq<NodeId>, acc: Scan)
    requires states != []
    requires PickOwn(t, pick, pool)
    requires forall x | x in states :: x in pool
    requires forall j, k | 0 <= j < k < |states| :: states[j] < states[k]
    requires ScanInv(t, pick, pool, states, acc)
    ensures var acc' := Collect(acc, pick(states[0]));
            && ScanInv(t, pick, pool, states[1..], acc')
            && (pick(states[0]).Some? ==> Declared(pick(states[0]).value.trans) in acc'.enabled)
            && (forall r | r in acc.enabled :: r in acc'.enabled)
            && (acc'.enabled == acc.enabled ==> acc'.payload == acc.payload)
  {
    var x := states[0];
    assert x in states;
    if pick(x).Some? {
      ScanStepPicked(t, pick, pool, states, acc);
    }
    assert forall j | 1 <= j < |states| :: states[1..][j - 1] == states[j];
  }

  lemma ScanStepPicked(t: Tree, pick: NodeId -> Option<Match>, pool: seq<NodeId>, states: seq<NodeId>, acc: Scan)
    requires states != [] && states[0] in pool && pick(states[0]).Some?
    requires PickOwn(t, pick, pool)
    requires ScanInv(t, pick, pool, states, acc)
    ensures var acc' := Collect(acc, pick(states[0]));
            && acc'.enabled == acc.enabled + [Declared(pick(states[0]).value.trans)]
            && (forall k | 0 <= k < |acc'.enabled| :: PickOf(t, pick, pool, acc'.enabled[k]))
            && (forall j, k | 0 <= j < k < |acc'.enabled| :: SourceIndex(t, acc'.enabled[j]) < SourceIndex(t, acc'.enabled[k]))
            && acc'.payload.Some?
            && pick(SourceIndex(t, acc'.enabled[|acc'.enabled| - 1])) ==
                 Some(Match(Index(acc'.enabled[|acc'.enabled| - 1]), acc'.payload.value))
  {
    var x := states[0];
    var y := pick(x).value;
    var acc' := Collect(acc, pick(x));
    assert SourceIndex(t, Declared(y.trans)) == x;
    assert Declared(y.trans) !in acc.enabled;
    assert acc'.enabled == acc.enabled + [Declared(y.trans)];
    assert forall k | 0 <= k < |acc.enabled| :: acc'.enabled[k] == acc.enabled[k];
    assert PickOf(t, pick, pool, Declared(y.trans));
  }

  /** The `find` callback of `selectTransitions` as a function of the state. */
  function Picker<E>(t: Tree, m: Matcher<E>, ev: Option<E>): NodeId -> Option<Match> {
    (x: NodeId) => SelectFor(t, m, ev, x)
  }

  /**
   * The transitions enabled before conflict filtering, and the payload the
   * global `eventPayload` holds afterwards: one transition per active atomic
   * state that has a match (its first), in document order of the states, and
   * the payload of the last match, or the old payload when nothing matched.
   */
  function Enabled<E>(t: Tree, m: Matcher<E>, ev: Option<E>, config: set<NodeId>, payload: Option<Payload>): (s: Scan)
    ensures CollectsFirstMatches(t, m, ev, config, payload, s)
  {
    EnabledFacts(t, m, ev, config, payload);
    ScanStates(Picker(t, m, ev), AtomicStates(t, config), Scan([], payload))
  }

  /**
   * `s` holds exactly the first matches of the active atomic states, and its
   * payload is the last match's, or `payload` when nothing matched.
   */
  predicate CollectsFirstMatches<E>(t: Tree, m: Matcher<E>, ev: Option<E>, config: set<NodeId>, payload: Option<Payload>, s: Scan) {
    && (forall k | 0 <= k < |s.enabled| :: EnabledBy(t, m, ev, config, s.enabled[k]))
    && (forall x | x in AtomicStates(t, config) && FirstMatch(t, m, ev, x).Some? ::
          Declared(FirstMatch(t, m, ev, x).value.trans) in s.enabled)
    && (s.enabled == [] ==> s.payload == payload)
    && (s.enabled != [] ==> s.payload == m(Index(s.enabled[|s.enabled| - 1]), ev))
  }

  /**
   * The full contract of the scan: every enabled transition is the first
   * match of an active atomic state, their source states strictly increase (so
   * each state contributes at most one, in document order), every active atomic
   * state with a match contributes, and the payload is the last match's.
   */
  lemma EnabledFacts<E>(t: Tree, m: Matcher<E>, ev: Option<E>, config: set<NodeId>, payload: Option<Payload>)
    ensures var s := ScanStates(Picker(t, m, ev), AtomicStates(t, config), Scan([], payload));
            && (forall k | 0 <= k < |s.enabled| :: EnabledBy(t, m, ev, config, s.enabled[k]))
            && (forall j, k | 0 <= j < k < |s.enabled| :: SourceIndex(t, s.enabled[j]) < SourceIndex(t, s.enabled[k]))
            && (forall x | x in AtomicStates(t, config) && FirstMatch(t, m, ev, x).Some? ::
                  Declared(FirstMatch(t, m, ev, x).value.trans) in s.enabled)
            && (s.enabled == [] ==> s.payload == payload)
            && (s.enabled != [] ==> s.payload == m(Index(s.enabled[|s.enabled| - 1]), ev))
  {
    var states := AtomicStates(t, config);
    var pick := Picker(t, m, ev);
    PickIsFirstMatch(t, m, ev, states);
    ScanFacts(t, pick, states, states, Scan([], payload));
    var s := ScanStates(pick, states, Scan([], payload));
    EnabledFromPicks(t, m, ev, config, states, s);
    PicksAreFirstMatches(t, m, ev, states, s);
  }

  lemma PicksAreFirstMatches<E>(t: Tree, m: Matcher<E>, ev: Option<E>, states: seq<NodeId>, s: Scan)
    requires forall x | x in states && Picker(t, m, ev)(x).Some? :: Declared(Picker(t, m, ev)(x).value.trans) in s.enabled
    ensures forall x | x in states && FirstMatch(t, m, ev, x).Some? :: Declared(FirstMatch(t, m, ev, x).value.trans) in s.enabled
  {
    forall x | x in states && FirstMatch(t, m, ev, x).Some?
      ensures Declared(FirstMatch(t, m, ev, x).value.trans) in s.enabled
    {
      AncestorsNeverSearched(t, m, ev, x);
    }
  }

  lemma PickIsFirstMatch<E>(t: Tree, m: Matcher<E>, ev: Option<E>, states: seq<NodeId>)
    ensures PickOwn(t, Picker(t, m, ev), states)
  {
    forall x | x in states ensures SelectFor(t, m, ev, x) == FirstMatch(t, m, ev, x) {
      AncestorsNeverSearched(t, m, ev, x);
    }
  }

  lemma EnabledFromPicks<E>(t: Tree, m: Matcher<E>, ev: Option<E>, config: set<NodeId>, states: seq<NodeId>, s: Scan)
    requires states == AtomicStates(t, config)
    requires ScanInv(t, Picker(t, m, ev), states, [], s)
    ensures forall k | 0 <= k < |s.enabled| :: EnabledBy(t, m, ev, config, s.enabled[k])
    ensures s.enabled != [] ==> s.payload == m(Index(s.enabled[|s.enabled| - 1]), ev)
  {
    var pick := Picker(t, m, ev);
    forall k | 0 <= k < |s.enabled| ensures EnabledBy(t, m, ev, config, s.enabled[k]) {
      var src := SourceIndex(t, s.enabled[k]);
      assert PickOf(t, pick, states, s.enabled[k]);
      AncestorsNeverSearched(t, m, ev, src);
    }
    if s.enabled != [] {
      var last := s.enabled[|s.enabled| - 1];
      AncestorsNeverSearched(t, m, ev, SourceIndex(t, last));
    }
  }

  /**
   * `selectTransitions(e)`: the enabled transitions after the conflict filter,
   * with the payload left in `eventPayload`. The payload is that of the last
   * match, even when the filter drops the transition it came from.
   */
  function SelectTransitions<E>(t: Tree, hist: HistoryMap, config: set<NodeId>, m: Matcher<E>,
                                ev: Option<E>, payload: Option<Payload>): (sel: Scan)
    requires Valid(t)
    ensures forall r | r in sel.enabled :: EnabledBy(t, m, ev, config, r)
    ensures |sel.enabled| <= 1
    ensures sel.enabled == [] <==> forall x | x in AtomicStates(t, config) :: FirstMatch(t, m, ev, x).None?
    ensures sel.payload == Enabled(t, m, ev, config, payload).payload
  {
    var pre := Enabled(t, m, ev, config, payload);
    assert AllDeclared(t, pre.enabled) by {
      forall k | 0 <= k < |pre.enabled| ensures pre.enabled[k].Declared? && RefOk(t, pre.enabled[k]) {
        assert EnabledBy(t, m, ev, config, pre.enabled[k]);
      }
    }
    var kept := RemoveConflictingTransitions(t, hist, config, pre.enabled);
    assert forall r | r in kept :: EnabledBy(t, m, ev, config, r) by {
      forall r | r in kept ensures EnabledBy(t, m, ev, config, r) {
        var k :| 0 <= k < |pre.enabled| && pre.enabled[k] == r;
      }
    }
    assert pre.enabled != [] ==> EnabledBy(t, m, ev, config, pre.enabled[0]);
    Scan(kept, pre.payload)
  }

  /** Which transitions the scan collects does not depend on the payload it starts from. */
  lemma {:induction false} ScanIgnoresPayload(pick: NodeId -> Option<Match>, states: seq<NodeId>,
                                              enabled: seq<TransRef>, p1: Option<Payload>, p2: Option<Payload>)
    decreases |states|
    ensures ScanStates(pick, states, Scan(enabled, p1)).enabled == ScanStates(pick, states, Scan(enabled, p2)).enabled
  {
    if states != [] {
      var a1 := Collect(Scan(enabled, p1), pick(states[0]));
      var a2 := Collect(Scan(enabled, p2), pick(states[0]));
      ScanIgnoresPayload(pick, states[1..], a1.enabled, a1.payload, a2.payload);
      assert a1 == Scan(a1.enabled, a1.payload) && a2 == Scan(a1.enabled, a2.payload);
    }
  }

  /**
   * `selectTransitions` reads `eventPayload` only to overwrite it: the
   * transitions it returns are the same whatever payload was left before.
   */
  lemma SelectionIgnoresPayload<E>(t: Tree, hist: HistoryMap, config: set<NodeId>, m: Matcher<E>,
                                   ev: Option<E>, p1: Option<Payload>, p2: Option<Payload>)
    requires Valid(t)
    ensures SelectTransitions(t, hist, config, m, ev, p1).enabled == SelectTransitions(t, hist, config, m, ev, p2).enabled
  {
    ScanIgnoresPayload(Picker(t, m, ev), AtomicStates(t, config), [], p1, p2);
  }

  /** Which transitions `selectTransitions` collects does not depend on the payload either. */
  lemma EnabledIgnoresPayload<E>(t: Tree, m: Matcher<E>, ev: Option<E>, config: set<NodeId>,
                                 p1: Option<Payload>, p2: Option<Payload>)
    ensures Enabled(t, m, ev, config, p1).enabled == Enabled(t, m, ev, config, p2).enabled
  {
    ScanIgnoresPayload(Picker(t, m, ev), AtomicStates(t, config), [], p1, p2);
  }

  /**
   * `selectTransitions(e)` throws. Once two or more transitions are collected,
   * the conflict filter computes the exit set of every one of them (line 249):
   * the first when the second is compared with it, each later one when it is
   * compared with the one kept. Computing an exit set reads the transition's
   * targets (lines 230 and 232), which throws on an unreadable one.
   */
  predicate SelectThrows<E>(t: Tree, hist: HistoryMap, config: set<NodeId>, m: Matcher<E>, ev: Option<E>)
    requires Valid(t)
  {
    var pre := Enabled(t, m, ev, config, None).enabled;
    |pre| >= 2 && AnyUnreadable(t, hist, pre)
  }
}

=== FILE: targets.dfy ===
/**
 * Where a transition leads: `getEffectiveTargetStates`, `getTransitionDomain`
 * and `findLCCA`.
 */
module Targets {
  import opened Wrappers
  import opened StateTree
  import opened TreeFacts

  /**
   * `historyValue`: the recorded states, keyed by the element the entry was
   * written under.
   */
  type HistoryMap = map<NodeId, seq<NodeId>>

  /** The recorded values are nodes strictly below the element they are stored under. */
  predicate HistoryOk(t: Tree, hist: HistoryMap) {
    forall k | k in hist :: forall v | v in hist[k] :: v < |t.nodes| && IsDescendant(t, v, k)
  }

  /** `set.add(x)` on a JS `Set`, kept as a duplicate-free insertion-ordered sequence. */
  function AddUnique(xs: seq<NodeId>, x: NodeId): (r: seq<NodeId>)
    ensures forall y :: y in r <==> y in xs || y == x
    ensures Distinct(xs) ==> Distinct(r)
  {
    if x in xs then xs else xs + [x]
  }

  /** Adding every element of `ys` in order. */
  function AddAll(xs: seq<NodeId>, ys: seq<NodeId>): (r: seq<NodeId>)
    decreases |ys|
    ensures forall y :: y in r <==> y in xs || y in ys
    ensures Distinct(xs) ==> Distinct(r)
  {
    if ys == [] then xs else AddAll(AddUnique(xs, ys[0]), ys[1..])
  }

  predicate Distinct(xs: seq<NodeId>) {
    forall j, k | 0 <= j < k < |xs| :: xs[j] != xs[k]
  }

  predicate HasHistory(t: Tree, xs: seq<NodeId>) {
    exists k | 0 <= k < |xs| :: HasTag(t, xs[k], History)
  }

  /** The default `<transition>` child of a `<history>` (`assertPath(h, ['transition'])`). */
  function HistoryDefault(t: Tree, h: NodeId): (d: Transition)
    requires Valid(t) && HasTag(t, h, History)
    ensures !HasHistory(t, d.targets)
  {
    assert NodeShapeOk(t, h);
    t.transitions[FirstTransition(t, h).value]
  }

  /**
   * The loop of `getEffectiveTargetStates`: a `<history>` target contributes its
   * recorded value when there is one, else the effective targets of its default
   * transition; any other target contributes itself.
   */
  function CollectTargets(t: Tree, hist: HistoryMap, targets: seq<NodeId>, acc: seq<NodeId>): seq<NodeId>
    requires Valid(t)
    decreases if HasHistory(t, targets) then 1 else 0, |targets|
  {
    if targets == [] then acc
    else
      var s := targets[0];
      var acc' :=
        if HasTag(t, s, History) then
          if s in hist then AddAll(acc, hist[s])
          else AddAll(acc, CollectTargets(t, hist, HistoryDefault(t, s).targets, []))
        else AddUnique(acc, s);
      HistoryInTail(t, targets);
      CollectTargets(t, hist, targets[1..], acc')
  }

  /** A `<history>` in the tail of a list is one in the list. */
  lemma HistoryInTail(t: Tree, targets: seq<NodeId>)
    requires targets != []
    ensures HasHistory(t, targets[1..]) ==> HasHistory(t, targets)
  {
    if HasHistory(t, targets[1..]) {
      var k :| 0 <= k < |targets[1..]| && HasTag(t, targets[1..][k], History);
      assert HasTag(t, targets[k + 1], History);
    }
  }

  /** What one target contributes to the effective targets. */
  predicate Contributes(t: Tree, hist: HistoryMap, s: NodeId, x: NodeId)
    requires Valid(t)
  {
    if HasTag(t, s, History) then
      if s in hist then x in hist[s] else x in HistoryDefault(t, s).targets
    else x == s
  }

  predicate ContributesAny(t: Tree, hist: HistoryMap, targets: seq<NodeId>, x: NodeId)
    requires Valid(t)
  {
    exists k | 0 <= k < |targets| :: Contributes(t, hist, targets[k], x)
  }

  /** `getEffectiveTargetStates(t)`. */
  function EffectiveTargets(t: Tree, hist: HistoryMap, r: TransRef): (states: seq<NodeId>)
    requires Valid(t) && RefOk(t, r)
    ensures Distinct(states)
    ensures forall x :: x in states <==> ContributesAny(t, hist, TargetsOf(t, r), x)
  {
    CollectMembers(t, hist, TargetsOf(t, r), []);
    CollectTargets(t, hist, TargetsOf(t, r), [])
  }

  /**
   * A `<history>` target whose targets cannot be read through it: it has no
   * recorded value, so `getEffectiveTargetStates` turns to its default
   * transition (line 282), and that transition has no `target`.
   */
  predicate DefaultUnreadable(t: Tree, hist: HistoryMap, h: NodeId)
    requires Valid(t)
  {
    HasTag(t, h, History) && h !in hist && HistoryDefault(t, h).targets == []
  }

  /**
   * Reading the targets of `r` throws. `getTargetStates` splits an absent
   * `target` into one empty id, and `querySelector('#')` is a selector syntax
   * error (line 273); `getEffectiveTargetStates` does the same for the default
   * transition of a `<history>` target without a recorded value. A created
   * transition always has its one target.
   */
  predicate ReadThrows(t: Tree, hist: HistoryMap, r: TransRef)
    requires Valid(t) && RefOk(t, r)
  {
    || TargetsOf(t, r) == []
    || exists k | 0 <= k < |TargetsOf(t, r)| :: DefaultUnreadable(t, hist, TargetsOf(t, r)[k])
  }

  /** Some transition of `ts` cannot have its targets read. */
  predicate AnyUnreadable(t: Tree, hist: HistoryMap, ts: seq<TransRef>)
    requires Valid(t)
  {
    exists k | 0 <= k < |ts| :: RefOk(t, ts[k]) && ReadThrows(t, hist, ts[k])
  }

  lemma ContributesCons(t: Tree, hist: HistoryMap, targets: seq<NodeId>, x: NodeId)
    requires Valid(t) && targets != []
    ensures ContributesAny(t, hist, targets, x) <==>
            Contributes(t, hist, targets[0], x) || ContributesAny(t, hist, targets[1..], x)
  {
    if ContributesAny(t, hist, targets, x) {
      var k :| 0 <= k < |targets| && Contributes(t, hist, targets[k], x);
      if k > 0 {
        assert Contributes(t, hist, targets[1..][k - 1], x);
      }
    }
    if ContributesAny(t, hist, targets[1..], x) {
      var k :| 0 <= k < |targets[1..]| && Contributes(t, hist, targets[1..][k], x);
      assert Contributes(t, hist, targets[k + 1], x);
    }
  }

  lemma ContributesConsAll(t: Tree, hist: HistoryMap, targets: seq<NodeId>)
    requires Valid(t) && targets != []
    ensures forall x :: ContributesAny(t, hist, targets, x) <==>
              Contributes(t, hist, targets[0], x) || ContributesAny(t, hist, targets[1..], x)
  {
    forall x ensures ContributesAny(t, hist, targets, x) <==>
                     Contributes(t, hist, targets[0], x) || ContributesAny(t, hist, targets[1..], x) {
      ContributesCons(t, hist, targets, x);
    }
  }

  lemma DefaultCollected(t: Tree, hist: HistoryMap, h: NodeId)
    requires Valid(t) && HasTag(t, h, History)
    ensures var d := HistoryDefault(t, h).targets;
            forall x :: x in CollectTargets(t, hist, d, []) <==> x in d
    decreases 0, |HistoryDefault(t, h).targets| + 1
  {
    var d := HistoryDefault(t, h).targets;
    CollectMembers(t, hist, d, []);
    forall x ensures x in CollectTargets(t, hist, d, []) <==> x in d {
      if x in CollectTargets(t, hist, d, []) {
        var k :| 0 <= k < |d| && Contributes(t, hist, d[k], x);
      }
      if x in d {
        var k :| 0 <= k < |d| && d[k] == x;
        assert Contributes(t, hist, d[k], x);
      }
    }
  }

  lemma {:induction false} CollectMembers(t: Tree, hist: HistoryMap, targets: seq<NodeId>, acc: seq<NodeId>)
    requires Valid(t)
    ensures var r := CollectTargets(t, hist, targets, acc);
            && (Distinct(acc) ==> Distinct(r))
            && forall x :: x in r <==> x in acc || ContributesAny(t, hist, targets, x)
    decreases if HasHistory(t, targets) then 1 else 0, |targets|
  {
    if targets != [] {
      var s := targets[0];
      if HasTag(t, s, History) && s !in hist {
        DefaultCollected(t, hist, s);
      }
      var acc' :=
        if HasTag(t, s, History) then
          if s in hist then AddAll(acc, hist[s])
          else AddAll(acc, CollectTargets(t, hist, HistoryDefault(t, s).targets, []))
        else AddUnique(acc, s);
      CollectStep(t, hist, s, acc);
      HistoryInTail(t, targets);
      CollectMembers(t, hist, targets[1..], acc');
      ContributesConsAll(t, hist, targets);
    }
  }

  /** One turn of the collection loop adds exactly what the target contributes, without repeats. */
  lemma CollectStep(t: Tree, hist: HistoryMap, s: NodeId, acc: seq<NodeId>)
    requires Valid(t)
    requires HasTag(t, s, History) && s !in hist ==>
               var d := HistoryDefault(t, s).targets;
               forall x :: x in CollectTargets(t, hist, d, []) <==> x in d
    ensures var acc' :=
              if HasTag(t, s, History) then
                if s in hist then AddAll(acc, hist[s])
                else AddAll(acc, CollectTargets(t, hist, HistoryDefault(t, s).targets, []))
              else AddUnique(acc, s);
            && (Distinct(acc) ==> Distinct(acc'))
            && forall x :: x in acc' <==> x in acc || Contributes(t, hist, s, x)
  {}

  /** Every state of `states` lies strictly below `a`. */
  predicate Contains(t: Tree, a: NodeId, states: seq<NodeId>) {
    forall k | 0 <= k < |states| :: IsDescendant(t, states[k], a)
  }

  /** A compound state that contains every state of `states`. */
  predicate Encloses(t: Tree, a: NodeId, states: seq<NodeId>) {
    IsCompound(t, a) && Contains(t, a, states)
  }

  /** The loop of `findLCCA` over the compound ancestors, first hit wins. */
  function FirstEnclosing(t: Tree, ancs: seq<NodeId>, rest: seq<NodeId>): (r: NodeId)
    ensures (r == Root && forall j | 0 <= j < |ancs| :: !Encloses(t, ancs[j], rest))
            || exists k | 0 <= k < |ancs| ::
                 ancs[k] == r && Encloses(t, r, rest) && forall j | 0 <= j < k :: !Encloses(t, ancs[j], rest)
  {
    if ancs == [] then Root
    else if Encloses(t, ancs[0], rest) then ancs[0]
    else
      var r := FirstEnclosing(t, ancs[1..], rest);
      if r == Root && forall j | 0 <= j < |ancs[1..]| :: !Encloses(t, ancs[1..][j], rest) then
        assert forall j | 1 <= j < |ancs| :: ancs[j] == ancs[1..][j - 1];
        r
      else
        var k :| 0 <= k < |ancs[1..]| && ancs[1..][k] == r && Encloses(t, r, rest)
                 && forall j | 0 <= j < k :: !Encloses(t, ancs[1..][j], rest);
        assert forall j | 1 <= j < k + 1 :: ancs[j] == ancs[1..][j - 1];
        r
  }

  /** `findLCCA([source, ...states])`. */
  function FindLCCA(t: Tree, states: seq<NodeId>): NodeId
    requires states != []
  {
    FirstEnclosing(t, ProperAncestors(t, states[0], None), states[1..])
  }

  /** The parent element of a declared transition. */
  function SourceOf(t: Tree, r: TransRef): NodeId
    requires r.Declared? && RefOk(t, r)
  {
    t.transitions[r.index].source
  }

  /**
   * `getTransitionDomain(t)`, for a declared transition: the root when there are
   * no effective targets; the source when it is compound and contains them all;
   * otherwise the nearest compound proper ancestor of the source that contains
   * them all, falling back to the root.
   */
  function TransitionDomain(t: Tree, hist: HistoryMap, r: TransRef): (d: NodeId)
    requires Valid(t) && RefOk(t, r) && r.Declared?
    ensures var states := EffectiveTargets(t, hist, r);
            var src := SourceOf(t, r);
            && (states == [] ==> d == Root)
            && (states != [] && Encloses(t, src, states) ==> d == src)
            && (states != [] && !Encloses(t, src, states) ==>
                  || (&& IsDescendant(t, src, d)
                      && Encloses(t, d, states)
                      && forall a | IsDescendant(t, src, a) && IsDescendant(t, a, d) :: !Encloses(t, a, states))
                  || (d == Root && forall a | IsDescendant(t, src, a) :: !Encloses(t, a, states)))
  {
    var states := EffectiveTargets(t, hist, r);
    if states == [] then Root
    else
      var src := SourceOf(t, r);
      if IsCompound(t, src) && forall k | 0 <= k < |states| :: IsDescendant(t, states[k], src) then src
      else
        var d := FindLCCA(t, [src] + states);
        assert ([src] + states)[1..] == states;
        LCCAIsNearest(t, src, states, d);
        d
  }

  lemma LCCAIsNearest(t: Tree, src: NodeId, states: seq<NodeId>, d: NodeId)
    requires d == FirstEnclosing(t, ProperAncestors(t, src, None), states)
    ensures || (&& IsDescendant(t, src, d)
                && Encloses(t, d, states)
                && forall a | IsDescendant(t, src, a) && IsDescendant(t, a, d) :: !Encloses(t, a, states))
            || (d == Root && forall a | IsDescendant(t, src, a) :: !Encloses(t, a, states))
  {
    var ancs := ProperAncestors(t, src, None);
    forall a | IsDescendant(t, src, a)
      ensures a in ancs
    {
      AncestorsWithoutBoundary(t, src, a);
    }
    if d == Root && forall j | 0 <= j < |ancs| :: !Encloses(t, ancs[j], states) {
    } else {
      var k :| 0 <= k < |ancs| && ancs[k] == d && Encloses(t, d, states)
               && forall j | 0 <= j < k :: !Encloses(t, ancs[j], states);
      AncestorsWithoutBoundary(t, src, d);
      forall a | IsDescendant(t, src, a) && IsDescendant(t, a, d)
        ensures !Encloses(t, a, states)
      {
        var j :| 0 <= j < |ancs| && ancs[j] == a;
        if j > k {
          ChainOrdered(t, Parent(t, src), None, k, j);
          DescendantIsLater(t, d, a);
        } else if j == k {
          DescendantIsLater(t, a, a);
        }
      }
    }
  }

  /** Effective targets are real, non-root nodes. */
  lemma EffectiveInRange(t: Tree, hist: HistoryMap, r: TransRef, x: NodeId)
    requires Valid(t) && HistoryOk(t, hist) && RefOk(t, r)
    requires x in EffectiveTargets(t, hist, r)
    ensures 0 < x < |t.nodes|
  {
    var targets := TargetsOf(t, r);
    var k :| 0 <= k < |targets| && Contributes(t, hist, targets[k], x);
    var s := targets[k];
    if r.Declared? {
      assert TransitionOk(t, t.transitions[r.index]);
    }
    if HasTag(t, s, History) {
      if s in hist {
        DescendantIsLater(t, x, s);
      } else {
        assert NodeShapeOk(t, s);
        var i := FirstTransition(t, s).value;
        assert TransitionOk(t, t.transitions[i]);
      }
    }
  }

  /**
   * The domain of a declared transition is the root or a compound state, and
   * every effective target lies strictly below it.
   */
  lemma DomainContainsTargets(t: Tree, hist: HistoryMap, r: TransRef)
    requires Valid(t) && HistoryOk(t, hist) && RefOk(t, r) && r.Declared?
    ensures var d := TransitionDomain(t, hist, r);
            && Contains(t, d, EffectiveTargets(t, hist, r))
            && (d == Root || IsCompound(t, d))
  {
    var states := EffectiveTargets(t, hist, r);
    var d := TransitionDomain(t, hist, r);
    if d == Root {
      forall k | 0 <= k < |states|
        ensures IsDescendant(t, states[k], Root)
      {
        EffectiveInRange(t, hist, r, states[k]);
        BelowRoot(t, states[k]);
      }
    }
  }
}

=== FILE: tree.dfy ===
/**
 * The structural side of an SCXML document as the interpreter sees it: element
 * kinds, the parent links, document order, and the tree queries
 * `getChildStates`, `findChildren`, `getTransitions`, `isCompoundState`,
 * `getProperAncestors` and `isDescendant` of `startScxmlAlgorithm`.
 *
 * Elements that the interpreter treats as states or pseudo-states are numbered
 * 0..n-1 in pre-order, so document order is `<` on ids and node 0 is the
 * `<scxml>` root. Executable content, `<invoke>` declarations and `<transition>`
 * elements are not tree nodes: the first two are opaque ids listed on their
 * owning node, transitions live in a table of their own.
 */
module StateTree {
  import opened Wrappers

  type NodeId = nat
  type TransId = nat
  type ActionId = nat
  type InvokeId = nat

  /** The tag name of a tree node. */
  datatype Tag = Scxml | State | Parallel | Final | History | Initial

  /**
   * One element. `initial` is the resolved `initial` attribute, `deep` is
   * `deep="true"` on a `<history>`; `onentry` and `onexit` are the executable
   * children of all `<onentry>` (resp. `<onexit>`) children, in document order.
   */
  datatype Node = Node(
    tag: Tag,
    parent: Option<NodeId>,
    initial: Option<NodeId>,
    deep: bool,
    onentry: seq<ActionId>,
    onexit: seq<ActionId>,
    invokes: seq<InvokeId>)

  /**
   * A declared `<transition>`: its parent element, its `event` attribute (read
   * only by the host), its resolved `target` list (empty when the attribute is
   * missing) and its executable children.
   */
  datatype Transition = Transition(
    source: NodeId,
    event: Option<string>,
    targets: seq<NodeId>,
    content: seq<ActionId>)

  datatype Tree = Tree(nodes: seq<Node>, transitions: seq<Transition>)

  const Root: NodeId := 0

  /** The parent element; the guard never fails in a `Valid` tree. */
  function Parent(t: Tree, x: NodeId): (p: Option<NodeId>)
    ensures p.Some? ==> p.value < x
  {
    if x < |t.nodes| && t.nodes[x].parent.Some? && t.nodes[x].parent.value < x
    then t.nodes[x].parent
    else None
  }

  predicate HasTag(t: Tree, x: NodeId, tag: Tag) {
    x < |t.nodes| && t.nodes[x].tag == tag
  }

  predicate HasTagIn(t: Tree, x: NodeId, tags: set<Tag>) {
    x < |t.nodes| && t.nodes[x].tag in tags
  }

  /** `isDescendant(x, a)`: `a` lies on the parent chain of `x` (strictly above it). */
  predicate IsDescendant(t: Tree, x: NodeId, a: NodeId)
    decreases x
  {
    match Parent(t, x)
    case None => false
    case Some(p) => p == a || IsDescendant(t, p, a)
  }

  /**
   * The children of `e` whose tag is in `tags`, in document order, scanning
   * ids from `i` upwards.
   */
  function ChildrenFrom(t: Tree, e: NodeId, tags: set<Tag>, i: nat): (cs: seq<NodeId>)
    decreases |t.nodes| - i
    ensures forall c :: c in cs <==> i <= c && Parent(t, c) == Some(e) && HasTagIn(t, c, tags)
    ensures forall j, k :: 0 <= j < k < |cs| ==> cs[j] < cs[k]
  {
    if i >= |t.nodes| then []
    else
      var rest := ChildrenFrom(t, e, tags, i + 1);
      assert forall k | 0 <= k < |rest| :: rest[k] in rest;
      (if Parent(t, i) == Some(e) && HasTagIn(t, i, tags) then [i] else []) + rest
  }

  /** `findChildren(e, name)`: the direct children of `e` carrying one of `tags`. */
  function ChildrenTagged(t: Tree, e: NodeId, tags: set<Tag>): seq<NodeId> {
    ChildrenFrom(t, e, tags, 0)
  }

  /** `getChildStates(e)`: direct `<state>`, `<parallel>` and `<history>` children. */
  function ChildStates(t: Tree, e: NodeId): seq<NodeId> {
    ChildrenTagged(t, e, {State, Parallel, History})
  }

  /** `e` has a child tagged `tag`. */
  predicate HasChildTagged(t: Tree, e: NodeId, tag: Tag) {
    exists c | 0 <= c < |t.nodes| :: Parent(t, c) == Some(e) && HasTag(t, c, tag)
  }

  /** `c` is the first child of `e` tagged `tag`, in document order. */
  predicate IsFirstChild(t: Tree, e: NodeId, tag: Tag, c: NodeId) {
    && Parent(t, c) == Some(e) && HasTag(t, c, tag)
    && forall b | 0 <= b < c :: !(Parent(t, b) == Some(e) && HasTag(t, b, tag))
  }

  /** `findChildren(e, name)[0]`. */
  function FirstChild(t: Tree, e: NodeId, tag: Tag): (r: Option<NodeId>)
    ensures r.Some? ==> IsFirstChild(t, e, tag, r.value)
    ensures r.None? <==> !HasChildTagged(t, e, tag)
  {
    var cs := ChildrenTagged(t, e, {tag});
    if cs == [] then
      assert forall c | 0 <= c < |t.nodes| && Parent(t, c) == Some(e) && HasTag(t, c, tag) :: c in cs;
      None
    else
      assert cs[0] in cs;
      assert forall b | 0 <= b < cs[0] && Parent(t, b) == Some(e) && HasTag(t, b, tag) :: b in cs;
      Some(cs[0])
  }

  /** The declared transitions whose parent is `s`, scanning the table from `i`. */
  function TransitionsFrom(t: Tree, s: NodeId, i: nat): (ts: seq<TransId>)
    decreases |t.transitions| - i
    ensures forall k :: k in ts <==> i <= k < |t.transitions| && t.transitions[k].source == s
    ensures forall j, k :: 0 <= j < k < |ts| ==> ts[j] < ts[k]
  {
    if i >= |t.transitions| then []
    else
      var rest := TransitionsFrom(t, s, i + 1);
      assert forall k | 0 <= k < |rest| :: rest[k] in rest;
      (if t.transitions[i].source == s then [i] else []) + rest
  }

  /** `getTransitions(s)`: the `<transition>` children of `s` in document order. */
  function TransitionsOf(t: Tree, s: NodeId): seq<TransId> {
    TransitionsFrom(t, s, 0)
  }

  /** `k` is the first `<transition>` child of `s`, in document order. */
  predicate IsFirstTransition(t: Tree, s: NodeId, k: TransId) {
    && k < |t.transitions| && t.transitions[k].source == s
    && forall j | 0 <= j < k :: t.transitions[j].source != s
  }

  /** The first `<transition>` child of `s`, if any. */
  function FirstTransition(t: Tree, s: NodeId): (r: Option<TransId>)
    ensures r.Some? ==> IsFirstTransition(t, s, r.value)
    ensures r.None? <==> TransitionsOf(t, s) == []
  {
    var ts := TransitionsOf(t, s);
    if ts == [] then None
    else
      assert ts[0] in ts;
      assert forall k | 0 <= k < ts[0] && t.transitions[k].source == s :: k in ts;
      Some(ts[0])
  }

  /**
   * `isCompoundState(e)`: `e.querySelector('state,parallel')` finds an element,
   * i.e. SOME strict descendant, not necessarily a child, is a `<state>` or a
   * `<parallel>`.
   */
  predicate IsCompound(t: Tree, e: NodeId) {
    exists d | 0 <= d < |t.nodes| :: IsDescendant(t, d, e) && HasTagIn(t, d, {State, Parallel})
  }

  predicate IsAtomic(t: Tree, e: NodeId) {
    !IsCompound(t, e)
  }

  /**
   * The inner walk `getPA` of `getProperAncestors`: from `o` upwards, stopping
   * before the boundary `b`, or after the root when there is no boundary.
   */
  function ChainFrom(t: Tree, o: Option<NodeId>, b: Option<NodeId>): seq<NodeId>
    decreases if o.Some? then o.value + 1 else 0
  {
    if o == b || o.None? then []
    else if b.None? && o.value == Root then [o.value]
    else [o.value] + ChainFrom(t, Parent(t, o.value), b)
  }

  /** `getProperAncestors(s, boundary)`. */
  function ProperAncestors(t: Tree, s: NodeId, boundary: Option<NodeId>): seq<NodeId> {
    ChainFrom(t, Parent(t, s), boundary)
  }

  /** Number of proper ancestors of `x`. */
  function Depth(t: Tree, x: NodeId): (d: nat)
    decreases x
    ensures d <= x
  {
    match Parent(t, x)
    case None => 0
    case Some(p) => 1 + Depth(t, p)
  }

  /** Distance still available below `x`; it drops by one from parent to child. */
  function Rank(t: Tree, x: NodeId): nat {
    if Depth(t, x) <= |t.nodes| then |t.nodes| - Depth(t, x) else 0
  }

  /**
   * Default entry, `initialTransitionsFor(s)`: the `initial` attribute beats an
   * `<initial>` child, which beats the first `<state>` child.
   */
  function InitialTransitionsFor(t: Tree, s: NodeId): seq<TransRef> {
    if s < |t.nodes| && t.nodes[s].initial.Some? then [Synthetic(t.nodes[s].initial.value)]
    else match FirstChild(t, s, Initial)
      case Some(i) =>
        (match FirstTransition(t, i)
         case Some(k) => [Declared(k)]
         case None => [])
      case None =>
        match FirstChild(t, s, State)
        case Some(c) => [Synthetic(c)]
        case None => []
  }

  /**
   * The priority of `initialTransitionsFor`: a state with an `initial`
   * attribute gets a transition to the state it names; otherwise, if it has an
   * `<initial>` child, the first `<transition>` of the first such child (or
   * nothing when that child has none); otherwise a transition to its first
   * `<state>` child; and nothing when it has neither kind of child.
   */
  lemma InitialTransitionsPriority(t: Tree, s: NodeId)
    ensures var r := InitialTransitionsFor(t, s);
            var attr := s < |t.nodes| && t.nodes[s].initial.Some?;
            && |r| <= 1
            && (attr ==> r == [Synthetic(t.nodes[s].initial.value)])
            && (forall k | 0 <= k < |r| && r[k].Declared? ::
                  && !attr && r[k].index < |t.transitions|
                  && IsFirstChild(t, s, Initial, t.transitions[r[k].index].source)
                  && IsFirstTransition(t, t.transitions[r[k].index].source, r[k].index))
            && (forall k | 0 <= k < |r| && r[k].Synthetic? && !attr ::
                  !HasChildTagged(t, s, Initial) && IsFirstChild(t, s, State, r[k].target))
            && (r == [] <==>
                  && !attr
                  && (forall i | IsFirstChild(t, s, Initial, i) :: TransitionsOf(t, i) == [])
                  && (!HasChildTagged(t, s, Initial) ==> !HasChildTagged(t, s, State)))
  {
    var attr := s < |t.nodes| && t.nodes[s].initial.Some?;
    if !attr && FirstChild(t, s, Initial).Some? {
      var i := FirstChild(t, s, Initial).value;
      forall i' | IsFirstChild(t, s, Initial, i') ensures i' == i {
        FirstChildUnique(t, s, Initial, i, i');
      }
    }
  }

  /** There is only one first child of a given kind. */
  lemma FirstChildUnique(t: Tree, e: NodeId, tag: Tag, a: NodeId, b: NodeId)
    requires IsFirstChild(t, e, tag, a) && IsFirstChild(t, e, tag, b)
    ensures a == b
  {}

  /**
   * A transition as the interpreter holds it: a declared `<transition>`, or the
   * detached element that `createTransitionTo(target)` makes.
   */
  datatype TransRef = Declared(index: TransId) | Synthetic(target: NodeId)

  predicate RefOk(t: Tree, r: TransRef) {
    match r
    case Declared(i) => i < |t.transitions|
    case Synthetic(s) => 0 < s < |t.nodes|
  }

  /** Transitions that are all declared `<transition>` elements of the document. */
  predicate AllDeclared(t: Tree, ts: seq<TransRef>) {
    forall k | 0 <= k < |ts| :: ts[k].Declared? && RefOk(t, ts[k])
  }

  /** `getTargetStates(t)`. */
  function TargetsOf(t: Tree, r: TransRef): seq<NodeId>
    requires RefOk(t, r)
  {
    match r
    case Declared(i) => t.transitions[i].targets
    case Synthetic(s) => [s]
  }

  /** The executable children of a transition; a created element has none. */
  function ContentOf(t: Tree, r: TransRef): seq<ActionId>
    requires RefOk(t, r)
  {
    match r
    case Declared(i) => t.transitions[i].content
    case Synthetic(_) => []
  }

  /** The first target of the default entry of `s`, when there is one. */
  function DefaultTarget(t: Tree, s: NodeId): Option<NodeId> {
    var its := InitialTransitionsFor(t, s);
    if its == [] || !RefOk(t, its[0]) || TargetsOf(t, its[0]) == [] then None
    else Some(TargetsOf(t, its[0])[0])
  }

  predicate TransitionOk(t: Tree, tr: Transition) {
    && tr.source < |t.nodes|
    && (forall k | 0 <= k < |tr.targets| ::
          0 < tr.targets[k] < |t.nodes| && HasTagIn(t, tr.targets[k], {State, Parallel, Final, History}))
  }

  predicate NodeShapeOk(t: Tree, x: NodeId)
    requires x < |t.nodes|
  {
    && (t.nodes[x].initial.Some? ==>
          var y := t.nodes[x].initial.value;
          HasTag(t, y, State) && IsDescendant(t, y, x))
    && (HasTag(t, x, Initial) ==> FirstTransition(t, x).Some?)
    && (HasTag(t, x, History) ==>
          && FirstTransition(t, x).Some?
          && var d := t.transitions[FirstTransition(t, x).value];
             forall k | 0 <= k < |d.targets| :: !HasTag(t, d.targets[k], History))
  }

  /**
   * The documents the model covers: ids resolve to nodes, every `<initial>`
   * and `<history>` has a `<transition>`, a history default never targets a
   * `<history>`, an `initial` attribute names a `<state>` below its node, and
   * every compound state other than `<scxml>` has a default target below it. The interpreter can still throw on such a
   * document (a transition without a `target`, `Start`, `EventLoop`) or loop
   * (an eventless transition, `EventLoop`); both are modelled outcomes.
   */
  predicate Valid(t: Tree) {
    && |t.nodes| > 0
    && t.nodes[Root].tag == Scxml
    && t.nodes[Root].parent.None?
    && (forall x | 0 < x < |t.nodes| ::
          && t.nodes[x].tag != Scxml
          && t.nodes[x].parent.Some?
          && t.nodes[x].parent.value < x
          && t.nodes[t.nodes[x].parent.value].tag in {Scxml, State, Parallel})
    && (forall i | 0 <= i < |t.transitions| :: TransitionOk(t, t.transitions[i]))
    && (forall x | 0 <= x < |t.nodes| :: NodeShapeOk(t, x))
    && (forall x | 0 < x < |t.nodes| :: IsCompound(t, x) ==>
          DefaultTarget(t, x).Some? && IsDescendant(t, DefaultTarget(t, x).value, x))
  }
}

=== FILE: tree_facts.dfy ===
/**
 * Facts about the tree queries of `StateTree`: `isDescendant` is a strict
 * order along parent links, `getProperAncestors` walks exactly the parent
 * chain, and in a valid document `isCompoundState` (a descendant search)
 * agrees with a direct-children test.
 */
module TreeFacts {
  import opened Wrappers
  import opened StateTree

  /** A descendant always comes later in document order, so `isDescendant` is strict. */
  lemma {:induction false} DescendantIsLater(t: Tree, x: NodeId, a: NodeId)
    requires IsDescendant(t, x, a)
    ensures a < x
    ensures !IsDescendant(t, a, x)
    decreases x
  {
    var p := Parent(t, x).value;
    if p != a {
      DescendantIsLater(t, p, a);
    }
    if IsDescendant(t, a, x) {
      DescendantBelow(t, a, x);
    }
  }

  lemma {:induction false} DescendantBelow(t: Tree, x: NodeId, a: NodeId)
    requires IsDescendant(t, x, a)
    ensures a < x
    decreases x
  {
    var p := Parent(t, x).value;
    if p != a {
      DescendantBelow(t, p, a);
    }
  }

  lemma {:induction false} DescendantTransitive(t: Tree, x: NodeId, y: NodeId, z: NodeId)
    requires IsDescendant(t, x, y) && IsDescendant(t, y, z)
    ensures IsDescendant(t, x, z)
    decreases x
  {
    var p := Parent(t, x).value;
    if p != y {
      DescendantTransitive(t, p, y, z);
    }
  }

  /** A descendant has strictly more proper ancestors, hence a strictly smaller rank. */
  lemma {:induction false} DescendantDeeper(t: Tree, x: NodeId, a: NodeId)
    requires IsDescendant(t, x, a)
    ensures Depth(t, a) < Depth(t, x)
    ensures Rank(t, x) < Rank(t, a)
    decreases x
  {
    var p := Parent(t, x).value;
    if p != a {
      DescendantDeeper(t, p, a);
    }
    DepthBounded(t, x);
    DepthBounded(t, a);
  }

  lemma DepthBounded(t: Tree, x: NodeId)
    ensures Depth(t, x) <= |t.nodes|
    ensures Rank(t, x) == |t.nodes| - Depth(t, x)
  {
    if x >= |t.nodes| {
      assert Parent(t, x) == None;
    }
  }

  lemma ChildRank(t: Tree, c: NodeId, p: NodeId)
    requires Parent(t, c) == Some(p)
    ensures Rank(t, c) + 1 == Rank(t, p)
  {
    DepthBounded(t, c);
    DepthBounded(t, p);
  }

  /** Without a boundary the walk collects `x` and everything above it. */
  lemma {:induction false} ChainFromNone(t: Tree, x: NodeId, a: NodeId)
    ensures a in ChainFrom(t, Some(x), None) <==> a == x || IsDescendant(t, x, a)
    decreases x
  {
    if x == Root {
      assert Parent(t, x) == None;
    } else {
      match Parent(t, x)
      case None =>
      case Some(p) => ChainFromNone(t, p, a);
    }
  }

  /**
   * `getProperAncestors(s, null)` holds exactly the nodes that `s` is a
   * descendant of; in particular never `s` itself.
   */
  lemma AncestorsWithoutBoundary(t: Tree, s: NodeId, a: NodeId)
    ensures a in ProperAncestors(t, s, None) <==> IsDescendant(t, s, a)
    ensures s !in ProperAncestors(t, s, None)
  {
    match Parent(t, s)
    case None =>
    case Some(p) =>
      ChainFromNone(t, p, a);
      ChainFromNone(t, p, s);
      if IsDescendant(t, s, s) {
        DescendantIsLater(t, s, s);
      }
  }

  lemma {:induction false} ChainFromBoundary(t: Tree, x: NodeId, b: NodeId, a: NodeId)
    requires x == b || IsDescendant(t, x, b)
    ensures a in ChainFrom(t, Some(x), Some(b)) <==>
              (a == x || IsDescendant(t, x, a)) && IsDescendant(t, a, b)
    decreases x
  {
    if x == b {
      if IsDescendant(t, b, a) && IsDescendant(t, a, b) {
        DescendantIsLater(t, a, b);
      }
      if a == b && IsDescendant(t, a, b) {
        DescendantIsLater(t, a, b);
      }
    } else {
      var p := Parent(t, x).value;
      ChainFromBoundary(t, p, b, a);
    }
  }

  /**
   * With a boundary `b` above `s`, `getProperAncestors(s, b)` holds exactly the
   * nodes strictly between `s` and `b`: never `s`, never `b`.
   */
  lemma AncestorsWithBoundary(t: Tree, s: NodeId, b: NodeId, a: NodeId)
    requires IsDescendant(t, s, b)
    ensures a in ProperAncestors(t, s, Some(b)) <==> IsDescendant(t, s, a) && IsDescendant(t, a, b)
    ensures s !in ProperAncestors(t, s, Some(b)) && b !in ProperAncestors(t, s, Some(b))
  {
    var p := Parent(t, s).value;
    ChainFromBoundary(t, p, b, a);
    ChainFromBoundary(t, p, b, s);
    ChainFromBoundary(t, p, b, b);
    if IsDescendant(t, s, s) {
      DescendantIsLater(t, s, s);
    }
    if IsDescendant(t, b, b) {
      DescendantIsLater(t, b, b);
    }
  }

  /** Every member of `getProperAncestors(s, b)` lies strictly below `b`. */
  lemma AncestorsBelowBoundary(t: Tree, s: NodeId, b: NodeId)
    requires IsDescendant(t, s, b)
    ensures forall a | a in ProperAncestors(t, s, Some(b)) :: IsDescendant(t, a, b)
  {
    forall a | a in ProperAncestors(t, s, Some(b))
      ensures IsDescendant(t, a, b)
    {
      AncestorsWithBoundary(t, s, b, a);
    }
  }

  /** Consecutive entries of the walk are child and parent. */
  lemma {:induction false} ChainLinks(t: Tree, o: Option<NodeId>, b: Option<NodeId>)
    ensures var c := ChainFrom(t, o, b);
            && (c != [] ==> o == Some(c[0]))
            && forall k | 0 <= k < |c| - 1 :: Parent(t, c[k]) == Some(c[k + 1])
    decreases if o.Some? then o.value + 1 else 0
  {
    if o == b || o.None? {
    } else if b.None? && o.value == Root {
    } else {
      var rest := ChainFrom(t, Parent(t, o.value), b);
      ChainLinks(t, Parent(t, o.value), b);
      assert ChainFrom(t, o, b) == [o.value] + rest;
    }
  }

  /** Earlier entries of an ancestor walk are descendants of later ones. */
  lemma {:induction false} ChainOrdered(t: Tree, o: Option<NodeId>, b: Option<NodeId>, j: nat, k: nat)
    requires j < k < |ChainFrom(t, o, b)|
    ensures IsDescendant(t, ChainFrom(t, o, b)[j], ChainFrom(t, o, b)[k])
    decreases k - j
  {
    var c := ChainFrom(t, o, b);
    ChainLinks(t, o, b);
    if j + 1 < k {
      ChainOrdered(t, o, b, j + 1, k);
      assert Parent(t, c[j]) == Some(c[j + 1]);
    }
  }

  /**
   * In a valid tree `getProperAncestors(s, null)` of a non-root node is the
   * parent chain: it starts at the parent, each entry is the parent of the
   * previous one, and it ends with the root.
   */
  lemma {:induction false} AncestorsReachRoot(t: Tree, s: NodeId)
    requires Valid(t) && 0 < s < |t.nodes|
    ensures var c := ProperAncestors(t, s, None);
            && c != []
            && Parent(t, s) == Some(c[0])
            && (forall k | 0 <= k < |c| - 1 :: Parent(t, c[k]) == Some(c[k + 1]))
            && c[|c| - 1] == Root
  {
    ChainLinks(t, Parent(t, s), None);
    ChainEndsAtRoot(t, Parent(t, s).value);
  }

  lemma {:induction false} ChainEndsAtRoot(t: Tree, x: NodeId)
    requires Valid(t) && x < |t.nodes|
    ensures var c := ChainFrom(t, Some(x), None); c != [] && c[|c| - 1] == Root
    decreases x
  {
    if x != Root {
      var p := Parent(t, x).value;
      ChainEndsAtRoot(t, p);
    }
  }

  /** In a valid tree every non-root node is a descendant of the root. */
  lemma {:induction false} BelowRoot(t: Tree, x: NodeId)
    requires Valid(t) && 0 < x < |t.nodes|
    ensures IsDescendant(t, x, Root)
    decreases x
  {
    var p := Parent(t, x).value;
    if p != Root {
      BelowRoot(t, p);
    }
  }

  /** A descendant of `x` has an ancestor-or-self that is a direct child of `x`. */
  lemma {:induction false} ChildOnPath(t: Tree, d: NodeId, x: NodeId) returns (c: NodeId)
    requires IsDescendant(t, d, x)
    ensures Parent(t, c) == Some(x)
    ensures c == d || IsDescendant(t, d, c)
    decreases d
  {
    var p := Parent(t, d).value;
    if p == x {
      c := d;
    } else {
      c := ChildOnPath(t, p, x);
    }
  }

  /**
   * In a valid tree the descendant search of `isCompoundState` agrees with a
   * test on direct children: a node is compound exactly when it has a
   * `<state>` or `<parallel>` child.
   */
  lemma CompoundIffStateChild(t: Tree, x: NodeId)
    requires Valid(t)
    ensures IsCompound(t, x) <==> ChildrenTagged(t, x, {State, Parallel}) != []
  {
    var cs := ChildrenTagged(t, x, {State, Parallel});
    if IsCompound(t, x) {
      var d :| 0 <= d < |t.nodes| && IsDescendant(t, d, x) && HasTagIn(t, d, {State, Parallel});
      var c := ChildOnPath(t, d, x);
      if c != d {
        var y := ChildOnPath(t, d, c);
        assert 0 < y < |t.nodes|;
        assert t.nodes[y].parent == Some(c);
      }
      assert c in cs;
    } else if cs != [] {
      var c := cs[0];
      assert c in cs;
      assert IsDescendant(t, c, x);
    }
  }
}

=== FILE: wrappers.dfy ===
/** Helper datatypes shared by the statechart model. */
module Wrappers {

  /** An optional value; `None` plays the part of a missing element or `null`. */
  datatype Option<+T> = None | Some(value: T)
}
